=== FILE: README.md ===
# Surplus food marketplace frontend: a Dafny model

This project models the client-side behaviour of the surplus-food marketplace's React
frontend. On that site:

- restaurants list leftover food at a discount, and customers reserve and pay for it;
- customers collect their food with a QR code or a 4-digit pickup code;
- an admin approves restaurants and manages accounts.

Every page is modelled as data plus pure functions. Each UI component is a step
function `(state, event) -> state` that keeps a log of its effects: the requests it
sends, the alerts it shows, and where it navigates. A network call is never made. Each
request is answered by a `Reply` value that the events carry: either the payload of a
successful response, or a failure with the optional `message` of the error body.

| module | file | what it models |
|---|---|---|
| `Wrappers` | wrappers.dfy | `Option`, `Reply`, JavaScript truthiness and `a \|\| b` |
| `Text` | text.dfy | digit filtering, prefixes and `includes`, `slice(-n)`, ASCII upper-casing, decimal printing |
| `Domain` | domain.dfy | listings, orders, restaurants, customers, multipart bodies, requests and effects |
| `Lists` | lists.dfy | replacing and removing the entry with a given `_id` |
| `CardFormat` | card_format.dfy | the payment modal's card-number formatter and card-network label |
| `Payment` | payment.dfy | the simulated payment modal and its two timers |
| `NumberField` | number_field.dfy | the quantity box's text and its two readings, `parseInt` and number conversion |
| `Checkout` | checkout.dfy | buying and adding to cart from a listing page |
| `OrderDisplay` | order_display.dfy | status badges, placed-only pickup information, order labels |
| `PickupTerminal` | pickup_terminal.dfy | the restaurant's pickup-code check and QR scanner toggle |
| `Profile` | profile.dfy | the customer profile: avatar letter, profile update, cart, orders, account deletion |
| `Images` | images.dfy | how listing photos and restaurant avatars are resolved to URLs |
| `Marketplace` | marketplace.dfy | discount badge, category filter, listing cards, food-safety agreement |
| `VendorDashboard` | vendor_dashboard.dfy | the restaurant dashboard: loading, approval gate, deleting listings |
| `AdminDashboard` | admin_dashboard.dfy | the admin console: toggles, permanent delete, drill-down views |
| `Auth` | auth.dfy | the session context and the login page's role routing |
| `SupportBot` | support_bot.dfy | the help widget's classifier and chat log |
| `Location` | location.dfy | the location picker's address derivation, label and confirmation |
| `Registration` | registration.dfy | the restaurant and customer sign-up forms |

## Model

| member | source | states |
|---|---|---|
| CardFormat.Format | src/components/FakeRazorpay.jsx:92 | The field holds exactly the digits typed, in order, in groups of four separated by single spaces, with no leading or trailing space. |
| CardFormat.FormatUnique | src/components/FakeRazorpay.jsx:92 | What the field shows depends only on the digits typed: it is the one well-grouped string carrying them. |
| CardFormat.FormatIdempotent | src/components/FakeRazorpay.jsx:92 | Formatting a value that is already formatted changes nothing. |
| CardFormat.CardType | src/components/FakeRazorpay.jsx:15-20 | The label is Visa, MasterCard or RuPay exactly when the number starts with 4, 5 or 6, and empty otherwise. |
| CardFormat.CardTypeOfFormatted | src/components/FakeRazorpay.jsx:92-95 | The label beside the formatted field is the one of the first digit typed. |
| Payment.PaymentId | src/components/FakeRazorpay.jsx:31 | The payment token is `fake_payment_id_` followed by decimal digits whose value is the timestamp. |
| Payment.MountConsistent | src/components/FakeRazorpay.jsx:5 | A new modal starts on the payment-method list, with no timers and no calls. |
| Payment.NextConsistent | src/components/FakeRazorpay.jsx:22-120 | The step moves only from methods to card, card back to methods, card to processing on submit, and processing to success on the first timer. The pending timers and success calls stay in step with it. |
| Payment.RunConsistent | src/components/FakeRazorpay.jsx:22-120 | Over any sequence of events the bookkeeping stays consistent, and success is final. |
| Payment.AtMostOneSuccess | src/components/FakeRazorpay.jsx:27-33 | From mounting, `onPaymentSuccess` is called at most once and `onPaymentFailure` never. |
| Payment.SubmitThenTimers | src/components/FakeRazorpay.jsx:22-33 | Submitting a filled card form leads to processing, then success, then exactly one success call with the second timer's timestamp. |
| Payment.CloseKeepsProgress | src/components/FakeRazorpay.jsx:36-49 | Closing, or the parent hiding the modal, leaves the step and the timers alone. A payment in progress still completes. |
| Payment.HiddenIgnoresInput | src/components/FakeRazorpay.jsx:36 | While the modal is not rendered, no click or keystroke has any effect. |
| Payment.DisabledMethodsInert | src/components/FakeRazorpay.jsx:64-79 | The disabled Netbanking and UPI items never change anything. |
| NumberField.ScanParts | src/pages/ListingDetail.jsx:114-120 | Any text splits into a sign, whole digits, an optional point with fraction digits, an optional exponent and a rest, and those pieces put back together give the text. |
| NumberField.ScanRender | src/pages/ListingDetail.jsx:114-120 | Well-formed pieces read back as themselves, so every valid floating-point number the field can hold has exactly one reading. |
| NumberField.NumberOf | src/pages/ListingDetail.jsx:63 | The number conversion of the field gives 0 for the cleared field and otherwise the value sign × digits.fraction × 10^exponent of its one reading, as an exact real (doubles are not modelled). |
| NumberField.ParseIntText | src/pages/ListingDetail.jsx:39 | `parseInt` reads back the decimal text of any integer, whatever non-digit follows it, except an `x` or `X` right after the text `0`, which starts a hexadecimal prefix. The result is an exact integer (doubles are not modelled). |
| NumberField.ParseIntHex | src/pages/ListingDetail.jsx:39 | After an optional sign, `0x` or `0X` makes `parseInt` read the hexadecimal digits that follow, and gives `NaN` when none follow. |
| NumberField.ParseIntOfField | src/pages/ListingDetail.jsx:39 | On a field value `parseInt` gives the signed digits before any point or exponent, and `NaN` when there are none. |
| NumberField.IntTextReadings | src/pages/ListingDetail.jsx:39-63 | On the text of an integer `n`, both `parseInt` and the number conversion give `n`, read exactly (doubles are not modelled). |
| NumberField.ReadInt | src/pages/ListingDetail.jsx:39-63 | The reading of an integer's text is that integer, as a count and as a number, read exactly (doubles are not modelled). |
| NumberField.FractionCutOff | src/pages/ListingDetail.jsx:39-63 | "1.5" is a field value; `parseInt` gives 1 and the conversion 1.5. |
| NumberField.ExponentCutOff | src/pages/ListingDetail.jsx:39-63 | "1e2" is a field value; `parseInt` gives 1 and the conversion 100. |
| NumberField.NoWholeDigits | src/pages/ListingDetail.jsx:39-63 | ".5" is a field value; `parseInt` gives `NaN` and the conversion 0.5. |
| NumberField.ClearedField | src/pages/ListingDetail.jsx:39-63 | The cleared field gives `NaN` to `parseInt` and 0 to the conversion. |
| Checkout.InitialQuantityReadsOne | src/pages/ListingDetail.jsx:10 | The field's initial 1 reads as the text "1" does: count 1 and number 1. |
| Checkout.OrderRequest | src/pages/ListingDetail.jsx:57-60 | The order body names the listing's restaurant and holds exactly one item: this listing, with `parseInt` of the field as its quantity (`null` for `NaN`). |
| Checkout.BuyButton | src/pages/ListingDetail.jsx:129-130 | The Buy button offers a price exactly when the listing is active, and the price is the discounted price times the field's number conversion. |
| Checkout.OrderMatchesPrompt | src/pages/ListingDetail.jsx:57-63 | When the field holds an integer's text, the order's quantity is the factor the prompt multiplies the price by. |
| Checkout.OrderDisagreesWithPrompt | src/pages/ListingDetail.jsx:57-63 | "1.5" and "1e2" order one item but prompt for 1.5 and 100 times the price. ".5" orders a `null` quantity for half the price. The cleared field orders `null` for ₹0. |
| Checkout.RunTraced | src/pages/ListingDetail.jsx:47-77 | In one run of the Buy handler, requests go out one after the other. The prompt comes only after the order was created, and the confirmation only after the prompt was accepted, for the created order. |
| Checkout.PageRunTraced | src/pages/ListingDetail.jsx:47-77 | However clicks, edits and replies interleave across several runs, each run keeps to that trace. The page's log is an interleaving of the runs' logs: every effect belongs to one run, and each run's effects, in order, are exactly that run's own log. |
| Checkout.DoubleClickOrdersTwice | src/pages/ListingDetail.jsx:129 | Two clicks before any reply send two identical orders: the button is disabled only by the listing's status. |
| Checkout.EditAfterClick | src/pages/ListingDetail.jsx:47-63 | Editing the field after a click changes the field but not that run: its prompt uses the quantity of its click. |
| Checkout.LoggedOutSendsNothing | src/pages/ListingDetail.jsx:48-51 | Without a signed-in user the only effect is the redirect to the login page. |
| Checkout.ConfirmationOnlyAfterPrompt | src/pages/ListingDetail.jsx:63-66 | A payment confirmation is always the third effect, after the order request and the prompt for the total. |
| Checkout.HappyPath | src/pages/ListingDetail.jsx:57-68 | Paying produces the order request, the prompt, the confirmation of the returned order, the success alert and the move to the profile. |
| Checkout.DeclinedPrompt | src/pages/ListingDetail.jsx:69-71 | Declining the prompt sends no confirmation and only alerts "Payment cancelled.". |
| Checkout.CreationFails | src/pages/ListingDetail.jsx:73-76 | A failed order creation shows the server's message or "Order failed", and nothing happens after that. |
| Checkout.ConfirmationFails | src/pages/ListingDetail.jsx:63-76 | A failed confirmation shows the server's message or "Order failed" and does not navigate. |
| Checkout.QuantityNotRechecked | src/pages/ListingDetail.jsx:57-63 | The click handler does not check the quantity against 1..remaining again: the order carries `parseInt` of the field and the prompt the price times its number, whatever the stock. |
| Checkout.InactiveListingInert | src/pages/ListingDetail.jsx:126-129 | On a listing that is not active, the disabled buttons produce no effect at all. |
| Checkout.AddToCart | src/pages/ListingDetail.jsx:29-45 | On a disabled listing nothing happens. Signed out, it only redirects to login. Otherwise it sends one cart request with `parseInt` of the field, then alerts "Added to cart!" on success and "Failed to add to cart" on failure. |
| Checkout.CartAndOrderAgree | src/pages/ListingDetail.jsx:29-60 | The cart and Buy buttons do nothing in the same cases and redirect a signed-out visitor alike. Otherwise the cart request and the order's item carry the same listing and quantity. |
| OrderDisplay.BadgesMatchPickup | src/pages/user/Dashboard.jsx:39-54 | On both sides, the success badge marks exactly the orders that offer pickup. For the customer, warning means exactly collected and danger means reserved or cancelled. |
| OrderDisplay.OrderLabel | src/pages/user/Dashboard.jsx:38 | The label is `#` followed by the id's last six characters (all of them if there are fewer). |
| OrderDisplay.OrderLabelInjectiveOnSuffix | src/pages/admin/Dashboard.jsx:368 | Two labels are equal exactly when the ids end in the same six characters. |
| OrderDisplay.PickupViewsShowIdAndCode | src/pages/user/Dashboard.jsx:83-97 | The QR code encodes the order id and never the pickup code. The typed code is the pickup code, or `----` when there is none. |
| OrderDisplay.SelectForPickup | src/pages/user/Dashboard.jsx:54-55 | Only a placed order can be selected for the pickup modal, and the selection is that order. |
| PickupTerminal.SanitizeCode | src/pages/vendor/Orders.jsx:85-90 | The manual code holds only digits, at most four of them. An input of four characters or fewer keeps exactly its digits. |
| PickupTerminal.RunKeepsCodeSanitized | src/pages/vendor/Orders.jsx:85-90 | Whatever is typed, clicked or answered, the field never holds a non-digit or more than four characters. |
| PickupTerminal.VerifyGate | src/pages/vendor/Orders.jsx:49-57 | `{pickupCode}` is sent exactly when the code has four characters. Otherwise the page only alerts. |
| PickupTerminal.VerifySucceeded | src/pages/vendor/Orders.jsx:57-60 | Success shows the server's message as a success, clears the field and fetches the orders again. |
| PickupTerminal.VerifyFailed | src/pages/vendor/Orders.jsx:61-63 | Failure shows the server's message or "Verification Failed", keeps the code, and neither refetches nor changes the orders. |
| PickupTerminal.ToggleFlips | src/pages/vendor/Orders.jsx:73 | The scanner button flips `scanning` and clears the result banner. |
| PickupTerminal.OneDecodePerSession | src/pages/vendor/Orders.jsx:25-45 | Between two toggles at most one decoded text is handed on. A stopped scanner stays stopped. |
| PickupTerminal.CollectOnlyPlaced | src/pages/vendor/Orders.jsx:110-120 | "Manual Collect" acts only on placed orders, which carry the success badge, and hands on that order's id. |
| Profile.FirstLetter | src/pages/user/Profile.jsx:129 | The avatar letter is `?` for a missing or empty name, otherwise the upper-cased first character. |
| Profile.FirstLetterProperties | src/pages/user/Profile.jsx:129 | The letter depends only on the first character and ignores its ASCII case. It is never a lower-case ASCII letter, and fed back as a name it gives itself. |
| Profile.UpdateParts | src/pages/user/Profile.jsx:82-87 | The update body always has name, email and phone, in that order. It includes the password only when one is typed and the image only when one is chosen. |
| Profile.UpdateReadBack | src/pages/user/Profile.jsx:82-87 | Looking up name, email or phone in the update body finds the form's value. The password and the image are found exactly when they were sent. |
| Profile.Merge | src/pages/user/Profile.jsx:92-94 | The new stored record has the union of the keys. The reply's value wins on shared keys, and the stored value stays everywhere else. |
| Profile.MergeIdempotent | src/pages/user/Profile.jsx:92-94 | Merging the same reply twice is merging it once, and an empty reply keeps the stored record. |
| Profile.SubmitUpdate | src/pages/user/Profile.jsx:76-101 | With a stored session it sends the body. Success merges the reply into storage, leaves edit mode, alerts and reloads. Failure alerts the server's message or "Update failed" and changes nothing. Without a stored session it only alerts "Update failed". |
| Profile.UpdateThenReload | src/pages/user/Profile.jsx:92-98 | After the reload the user is the merged record, memory and storage agree, and every key the reply lacked (the token among them) survives. |
| Profile.Mount | src/pages/user/Profile.jsx:28-34 | With a signed-in user and a stored session the page fetches the profile, the orders and the cart. Otherwise it sends nothing, and the loader stays. |
| Profile.LoaderClearedOnlyByOrders | src/pages/user/Profile.jsx:53-63 | The loader goes away only through a successful order fetch, and once gone it never comes back. |
| Profile.CartChangesOnlyByFetch | src/pages/user/Profile.jsx:65-113 | The cart shown changes only through a successful cart fetch. Removing a line never edits it locally. |
| Profile.RemoveOutcomes | src/pages/user/Profile.jsx:104-113 | A removal that succeeds fetches the cart again. One that fails alerts "Failed to remove item". Neither touches the cart shown. |
| Profile.LoaderBlocksInput | src/pages/user/Profile.jsx:131 | While the loader shows, no remove or pickup click has an effect. |
| Profile.PickupModalOnlyPlaced | src/pages/user/Profile.jsx:273-303 | The pickup modal opens only for a placed order, and its QR value is that order's id. |
| Profile.DeleteAccountFlow | src/pages/user/Profile.jsx:115-127 | Nothing happens without confirmation. The session is cleared and the page goes to login exactly when a confirmed request succeeds. Any other confirmed attempt ends with "Account deletion failed". |
| Marketplace.CalculateDiscount | src/pages/Home.jsx:55-57 | The badge is the integer that `Math.round` gives for `100 (o - d) / (o \|\| 1)`, pinned by its bounds. |
| Marketplace.DiscountIsRoundHalfUp | src/pages/Home.jsx:55-57 | The badge lies within half a point of the exact percentage, and a value exactly halfway rounds up. |
| Marketplace.DiscountRange | src/pages/Home.jsx:55-57 | Full price gives 0 and free gives 100. A discounted price stays within 0..100. A zero original price divides by 1. |
| Marketplace.CategoryUrl | src/pages/Home.jsx:34-37 | "All" fetches `/api/listings`. Any other category fetches `/api/listings?category=` followed by that category. |
| Marketplace.CategoryUrlRoundTrip | src/pages/Home.jsx:34-37 | The category can be read back from its URL, so two categories never fetch the same URL. |
| Marketplace.CardView | src/pages/Home.jsx:148-197 | A sold-out card is a plain block with the sold-out badge. Any other card links to its listing and shows the discount, the quantity left and both prices. |
| Marketplace.CardGating | src/pages/Home.jsx:148-197 | A card is a link exactly when it shows the discount, the quantity and the prices, and exactly when the listing is active. |
| Marketplace.Mount | src/pages/Home.jsx:9-31 | On mount the safety modal shows exactly when no agreement is stored, and every category is fetched. |
| Marketplace.SafetyModal | src/pages/Home.jsx:17-27 | The modal is open exactly while no agreement is stored. Agreeing stores `"true"` and closes it only when the box is ticked. |
| Marketplace.CategoryFetch | src/pages/Home.jsx:29-37 | Choosing another filter fetches exactly that category's URL. Choosing the current one fetches nothing. |
| Images.ImageUrl | src/pages/Home.jsx:59-64 | No path gives the stock photo. An `http` path is used as is. A relative path is appended to the API origin after a `/`. |
| Images.ImageUrlResolvesOnce | src/pages/Home.jsx:59-64 | With an absolute origin every resolved URL is absolute, so resolving it again gives it back. |
| Images.ImageUrlKeepsRelativePath | src/pages/Home.jsx:59-64 | A relative path can be read back from its URL, so two paths never share one. |
| Images.VendorImage | src/pages/admin/Dashboard.jsx:199-203 | An `http` avatar is used as is. Otherwise the image, or `placeholder-restaurant.jpg`, with one leading slash dropped, is appended to the origin after a `/`. |
| Images.AvatarAndPhotoAgree | src/pages/admin/Dashboard.jsx:199-203 | The avatar and photo resolutions agree except on a missing image and on a relative path that starts with `/`. There the avatar drops the slash and the photo doubles it. |
| VendorDashboard.Load | src/pages/vendor/Dashboard.jsx:13-37 | Without a stored session nothing is fetched and the loader stays. Otherwise the profile is fetched, and the listings only after it succeeds. Listings are shown only from a successful fetch. |
| VendorDashboard.ViewOf | src/pages/vendor/Dashboard.jsx:59-119 | The loader shows exactly while loading. The pending view shows exactly for a known unapproved restaurant. Otherwise there is one card per listing, with its id and resolved image. |
| VendorDashboard.ApprovalGate | src/pages/vendor/Dashboard.jsx:61-77 | An unapproved restaurant sees the pending view whatever its listings are. A failed profile fetch shows an empty grid under "Restaurant Owner". |
| VendorDashboard.ApplyDeleteAsWritten | src/pages/vendor/Dashboard.jsx:45 | A successful delete sets the list to the list captured at click time, without the id. |
| VendorDashboard.ApplyDelete | src/pages/vendor/Dashboard.jsx:45 | Corrected: a successful delete removes the id from the current list (as written, line 45 filters the list captured by the click). |
| VendorDashboard.DeleteOutcomes | src/pages/vendor/Dashboard.jsx:39-50 | Nothing is sent without confirmation. A single delete that succeeds removes exactly that listing and keeps the rest in order. A failure alerts "Failed to delete" and keeps the list. |
| VendorDashboard.DeletedStaysGone | src/pages/vendor/Dashboard.jsx:39-50 | With the corrected update, a deleted listing never reappears, whatever is clicked or answered later. |
| VendorDashboard.OverlappingDeletesResurrect | src/pages/vendor/Dashboard.jsx:45 | As written, two deletes answered in turn leave the first listing on screen. The corrected page shows none. |
| AdminDashboard.Mount | src/pages/admin/Dashboard.jsx:15-24 | The console opens on the restaurants view with the loader and a closed modal. It fetches the restaurants exactly when the session has a token. |
| AdminDashboard.ToggleReplacesOne | src/pages/admin/Dashboard.jsx:52-72 | A successful toggle puts the returned record, whatever its id, in place of the clicked entry and keeps the other entries in order. A failed restaurant or customer toggle sends its request, alerts its own failure text and keeps the list. |
| AdminDashboard.PermanentDelete | src/pages/admin/Dashboard.jsx:82-94 | Without a restaurant id nothing happens. Success removes that restaurant, resets the modal and confirms. Failure alerts and leaves the modal open. |
| AdminDashboard.RemovesExactlyOne | src/pages/admin/Dashboard.jsx:74-88 | Opening the modal on a restaurant and confirming removes exactly that restaurant, with the rest kept in order. |
| AdminDashboard.RemovesListingExactlyOne | src/pages/admin/Dashboard.jsx:128-138 | Removing an inventory item does nothing unless confirmed. Once confirmed it sends the DELETE for that item. Success drops exactly that item and keeps the rest in order; failure alerts "Failed to remove item" and keeps the list. |
| AdminDashboard.ViewMoves | src/pages/admin/Dashboard.jsx:96-126 | The inventory and activity views are entered only by a successful fetch. The back buttons return to the restaurant and user lists. A drill-down view always has its record selected. |
| AdminDashboard.RunKeepsSelection | src/pages/admin/Dashboard.jsx:96-126 | Over any sequence of events a drill-down view never shows without its selected record. |
| AdminDashboard.DrillDownFailure | src/pages/admin/Dashboard.jsx:105-109 | A failed inventory fetch alerts, clears the loader and stays on the restaurant list. |
| Lists.ReplaceExactlyOne | src/pages/admin/Dashboard.jsx:56 | With unique ids, replacing by id changes exactly the entry at that position. |
| Lists.RemoveExactlyOne | src/pages/admin/Dashboard.jsx:87 | With unique ids, filtering out an id removes exactly the entry at that position and keeps the order. |
| Auth.Restore | src/context/AuthContext.jsx:10-17 | On start the user is the stored record if there is one, otherwise null. |
| Auth.Login | src/context/AuthContext.jsx:19-28 | Success stores and returns the record. Failure throws the server's message or "Login failed" and changes nothing. |
| Auth.RegisterUser | src/context/AuthContext.jsx:30-38 | Success stores the record and returns nothing. Failure throws the message or "Registration failed". |
| Auth.RegisterVendor | src/context/AuthContext.jsx:40-49 | Success stores and returns the record. Failure throws the message or "Registration failed". |
| Auth.Logout | src/context/AuthContext.jsx:51-54 | Logout clears both the user and the stored record. |
| Auth.SessionStaysSynced | src/context/AuthContext.jsx:19-54 | Memory and storage agree after start-up and after every operation. |
| Auth.SubmitLogin | src/pages/Login.jsx:12-22 | A successful login navigates by role and leaves the error shown as it was. A failure sets the error and does not navigate. |
| Auth.LoginRoutes | src/pages/Login.jsx:16-18 | Admins go to `/admin-dashboard`, vendors to `/vendor-dashboard`, and every other account to `/`. |
| SupportBot.Classify | src/components/AiSupportBot.jsx:31-39 | Classification is first-match: "How does this work", then "refund", then "food safety", else the fallback. |
| SupportBot.ClassifyIntended | src/components/AiSupportBot.jsx:31-39 | The same classifier, with the safety test on "food safe". |
| SupportBot.ButtonsAsWritten | src/components/AiSupportBot.jsx:31-39 | As written, the how-it-works and refund buttons get their answers, and "Is the food safe?" gets the fallback. |
| SupportBot.ButtonsIntended | src/components/AiSupportBot.jsx:88-96 | Corrected, each button gets its own answer. The correction only turns fallbacks into safety answers. |
| SupportBot.SafetyKeyWeaker | src/components/AiSupportBot.jsx:35 | Every question that contains "food safety" also contains "food safe". |
| SupportBot.Start | src/components/AiSupportBot.jsx:6-8 | The chat starts with exactly one bot greeting and is not typing. |
| SupportBot.NextAppendsOne | src/components/AiSupportBot.jsx:20-43 | For any classifier, a question appends one user message and sets typing. A timer appends one bot message and clears it. Earlier messages never change. |
| SupportBot.RunConversation | src/components/AiSupportBot.jsx:20-43 | For any classifier and any events, the log is the greeting, then the questions, with the k-th reply the classifier's answer to the k-th question. Typing shows only while a reply is pending. |
| SupportBot.WidgetConversation | src/components/AiSupportBot.jsx:20-43 | The widget's own chat, with the as-written classifier, keeps that shape from its greeting on. |
| SupportBot.SafetyButtonInChat | src/components/AiSupportBot.jsx:27-43 | In the chat, the safety button's question gets the fallback reply; with the corrected classifier it would get the safety answer. |
| SupportBot.TypingFlagIsShared | src/components/AiSupportBot.jsx:24-42 | With two questions pending, the first reply turns typing off although the second is not yet answered. |
| Location.CityOf | src/components/LocationPicker.jsx:56 | The city is the first truthy of city, town and village, else the village as it is. |
| Location.DistrictOf | src/components/LocationPicker.jsx:57 | The district is `state_district` when truthy, else the county. |
| Location.Derive | src/components/LocationPicker.jsx:55-67 | The details carry the derived city and district, the state, the display name and the detected coordinates. |
| Location.Label | src/components/LocationPicker.jsx:69 | The label is the city (or "Unknown"), a comma and space, then the district, or else the state, which prints "undefined" when absent. |
| Location.Locate | src/components/LocationPicker.jsx:46-81 | A position moves the marker, is looked up, clears the loader and opens the map. A lookup failure gives "Location Detected" and bare coordinates. An answer without an address changes neither label nor details. |
| Location.DetectOutcomes | src/components/LocationPicker.jsx:35-94 | Without geolocation the error shows and nothing is looked up. A refused position shows its error and clears the loader. Confirming hands the details over only when there are some, and always closes the map. |
| Location.RunConsistent | src/components/LocationPicker.jsx:35-94 | The map opens only with a marker, an error never shows with the loader, and all details shown or handed over carry a reported position. |
| Location.StaleDetailsAfterEmptyAnswer | src/components/LocationPicker.jsx:55-81 | A later detection whose answer has no address moves the marker but keeps the earlier details. |
| Location.LookupLabels | src/components/LocationPicker.jsx:55-77 | A failed lookup labels "Location Detected" with no city. An answer with nothing but a missing state labels "Unknown, undefined". |
| Registration.VendorSelect | src/pages/RegisterVendor.jsx:22-33 | Place, district, state and address take the picker's value when it is truthy and keep their own otherwise. Coordinates change only when given. All other fields are untouched. |
| Registration.VendorParts | src/pages/RegisterVendor.jsx:35-40 | The body holds the eleven form fields in order, then the image if chosen, then the coordinates JSON if set. |
| Registration.VendorReadBack | src/pages/RegisterVendor.jsx:35-40 | Looking up any field name in the restaurant's body finds that field's value, and the image and coordinates exactly when they were sent. |
| Registration.SubmitVendor | src/pages/RegisterVendor.jsx:42-47 | Success signs in, goes to `/vendor-dashboard` and leaves the error as it was. Failure sets the error and does not navigate. |
| Registration.UserSelect | src/pages/RegisterUser.jsx:74-79 | Place, district and state become the picker's values or `''`. The coordinates become whatever was handed over. Name, email, password and phone are untouched. |
| Registration.UserParts | src/pages/RegisterUser.jsx:24-39 | The body holds the seven text fields with the form's values, then the coordinates only when set, then the image only when chosen. |
| Registration.UserReadBack | src/pages/RegisterUser.jsx:24-39 | Looking up any field name in the customer's body finds that field's value, and the coordinates and image exactly when they were sent, wherever they sit. |
| Registration.SubmitUser | src/pages/RegisterUser.jsx:41-45 | Success signs in, goes to `/` and leaves the error as it was. Failure sets the error and does not navigate. |
| Registration.MergePolicies | src/pages/RegisterVendor.jsx:22-33 | Both merges are idempotent. The restaurant merge never loses a typed place. The customer merge blanks it when there is no city and drops coordinates when none are given. |
| Registration.PoliciesAgreeOnFullDetails | src/pages/RegisterUser.jsx:74-79 | With full details both forms agree. With bare coordinates the restaurant form keeps its fields and the customer form blanks its own. |

## Left out

- Network, storage and browser APIs are not modelled:
  - the HTTP calls themselves (only their replies are);
  - `localStorage` (an optional record);
  - `window.confirm` (a boolean carried by the event);
  - `window.location.reload` (a flag);
  - the geolocation API and the reverse geocoder (their answers are event parameters);
  - `setTimeout` (explicit timer events) and `Date.now()` (a number carried by the event);
  - the success sound, QR rendering, the camera-scanner library, the Leaflet map;
  - React rendering and CSS.
- `handleScan` is called by the pickup page but defined nowhere. A hand-off is recorded as an effect and nothing more is assumed.
- Replies are matched to requests by counting, as if they arrived in the order sent. A stale reply overtaking a newer one is not modelled. This applies to the listing fetches on category changes, the admin list fetches and the profile fetches.
- src/App.jsx (its route guard is not part of this model), src/components/Navbar.jsx (menu toggling) and src/axiosConfig.js (only the API origin it installs is used) are left out. src/pages/vendor/CreateListing.jsx and src/pages/vendor/EditListing.jsx are left out too: they are form plumbing plus time-zone-dependent date formatting.
- Marketplace.CalculateDiscount: computed exactly on whole-rupee prices. A floating-point quotient that lands just beside an exact half can round differently, and that is not modelled. The vendor rating's `toFixed` and the pickup-time formatting are left out.
- Profile.FirstLetter: upper-cases ASCII letters only. Unicode case mapping, such as `ß` becoming `SS`, is not modelled.
- The profile fetch that fills the edit form and sets the preview URL is not modelled. Nor are the tabs, the edit-mode button or typing in the form: they only move values into fields.
- The customer dashboard's own order fetch and loader are not modelled. They have the same shape as the profile page's, which is modelled. Only its display rules are.
- PickupTerminal.Next: the stored session is taken to be present. Without one, the token read throws and the verify shows "Verification Failed", which is not modelled.
- VendorDashboard.Next: the token read before a delete is taken to succeed.
- The admin console's inventory thumbnails (`/` + image, or `/placeholder-food.jpg`) and the `onError` image fallbacks on every page are not modelled.
- SupportBot: opening and closing the widget is not modelled, because it only toggles a CSS class and the buttons are the same either way. Scrolling is not modelled either.
- Location.Next: a position and the geocoder's answer to it are taken together as one event, although the page awaits the lookup in between. So two detections whose lookups finish out of order are not modelled: in the source they can leave the marker at one position and the details from the other.
- Location: the text of the lookup URL is not modelled, because it needs the browser's printing of floating-point coordinates. The lookup is recorded with its coordinates.
- Registration: typing in fields, choosing a file and the browser's `required` checks are not modelled.
- Checkout.Step: one run of the Buy handler ignores events outside its phase. Re-clicks during a run are covered by the page model instead, where each click starts a run of its own. The cart button's request and its alert are taken together as one step, so two cart requests in flight at once are not modelled.
- Checkout.Step: the stored session is taken to be present, as for the other pages. Both handlers read the token from `localStorage` inside their `try`. With a signed-in user but no stored record, Buy would alert "Order failed" and the cart button "Failed to add to cart", and neither would send a request. That path is not modelled, and neither `Checkout.Step` nor `Checkout.AddToCart` covers it.
- NumberField.NumberOf: the number conversion gives an exact real. JavaScript rounds it to the nearest double, so integers above 2^53 can change (`"9007199254740993"` gives 9007199254740992), and values beyond about 1.8e308 become `Infinity` (`"1e400"`). Neither is modelled.
- NumberField.ParseIntText: `parseInt` is exact for every integer. JavaScript's result is a double, so it rounds above 2^53 and becomes `Infinity` for integers of more than about 309 digits. `JSON.stringify` would then send `null` as the order quantity. Neither is modelled.
- NumberField.IntTextReadings: "both readings give `n`" holds in JavaScript only while `n` is exactly representable as a double (for example |n| ≤ 2^53). Beyond that, both readings round or overflow as described for `NumberField.NumberOf`.
- NumberField.ReadInt: the same exactness as `NumberField.IntTextReadings`. Rounding to doubles and overflow to `Infinity` are not modelled, so "₹Infinity" and "₹NaN" prompts are not modelled either, nor is a `null` quantity in the order.
- Checkout.PageStep: an edit carries the two readings of the new text rather than the text itself. The prompt's product is an exact real, so floating-point rounding of `price * quantity` is not modelled. The browser does not hold typed text to the field's `min` and `max`, and neither does the model.
- AdminDashboard.Next: a second click on the same row while its request is pending is not modelled. This covers a second toggle, and a second "Delete Forever" whose DELETE then fails.
- Text.Capped: the browser's `maxLength` is modelled as cutting the field's new value down to its first `n` characters. A browser instead refuses a keystroke that would pass the limit, and cuts pasted text. So a character typed into the middle of a full field is dropped by the browser, while the model keeps it and drops the last one. The length bounds the model proves hold either way.

## Findings

| source | as written | input that shows it | evidently intended | confidence | as-written member | corrected member |
|---|---|---|---|---|---|---|
| src/components/AiSupportBot.jsx:35 | The safety answer needs the question to contain "food safety". | The widget's own button "Is the food safe?" has no "food safety" and gets the fallback reply. | The safety button gets the safety answer (test for "food safe"). | high; not executed | SupportBot.ButtonsAsWritten, SupportBot.SafetyButtonInChat | SupportBot.ButtonsIntended |
| src/pages/vendor/Dashboard.jsx:45 | A successful delete sets the listings to `listings.filter(...)`, where `listings` is the list captured when Delete was clicked. | Listings `[a, b]`. Delete `a`, then delete `b` before the first reply. When both succeed the screen shows `[a]`, although `a` was deleted. | Filter the current list (`prev => prev.filter(...)`, as the admin console does). The screen then shows `[]`. | medium; not executed | VendorDashboard.OverlappingDeletesResurrect | VendorDashboard.DeletedStaysGone |

=== FILE: admin_dashboard.dfy ===
/** The admin console (src/pages/admin/Dashboard.jsx): the restaurant and customer
    lists with their approve/disable toggles, the permanent-delete modal, the two
    drill-down views and their back buttons, and listing removal.

    Each handler that awaits one request is one event carrying the reply, so a
    request and its reply are taken together. The list updates read the latest list
    (`prev => ...`), so replies that arrive in a different order would still update
    the right entries; what the model does not cover is a second click on the same
    row before the first reply is in (a second toggle, or a second "Delete Forever"
    while the modal is still open). */
module AdminDashboard {
  import opened Wrappers
  import opened Domain
  import opened Auth
  import Lists

  const ToggleVendorFailedText := "Failed to update restaurant status"
  const ToggleUserFailedText := "Failed to update user status"
  const RemovedText := "Restaurant permanently removed."
  const DeleteVendorFailedText := "Failed to delete restaurant"
  const InventoryFailedText := "Failed to fetch restaurant inventory"
  const HistoryFailedText := "Failed to fetch user history"
  const RemoveListingFailedText := "Failed to remove item"

  datatype View = Vendors | Users | VendorListings | UserOrders

  datatype DeleteModal = DeleteModal(show: bool, vendorId: Option<string>, vendorName: string)

  const ClosedModal := DeleteModal(false, None, "")

  datatype Admin = Admin(
    vendors: seq<Vendor>,
    users: seq<Customer>,
    selectedVendor: Option<Vendor>,
    selectedUser: Option<Customer>,
    vendorListings: seq<Listing>,
    userOrders: seq<Order>,
    loading: bool,
    view: View,
    modal: DeleteModal,
    vendorsPending: nat,     // list fetches sent and not yet answered
    usersPending: nat,
    effects: seq<Effect>)

  datatype Event =
    | VendorsFetched(vendorList: Reply<Option<seq<Vendor>>>)   // None: the body was not an array
    | UsersFetched(userList: Reply<Option<seq<Customer>>>)
    | ToggleVendorClick(vi: nat, toggledVendor: Reply<Vendor>)
    | ToggleUserClick(ui: nat, toggledUser: Reply<Customer>)
    | OpenDelete(di: nat)
    | CloseDelete
    | ConfirmDelete(removed: Reply<()>)
    | ManageInventory(mi: nat, inventory: Reply<seq<Listing>>)
    | ViewHistory(hi: nat, history: Reply<seq<Order>>)
    | RemoveListing(li: nat, confirmed: bool, listingRemoved: Reply<()>)
    | NavVendors
    | NavUsers
    | BackToVendors
    | BackToUsers

  /** A session that can call the admin endpoints. */
  predicate HasToken(user: Option<UserRecord>) {
    user.Some? && "token" in user.value && user.value["token"] != ""
  }

  /** The console as mounted on the restaurants view: with a token the restaurant list
      is fetched; without one nothing is sent and the loader stays. */
  function Mount(user: Option<UserRecord>): (a: Admin)
    ensures a.view == Vendors && a.loading && a.modal == ClosedModal
    ensures HasToken(user) <==> a.effects == [Send(FetchAdminVendors)]
    ensures !HasToken(user) ==> a.effects == []
  {
    Admin([], [], None, None, [], [], true, Vendors, ClosedModal,
          if HasToken(user) then 1 else 0, 0,
          if HasToken(user) then [Send(FetchAdminVendors)] else [])
  }

  /** Only the loader is rendered while loading, except on the two drill-down views. */
  predicate Interactive(a: Admin) {
    !(a.loading && a.view != VendorListings && a.view != UserOrders)
  }

  /** The effect that fetches the list of the view just entered (the view change
      re-runs it; `loading` is set first). */
  function Enter(a: Admin, v: View): Admin {
    if v == a.view then a
    else if v == Vendors then
      a.(view := v, loading := true, vendorsPending := a.vendorsPending + 1, effects := a.effects + [Send(FetchAdminVendors)])
    else if v == Users then
      a.(view := v, loading := true, usersPending := a.usersPending + 1, effects := a.effects + [Send(FetchAdminUsers)])
    else a.(view := v)
  }

  function Next(a: Admin, e: Event): Admin {
    match e
    case VendorsFetched(reply) =>
      if a.vendorsPending == 0 then a
      else
        var a1 := a.(vendorsPending := a.vendorsPending - 1, loading := false);
        if reply.Ok? then a1.(vendors := if reply.data.Some? then reply.data.value else []) else a1
    case UsersFetched(reply) =>
      if a.usersPending == 0 then a
      else
        var a1 := a.(usersPending := a.usersPending - 1, loading := false);
        if reply.Ok? then a1.(users := if reply.data.Some? then reply.data.value else []) else a1
    case ToggleVendorClick(i, reply) =>
      if !Interactive(a) || a.view != Vendors || i >= |a.vendors| then a
      else
        var id := a.vendors[i].id;
        var a1 := a.(effects := a.effects + [Send(ToggleVendor(id))]);
        if reply.Ok? then a1.(vendors := Lists.ReplaceById(a.vendors, VendorId, id, reply.data))
        else a1.(effects := a1.effects + [Alert(ToggleVendorFailedText)])
    case ToggleUserClick(i, reply) =>
      if !Interactive(a) || a.view != Users || i >= |a.users| then a
      else
        var id := a.users[i].id;
        var a1 := a.(effects := a.effects + [Send(ToggleCustomer(id))]);
        if reply.Ok? then a1.(users := Lists.ReplaceById(a.users, CustomerId, id, reply.data))
        else a1.(effects := a1.effects + [Alert(ToggleUserFailedText)])
    case OpenDelete(i) =>
      if !Interactive(a) || a.view != Vendors || i >= |a.vendors| then a
      else a.(modal := DeleteModal(true, Some(a.vendors[i].id), a.vendors[i].name))
    case CloseDelete =>
      if !Interactive(a) || !a.modal.show then a else a.(modal := ClosedModal)
    case ConfirmDelete(reply) =>
      if !Interactive(a) || !a.modal.show || !Truthy(a.modal.vendorId) then a
      else
        var id := a.modal.vendorId.value;
        var a1 := a.(effects := a.effects + [Send(DeleteVendor(id))]);
        if reply.Ok? then a1.(vendors := Lists.RemoveById(a.vendors, VendorId, id), modal := ClosedModal, effects := a1.effects + [Alert(RemovedText)])
        else a1.(effects := a1.effects + [Alert(DeleteVendorFailedText)])
    case ManageInventory(i, reply) =>
      if !Interactive(a) || a.view != Vendors || i >= |a.vendors| then a
      else
        var v := a.vendors[i];
        var a1 := a.(selectedVendor := Some(v), effects := a.effects + [Send(FetchVendorListings(v.id))], loading := false);
        if reply.Ok? then a1.(vendorListings := reply.data, view := VendorListings)
        else a1.(effects := a1.effects + [Alert(InventoryFailedText)])
    case ViewHistory(i, reply) =>
      if !Interactive(a) || a.view != Users || i >= |a.users| then a
      else
        var u := a.users[i];
        var a1 := a.(selectedUser := Some(u), effects := a.effects + [Send(FetchCustomerOrders(u.id))], loading := false);
        if reply.Ok? then a1.(userOrders := reply.data, view := UserOrders)
        else a1.(effects := a1.effects + [Alert(HistoryFailedText)])
    case RemoveListing(i, confirmed, reply) =>
      if !Interactive(a) || a.view != VendorListings || i >= |a.vendorListings| || !confirmed then a
      else
        var id := a.vendorListings[i].id;
        var a1 := a.(effects := a.effects + [Send(DeleteListing(id))]);
        if reply.Ok? then a1.(vendorListings := Lists.RemoveById(a.vendorListings, ListingId, id))
        else a1.(effects := a1.effects + [Alert(RemoveListingFailedText)])
    case NavVendors => if !Interactive(a) then a else Enter(a, Vendors)
    case NavUsers => if !Interactive(a) then a else Enter(a, Users)
    case BackToVendors => if !Interactive(a) || a.view != VendorListings then a else Enter(a, Vendors)
    case BackToUsers => if !Interactive(a) || a.view != UserOrders then a else Enter(a, Users)
  }

  function Run(a: Admin, es: seq<Event>): Admin
    decreases |es|
  {
    if es == [] then a else Run(Next(a, es[0]), es[1..])
  }

  /** A toggle that succeeds puts the returned record in place of the one clicked,
      whatever record the server returns, keeping every other entry and the order;
      one that fails alerts and keeps the list. */
  lemma ToggleReplacesOne(a: Admin, i: nat, v: Vendor, c: Customer, m: Option<string>)
    requires Interactive(a)
    ensures a.view == Vendors && i < |a.vendors| && Lists.UniqueIds(a.vendors, VendorId) ==>
      Next(a, ToggleVendorClick(i, Ok(v))).vendors == a.vendors[..i] + [v] + a.vendors[i + 1..]
    ensures a.view == Users && i < |a.users| && Lists.UniqueIds(a.users, CustomerId) ==>
      Next(a, ToggleUserClick(i, Ok(c))).users == a.users[..i] + [c] + a.users[i + 1..]
    ensures Next(a, ToggleVendorClick(i, Err(m))).vendors == a.vendors
    ensures a.view == Vendors && i < |a.vendors| ==>
      Next(a, ToggleVendorClick(i, Err(m))).effects == a.effects + [Send(ToggleVendor(a.vendors[i].id)), Alert("Failed to update restaurant status")]
    ensures Next(a, ToggleUserClick(i, Err(m))).users == a.users
    ensures a.view == Users && i < |a.users| ==>
      Next(a, ToggleUserClick(i, Err(m))).effects == a.effects + [Send(ToggleCustomer(a.users[i].id)), Alert("Failed to update user status")]
  {
    if a.view == Vendors && i < |a.vendors| && Lists.UniqueIds(a.vendors, VendorId) {
      assert VendorId(a.vendors[i]) == a.vendors[i].id;
      Lists.ReplaceExactlyOne(a.vendors, VendorId, i, v);
    }
    if a.view == Users && i < |a.users| && Lists.UniqueIds(a.users, CustomerId) {
      assert CustomerId(a.users[i]) == a.users[i].id;
      Lists.ReplaceExactlyOne(a.users, CustomerId, i, c);
    }
  }

  /** "Delete Forever" does nothing without a vendor id; a success removes exactly that
      restaurant, resets the modal and confirms; a failure alerts and leaves the modal
      open. */
  lemma PermanentDelete(a: Admin, m: Option<string>)
    requires Interactive(a) && a.modal.show
    ensures !Truthy(a.modal.vendorId) ==> Next(a, ConfirmDelete(Ok(()))) == a && Next(a, ConfirmDelete(Err(m))) == a
    ensures Truthy(a.modal.vendorId) ==>
      var ok := Next(a, ConfirmDelete(Ok(())));
      ok.modal == DeleteModal(false, None, "")
      && ok.vendors == Lists.RemoveById(a.vendors, VendorId, a.modal.vendorId.value)
      && ok.effects == a.effects + [Send(DeleteVendor(a.modal.vendorId.value)), Alert("Restaurant permanently removed.")]
    ensures Truthy(a.modal.vendorId) ==>
      var bad := Next(a, ConfirmDelete(Err(m)));
      bad.modal == a.modal && bad.vendors == a.vendors
      && bad.effects == a.effects + [Send(DeleteVendor(a.modal.vendorId.value)), Alert("Failed to delete restaurant")]
  {
  }

  /** With unique ids the restaurant removed is exactly the one whose modal was opened
      (an empty id is falsy and removes nothing); the rest keep their order. */
  lemma RemovesExactlyOne(a: Admin, i: nat)
    requires Interactive(a) && a.view == Vendors && i < |a.vendors| && Lists.UniqueIds(a.vendors, VendorId)
    requires a.vendors[i].id != ""
    ensures var shown := Next(a, OpenDelete(i));
      Next(shown, ConfirmDelete(Ok(()))).vendors == a.vendors[..i] + a.vendors[i + 1..]
  {
    var shown := Next(a, OpenDelete(i));
    assert shown == a.(modal := DeleteModal(true, Some(a.vendors[i].id), a.vendors[i].name));
    assert Truthy(shown.modal.vendorId);
    PermanentDelete(shown, None);
    assert VendorId(a.vendors[i]) == a.vendors[i].id;
    Lists.RemoveExactlyOne(a.vendors, VendorId, i);
  }

  /** Removing an item from a restaurant's inventory is confirm-gated: a declined
      prompt changes nothing; a confirmed one sends the DELETE for that item and, on
      success, drops exactly that item with the rest kept in order, while a failure
      alerts and keeps the list. */
  lemma RemovesListingExactlyOne(a: Admin, i: nat, m: Option<string>)
    requires Interactive(a) && a.view == VendorListings && i < |a.vendorListings|
    requires Lists.UniqueIds(a.vendorListings, ListingId)
    ensures Next(a, RemoveListing(i, false, Ok(()))) == a
    ensures Next(a, RemoveListing(i, true, Ok(()))).vendorListings == a.vendorListings[..i] + a.vendorListings[i + 1..]
    ensures Next(a, RemoveListing(i, true, Ok(()))).effects == a.effects + [Send(DeleteListing(a.vendorListings[i].id))]
    ensures Next(a, RemoveListing(i, true, Err(m))).vendorListings == a.vendorListings
    ensures Next(a, RemoveListing(i, true, Err(m))).effects
      == a.effects + [Send(DeleteListing(a.vendorListings[i].id)), Alert(RemoveListingFailedText)]
  {
    assert ListingId(a.vendorListings[i]) == a.vendorListings[i].id;
    Lists.RemoveExactlyOne(a.vendorListings, ListingId, i);
  }

  /** The drill-down views are entered only by a fetch that succeeded, always with the
      record they show selected, and left only through the back buttons and the tabs. */
  predicate ViewsHaveSelection(a: Admin) {
    (a.view == VendorListings ==> a.selectedVendor.Some?) && (a.view == UserOrders ==> a.selectedUser.Some?)
  }

  lemma ViewMoves(a: Admin, e: Event)
    ensures Next(a, e).view != a.view && Next(a, e).view == VendorListings ==> e.ManageInventory? && e.inventory.Ok?
    ensures Next(a, e).view != a.view && Next(a, e).view == UserOrders ==> e.ViewHistory? && e.history.Ok?
    ensures Interactive(a) && a.view == VendorListings ==> Next(a, BackToVendors).view == Vendors
    ensures Interactive(a) && a.view == UserOrders ==> Next(a, BackToUsers).view == Users
    ensures ViewsHaveSelection(a) ==> ViewsHaveSelection(Next(a, e))
  {
  }

  lemma {:induction false} RunKeepsSelection(a: Admin, es: seq<Event>)
    requires ViewsHaveSelection(a)
    ensures ViewsHaveSelection(Run(a, es))
    decreases |es|
  {
    if es != [] {
      ViewMoves(a, es[0]);
      RunKeepsSelection(Next(a, es[0]), es[1..]);
    }
  }

  /** A failed drill-down alerts, clears the loader and stays on the list. */
  lemma DrillDownFailure(a: Admin, i: nat, m: Option<string>)
    requires Interactive(a) && a.view == Vendors && i < |a.vendors|
    ensures var b := Next(a, ManageInventory(i, Err(m)));
      b.view == Vendors && !b.loading
      && b.effects == a.effects + [Send(FetchVendorListings(a.vendors[i].id)), Alert("Failed to fetch restaurant inventory")]
  {
  }
}

=== FILE: auth.dfy ===
/** The session held by the authentication context (src/context/AuthContext.jsx) and
    the login page's role routing (src/pages/Login.jsx).

    The context keeps the signed-in user in memory and a copy under the storage key
    `userInfo`; storage is modelled as an optional record, and a record as a map from
    JSON keys to their (stringified) values. */
module Auth {
  import opened Wrappers

  type UserRecord = map<string, string>

  datatype Session = Session(user: Option<UserRecord>, stored: Option<UserRecord>)

  /** What a context function does for its caller: return a value, or throw a message. */
  datatype Outcome<+T> = Returned(value: T) | Threw(error: string)

  const LoginFailedText := "Login failed"
  const RegistrationFailedText := "Registration failed"

  /** The in-memory user and the stored copy agree. */
  predicate Synced(s: Session) {
    s.user == s.stored
  }

  /** Start-up: the user is the stored `userInfo` when there is one, otherwise null. */
  function Restore(stored: Option<UserRecord>): (s: Session)
    ensures s.stored == stored
    ensures stored.Some? ==> s.user == stored
    ensures stored.None? ==> s.user == None
  {
    Session(if stored.Some? then stored else None, stored)
  }

  /** A successful sign-in or registration keeps the returned record in both places;
      a failure leaves the session alone. */
  function SignIn(s: Session, reply: Reply<UserRecord>): Session {
    match reply
    case Ok(data) => Session(Some(data), Some(data))
    case Err(_) => s
  }

  /** `login(email, password, role)`: returns the record, or throws the server's message. */
  function Login(s: Session, reply: Reply<UserRecord>): (r: (Session, Outcome<UserRecord>))
    ensures r.0 == SignIn(s, reply)
    ensures reply.Ok? ==> r.1 == Returned(reply.data)
    ensures reply.Err? ==> r.1 == Threw(ErrorText(reply.message, LoginFailedText))
  {
    (SignIn(s, reply), match reply case Ok(data) => Returned(data) case Err(m) => Threw(ErrorText(m, LoginFailedText)))
  }

  /** `registerUser(formData)`: returns nothing on success. */
  function RegisterUser(s: Session, reply: Reply<UserRecord>): (r: (Session, Outcome<()>))
    ensures r.0 == SignIn(s, reply)
    ensures reply.Ok? ==> r.1 == Returned(())
    ensures reply.Err? ==> r.1 == Threw(ErrorText(reply.message, RegistrationFailedText))
  {
    (SignIn(s, reply), match reply case Ok(_) => Returned(()) case Err(m) => Threw(ErrorText(m, RegistrationFailedText)))
  }

  /** `registerVendor(vendorData)`: returns the record on success. */
  function RegisterVendor(s: Session, reply: Reply<UserRecord>): (r: (Session, Outcome<UserRecord>))
    ensures r.0 == SignIn(s, reply)
    ensures reply.Ok? ==> r.1 == Returned(reply.data)
    ensures reply.Err? ==> r.1 == Threw(ErrorText(reply.message, RegistrationFailedText))
  {
    (SignIn(s, reply), match reply case Ok(data) => Returned(data) case Err(m) => Threw(ErrorText(m, RegistrationFailedText)))
  }

  function Logout(s: Session): (r: Session)
    ensures r.user == None && r.stored == None
  {
    Session(None, None)
  }

  /** The memory and the storage agree after start-up and after every context
      operation; a success sets both to the returned record, a failure changes neither. */
  lemma SessionStaysSynced(s: Session, reply: Reply<UserRecord>)
    requires Synced(s)
    ensures Synced(Login(s, reply).0) && Synced(RegisterUser(s, reply).0) && Synced(RegisterVendor(s, reply).0)
    ensures Synced(Logout(s))
    ensures forall stored :: Synced(Restore(stored))
    ensures reply.Ok? ==> Login(s, reply).0.user == Some(reply.data) && Login(s, reply).0.stored == Some(reply.data)
    ensures reply.Err? ==> Login(s, reply).0 == s && RegisterUser(s, reply).0 == s && RegisterVendor(s, reply).0 == s
  {
  }

  const AdminRoute := "/admin-dashboard"
  const VendorRoute := "/vendor-dashboard"
  const HomeRoute := "/"

  /** The `role` field of a record, if it has one. */
  function Role(data: UserRecord): Option<string> {
    if "role" in data then Some(data["role"]) else None
  }

  /** Where the login page sends a signed-in account. */
  function RouteFor(role: Option<string>): string {
    if role == Some("admin") then AdminRoute
    else if role == Some("vendor") then VendorRoute
    else HomeRoute
  }

  /** The login page after its submission: the session, where it navigated, and the
      error banner. */
  datatype LoginPage = LoginPage(session: Session, navigatedTo: Option<string>, error: string)

  /** `handleSubmit`, with `shown` the banner from an earlier attempt: a success leaves
      it as it was (the page never clears it) and navigates away. */
  function SubmitLogin(s: Session, shown: string, reply: Reply<UserRecord>): (p: LoginPage)
    ensures p.session == Login(s, reply).0
    ensures reply.Ok? ==> p.navigatedTo == Some(RouteFor(Role(reply.data))) && p.error == shown
    ensures reply.Err? ==> p.navigatedTo == None && p.error == ErrorText(reply.message, LoginFailedText)
  {
    var (session, outcome) := Login(s, reply);
    match outcome
    case Returned(data) => LoginPage(session, Some(RouteFor(Role(data))), shown)
    case Threw(err) => LoginPage(session, None, err)
  }

  /** Admins land on the admin console, vendors on the restaurant dashboard, every
      other account (no role, "user", anything else) on the marketplace. */
  lemma LoginRoutes(s: Session, shown: string, data: UserRecord)
    ensures Role(data) == Some("admin") ==> SubmitLogin(s, shown, Ok(data)).navigatedTo == Some("/admin-dashboard")
    ensures Role(data) == Some("vendor") ==> SubmitLogin(s, shown, Ok(data)).navigatedTo == Some("/vendor-dashboard")
    ensures Role(data) !in {Some("admin"), Some("vendor")} ==> SubmitLogin(s, shown, Ok(data)).navigatedTo == Some("/")
    ensures SubmitLogin(s, shown, Ok(data)).session == Session(Some(data), Some(data))
  {
  }
}

=== FILE: card_format.dfy ===
/** The card-number field of the simulated payment modal
    (src/components/FakeRazorpay.jsx): the `onChange` formatter that keeps the digits
    and groups them by four, and the prefix-based card-network label. */
module CardFormat {
  import opened Text

  /** The element's `maxLength`: the browser never hands the handler a longer value. */
  const CardNumberMaxLength := 19

  /** `.replace(/(.{4})/g, '$1 ')`: a space after every complete run of four characters. */
  function SpaceAfterFours(d: string): string
    decreases |d|
  {
    if |d| >= 4 then d[..4] + " " + SpaceAfterFours(d[4..]) else d
  }

  /** The leading-space half of `String.prototype.trim` (the only whitespace that can
      occur here is the space inserted above). */
  function TrimStart(s: string): (r: string)
    decreases |s|
  {
    if |s| > 0 && s[0] == ' ' then TrimStart(s[1..]) else s
  }

  /** The trailing-space half of `String.prototype.trim`. */
  function TrimEnd(s: string): (r: string)
    decreases |s|
  {
    if |s| > 0 && s[|s| - 1] == ' ' then TrimEnd(s[..|s| - 1]) else s
  }

  /** Reference shape: the digits joined into groups of four by single spaces. */
  function Grouped(d: string): string
    decreases |d|
  {
    if |d| <= 4 then d else d[..4] + " " + Grouped(d[4..])
  }

  /** The separators sit exactly at every fifth position, everything else is a digit,
      and the last group has one to four digits (so there is no leading or trailing
      space). */
  predicate WellGrouped(r: string) {
    && (forall i :: 0 <= i < |r| ==> if i % 5 == 4 then r[i] == ' ' else IsDigit(r[i]))
    && (|r| == 0 || |r| % 5 != 0)
  }

  /** `s.replace(/ /g, '')`: the string without its spaces. */
  function NoSpaces(s: string): string
    decreases |s|
  {
    if s == [] then [] else (if s[0] == ' ' then [] else [s[0]]) + NoSpaces(s[1..])
  }

  /** The `onChange` handler of the card-number input:
      `value.replace(/\D/g, '').replace(/(.{4})/g, '$1 ').trim()`. */
  function Format(raw: string): (r: string)
    ensures WellGrouped(r)
    ensures NoSpaces(r) == Digits(raw)
    ensures Digits(r) == Digits(raw)
  {
    var d := Digits(raw);
    FormatIsGrouped(d);
    GroupedWellGrouped(d);
    GroupedDigits(d);
    TrimStart(TrimEnd(SpaceAfterFours(d)))
  }

  /** The label next to the field: only the first character is looked at. */
  function CardType(number: string): (r: string)
    ensures r == "Visa" <==> StartsWith(number, "4")
    ensures r == "MasterCard" <==> StartsWith(number, "5")
    ensures r == "RuPay" <==> StartsWith(number, "6")
    ensures r == "" <==> !(StartsWith(number, "4") || StartsWith(number, "5") || StartsWith(number, "6"))
  {
    if StartsWith(number, "4") then "Visa"
    else if StartsWith(number, "5") then "MasterCard"
    else if StartsWith(number, "6") then "RuPay"
    else ""
  }

  // ---------------------------------------------------------------------------
  // Proofs about the formatter

  lemma {:induction false} SpaceAfterFoursShape(d: string)
    requires AllDigits(d)
    ensures SpaceAfterFours(d) == Grouped(d) + (if |d| > 0 && |d| % 4 == 0 then " " else "")
    decreases |d|
  {
    if |d| > 4 {
      SpaceAfterFoursShape(d[4..]);
      assert |d[4..]| % 4 == |d| % 4;
    } else if |d| == 4 {
      assert d[4..] == [];
      assert d[..4] == d;
    }
  }

  lemma {:induction false} GroupedEnds(d: string)
    requires AllDigits(d)
    ensures |Grouped(d)| > 0 ==> Grouped(d)[0] != ' ' && Grouped(d)[|Grouped(d)| - 1] != ' '
    ensures |Grouped(d)| == 0 <==> d == []
    decreases |d|
  {
    if |d| > 4 {
      GroupedEnds(d[4..]);
    }
  }

  lemma {:induction false} FormatIsGrouped(d: string)
    requires AllDigits(d)
    ensures TrimStart(TrimEnd(SpaceAfterFours(d))) == Grouped(d)
  {
    SpaceAfterFoursShape(d);
    GroupedEnds(d);
    var g := Grouped(d);
    if |d| > 0 && |d| % 4 == 0 {
      var s := g + " ";
      assert s[..|s| - 1] == g;
    }
  }

  lemma {:induction false} GroupedWellGrouped(d: string)
    requires AllDigits(d)
    ensures WellGrouped(Grouped(d))
    decreases |d|
  {
    if |d| > 4 {
      GroupedWellGrouped(d[4..]);
      var rest := Grouped(d[4..]);
      var r := Grouped(d);
      assert r == d[..4] + " " + rest;
      forall i | 0 <= i < |r|
        ensures if i % 5 == 4 then r[i] == ' ' else IsDigit(r[i])
      {
        if i >= 5 {
          assert r[i] == rest[i - 5];
          assert (i - 5) % 5 == i % 5;
        }
      }
      assert |rest| > 0 by { GroupedEnds(d[4..]); }
    }
  }

  lemma {:induction false} NoSpacesAppend(a: string, b: string)
    ensures NoSpaces(a + b) == NoSpaces(a) + NoSpaces(b)
  {
    if a == [] {
      assert a + b == b;
    } else {
      assert (a + b)[1..] == a[1..] + b;
      NoSpacesAppend(a[1..], b);
    }
  }

  lemma {:induction false} NoSpacesOfDigits(d: string)
    requires AllDigits(d)
    ensures NoSpaces(d) == d
  {
    if d != [] {
      NoSpacesOfDigits(d[1..]);
    }
  }

  /** Grouping neither adds, drops nor reorders digits. */
  lemma {:induction false} GroupedDigits(d: string)
    requires AllDigits(d)
    ensures NoSpaces(Grouped(d)) == d
    ensures Digits(Grouped(d)) == d
    decreases |d|
  {
    if |d| <= 4 {
      NoSpacesOfDigits(d);
      DigitsOfDigits(d);
    } else {
      GroupedDigits(d[4..]);
      NoSpacesAppend(d[..4] + " ", Grouped(d[4..]));
      NoSpacesAppend(d[..4], " ");
      DigitsAppend(d[..4] + " ", Grouped(d[4..]));
      DigitsAppend(d[..4], " ");
      NoSpacesOfDigits(d[..4]);
      DigitsOfDigits(d[..4]);
      assert d == d[..4] + d[4..];
    }
  }

  /** A well-grouped string is the grouping of its own digits. */
  lemma {:induction false} WellGroupedIsGrouped(r: string)
    requires WellGrouped(r)
    ensures AllDigits(NoSpaces(r))
    ensures Grouped(NoSpaces(r)) == r
    decreases |r|
  {
    if |r| <= 4 {
      assert AllDigits(r);
      NoSpacesOfDigits(r);
    } else {
      var head, rest := r[..4], r[5..];
      assert r == head + " " + rest;
      assert AllDigits(head);
      forall i | 0 <= i < |rest|
        ensures if i % 5 == 4 then rest[i] == ' ' else IsDigit(rest[i])
      {
        assert rest[i] == r[i + 5];
        assert (i + 5) % 5 == i % 5;
      }
      assert |rest| % 5 == |r| % 5;
      WellGroupedIsGrouped(rest);
      NoSpacesAppend(head + " ", rest);
      NoSpacesAppend(head, " ");
      NoSpacesOfDigits(head);
      var d := NoSpaces(r);
      assert d == head + NoSpaces(rest);
      assert |NoSpaces(rest)| > 0 by {
        if NoSpaces(rest) == [] { GroupedEnds(NoSpaces(rest)); }
      }
      assert d[..4] == head && d[4..] == NoSpaces(rest);
    }
  }

  /** What the field shows is determined by the digits typed: the one well-grouped
      string carrying exactly those digits. */
  lemma FormatUnique(raw: string, r: string)
    requires WellGrouped(r) && NoSpaces(r) == Digits(raw)
    ensures Format(raw) == r
  {
    WellGroupedIsGrouped(r);
    FormatIsGrouped(Digits(raw));
  }

  /** Formatting an already formatted value changes nothing. */
  lemma FormatIdempotent(raw: string)
    ensures Format(Format(raw)) == Format(raw)
  {
    var r := Format(raw);
    FormatUnique(r, r);
    WellGroupedIsGrouped(r);
    GroupedDigits(NoSpaces(r));
  }

  /** The label shown beside the formatted field is the one of the first digit typed. */
  lemma CardTypeOfFormatted(raw: string)
    ensures CardType(Format(raw)) == CardType(Digits(raw))
  {
    var d := Digits(raw);
    FormatIsGrouped(d);
    if |d| > 4 {
      assert Format(raw)[..1] == d[..1];
    }
  }
}

=== FILE: checkout.dfy ===
/** The listing page's purchase flow (src/pages/ListingDetail.jsx): the login gate,
    the single-item order request, the `window.confirm` prompt, the confirmation call
    and the final navigation or alert, as a step machine over the server's replies.

    One `Buy` value is one run of `handleBuy`, from the click to its last effect; a
    `Page` holds every run started so far, since the Buy button stays enabled while a
    run awaits the server and each click starts a run of its own.

    The quantity is the text of the number input (`""` or a valid floating-point
    number), as the change handler stores `e.target.value`; the initial `1` reads the
    same as the text "1". Each edit is taken with its `Reading` (`parseInt` of the
    text for the request bodies, its number for the price product), and a run keeps
    the reading of the click that started it. */
module Checkout {
  import opened Wrappers
  import opened Domain
  import opened NumberField

  const LoginRoute := "/login"
  const ProfileRoute := "/profile"
  const PaidText := "Payment Successfull! Your digital receipt is ready."
  const CancelledText := "Payment cancelled."
  const OrderFailedText := "Order failed"
  const AddedText := "Added to cart!"
  const AddFailedText := "Failed to add to cart"

  datatype Phase =
    | Start
    | AwaitingOrder                         // POST /api/orders in flight
    | AwaitingAnswer(orderId: string)       // the confirm dialog is open
    | AwaitingConfirmation(orderId: string) // simulate-payment in flight
    | Done

  datatype Event =
    | ClickBuy
    | OrderReply(created: Reply<string>)    // the `order._id` of the created order
    | Answer(accepted: bool)                // the user's answer to `window.confirm`
    | ConfirmationReply(confirmed: Reply<()>)

  datatype Buy = Buy(loggedIn: bool, listing: Listing, quantity: Reading, phase: Phase, effects: seq<Effect>)

  /** The field's initial state, `useState(1)`: the number 1, which both readings
      take as 1. */
  const InitialQuantity := Reading(Some(1), 1.0)

  lemma InitialQuantityReadsOne()
    ensures FieldValue(IntText(1)) && Read(IntText(1)) == InitialQuantity
  {
    ReadInt(1);
  }

  /** Both action buttons are `disabled` unless the listing is active. */
  predicate ActionsEnabled(l: Listing) {
    l.status == Active
  }

  /** The order-creation body: the listing's vendor and exactly one item, whose
      quantity is `parseInt` of the field text. */
  function OrderRequest(l: Listing, quantity: Reading): (r: Request)
    ensures r.CreateOrder? && r.vendorId == l.vendorId
    ensures |r.items| == 1 && r.items[0].listingId == l.id && r.items[0].quantity == quantity.count
  {
    CreateOrder(l.vendorId, [OrderItem(l.id, quantity.count)])
  }

  /** The amount in the prompt and on the Buy button: `discountedPrice * quantity`,
      where the product converts the field text to a number. */
  function Amount(l: Listing, quantity: Reading): (r: real)
    ensures quantity.number == 0.0 ==> r == 0.0
    ensures quantity.number == 1.0 ==> r == l.discountedPrice as real
  {
    l.discountedPrice as real * quantity.number
  }

  /** What the Buy button says. */
  datatype BuyLabel = BuyNow(amount: real) | SoldOutLabel

  function BuyButton(l: Listing, quantity: Reading): (r: BuyLabel)
    ensures r.BuyNow? <==> ActionsEnabled(l)
    ensures r.BuyNow? ==> r.amount == Amount(l, quantity)
  {
    if l.status == Active then BuyNow(Amount(l, quantity)) else SoldOutLabel
  }

  function Begin(loggedIn: bool, l: Listing, quantity: Reading): Buy {
    Buy(loggedIn, l, quantity, Start, [])
  }

  /** One step of `handleBuy`. Events that do not belong to the current phase change nothing. */
  function Step(b: Buy, e: Event): (r: Buy)
    ensures b.effects <= r.effects
    ensures r.loggedIn == b.loggedIn && r.listing == b.listing && r.quantity == b.quantity
  {
    match (b.phase, e)
    case (Start, ClickBuy) =>
      if !ActionsEnabled(b.listing) then b
      else if !b.loggedIn then b.(phase := Done, effects := b.effects + [Navigate(LoginRoute)])
      else b.(phase := AwaitingOrder, effects := b.effects + [Send(OrderRequest(b.listing, b.quantity))])
    case (AwaitingOrder, OrderReply(Ok(id))) =>
      b.(phase := AwaitingAnswer(id), effects := b.effects + [ConfirmPayment(Amount(b.listing, b.quantity))])
    case (AwaitingOrder, OrderReply(Err(m))) =>
      b.(phase := Done, effects := b.effects + [Alert(ErrorText(m, OrderFailedText))])
    case (AwaitingAnswer(id), Answer(true)) =>
      b.(phase := AwaitingConfirmation(id), effects := b.effects + [Send(SimulatePayment(id, None))])
    case (AwaitingAnswer(id), Answer(false)) =>
      b.(phase := Done, effects := b.effects + [Alert(CancelledText)])
    case (AwaitingConfirmation(id), ConfirmationReply(Ok(_))) =>
      b.(phase := Done, effects := b.effects + [Alert(PaidText), Navigate(ProfileRoute)])
    case (AwaitingConfirmation(id), ConfirmationReply(Err(m))) =>
      b.(phase := Done, effects := b.effects + [Alert(ErrorText(m, OrderFailedText))])
    case _ => b
  }

  function Run(b: Buy, es: seq<Event>): Buy
    decreases |es|
  {
    if es == [] then b else Run(Step(b, es[0]), es[1..])
  }

  /** The five ways a run can end. */
  predicate Finished(b: Buy) {
    var create := Send(OrderRequest(b.listing, b.quantity));
    var ask := ConfirmPayment(Amount(b.listing, b.quantity));
    var e := b.effects;
    || (!b.loggedIn && e == [Navigate(LoginRoute)])
    || (b.loggedIn && |e| == 2 && e[0] == create && e[1].Alert?)
    || (b.loggedIn && e == [create, ask, Alert(CancelledText)])
    || (b.loggedIn && |e| == 5 && e[..2] == [create, ask] && e[2].Send? && e[2].request.SimulatePayment?
        && e[2].request.paymentId == None && e[3..] == [Alert(PaidText), Navigate(ProfileRoute)])
    || (b.loggedIn && |e| == 4 && e[..2] == [create, ask] && e[2].Send? && e[2].request.SimulatePayment?
        && e[2].request.paymentId == None && e[3].Alert?)
  }

  /** The effects emitted so far, fixed by the phase: requests go out strictly one
      after the other, the prompt only after creation succeeded, the confirmation
      only after the prompt was accepted and only for the created order. */
  predicate Traced(b: Buy) {
    var create := Send(OrderRequest(b.listing, b.quantity));
    var ask := ConfirmPayment(Amount(b.listing, b.quantity));
    match b.phase
    case Start => b.effects == []
    case AwaitingOrder => b.loggedIn && b.effects == [create]
    case AwaitingAnswer(id) => b.loggedIn && b.effects == [create, ask]
    case AwaitingConfirmation(id) => b.loggedIn && b.effects == [create, ask, Send(SimulatePayment(id, None))]
    case Done => Finished(b)
  }

  lemma StepTraced(b: Buy, e: Event)
    requires Traced(b)
    ensures Traced(Step(b, e))
  {
  }

  lemma {:induction false} RunTraced(b: Buy, es: seq<Event>)
    requires Traced(b)
    ensures Traced(Run(b, es))
    ensures b.effects <= Run(b, es).effects
    ensures Run(b, es).loggedIn == b.loggedIn && Run(b, es).listing == b.listing && Run(b, es).quantity == b.quantity
    decreases |es|
  {
    if es != [] {
      StepTraced(b, es[0]);
      RunTraced(Step(b, es[0]), es[1..]);
    }
  }

  /** Without a logged-in user, whatever happens, the only effect is the redirect to
      the login page: no request is sent. */
  lemma LoggedOutSendsNothing(l: Listing, quantity: Reading, es: seq<Event>)
    ensures NoRequests(Run(Begin(false, l, quantity), es).effects)
    ensures Run(Begin(false, l, quantity), es).effects in {[], [Navigate(LoginRoute)]}
  {
    RunTraced(Begin(false, l, quantity), es);
  }

  /** Over any run, a confirmation request carries no payment token and comes third,
      after the order request and the prompt for the total. */
  lemma ConfirmationOnlyAfterPrompt(loggedIn: bool, l: Listing, quantity: Reading, es: seq<Event>, i: nat)
    requires i < |Run(Begin(loggedIn, l, quantity), es).effects|
    requires Run(Begin(loggedIn, l, quantity), es).effects[i].Send?
    requires Run(Begin(loggedIn, l, quantity), es).effects[i].request.SimulatePayment?
    ensures i == 2 && loggedIn
    ensures Run(Begin(loggedIn, l, quantity), es).effects[..2] == [Send(OrderRequest(l, quantity)), ConfirmPayment(Amount(l, quantity))]
    ensures Run(Begin(loggedIn, l, quantity), es).effects[i].request.paymentId == None
  {
    RunTraced(Begin(loggedIn, l, quantity), es);
  }

  /** Paying: the order request, the prompt with the total, the confirmation for the
      returned order id with an empty body, the alert, and the move to the profile. */
  lemma HappyPath(l: Listing, quantity: Reading, orderId: string, body: ())
    requires ActionsEnabled(l)
    ensures Run(Begin(true, l, quantity), [ClickBuy, OrderReply(Ok(orderId)), Answer(true), ConfirmationReply(Ok(body))]).effects
      == [Send(CreateOrder(l.vendorId, [OrderItem(l.id, quantity.count)])),
          ConfirmPayment(l.discountedPrice as real * quantity.number),
          Send(SimulatePayment(orderId, None)), Alert(PaidText), Navigate(ProfileRoute)]
  {
    var b0 := Begin(true, l, quantity);
    var b1 := Step(b0, ClickBuy);
    var b2 := Step(b1, OrderReply(Ok(orderId)));
    var b3 := Step(b2, Answer(true));
    assert Run(b0, [ClickBuy, OrderReply(Ok(orderId)), Answer(true), ConfirmationReply(Ok(body))])
      == Run(b1, [OrderReply(Ok(orderId)), Answer(true), ConfirmationReply(Ok(body))]);
    assert Run(b1, [OrderReply(Ok(orderId)), Answer(true), ConfirmationReply(Ok(body))])
      == Run(b2, [Answer(true), ConfirmationReply(Ok(body))]);
    assert Run(b2, [Answer(true), ConfirmationReply(Ok(body))]) == Run(b3, [ConfirmationReply(Ok(body))]);
    var b4 := Step(b3, ConfirmationReply(Ok(body)));
    assert Run(b3, [ConfirmationReply(Ok(body))]) == Run(b4, []) == b4;
    PaidEffects(l, quantity, orderId, body);
  }

  /** The click of a signed-in visitor on an active listing sends the order. */
  lemma Clicked(l: Listing, quantity: Reading)
    requires ActionsEnabled(l)
    ensures Step(Begin(true, l, quantity), ClickBuy) == Buy(true, l, quantity, AwaitingOrder, [Send(OrderRequest(l, quantity))])
  {
  }

  /** The states of a paid run, one step at a time. */
  lemma PaidEffects(l: Listing, quantity: Reading, orderId: string, body: ())
    requires ActionsEnabled(l)
    ensures var b1 := Step(Begin(true, l, quantity), ClickBuy);
      var b2 := Step(b1, OrderReply(Ok(orderId)));
      var b3 := Step(b2, Answer(true));
      Step(b3, ConfirmationReply(Ok(body))).effects
        == [Send(CreateOrder(l.vendorId, [OrderItem(l.id, quantity.count)])),
            ConfirmPayment(l.discountedPrice as real * quantity.number),
            Send(SimulatePayment(orderId, None)), Alert(PaidText), Navigate(ProfileRoute)]
  {
    var create := Send(OrderRequest(l, quantity));
    var ask := ConfirmPayment(Amount(l, quantity));
    var confirm := Send(SimulatePayment(orderId, None));
    Clicked(l, quantity);
    var b1 := Buy(true, l, quantity, AwaitingOrder, [create]);
    var b2 := Buy(true, l, quantity, AwaitingAnswer(orderId), [create, ask]);
    assert Step(b1, OrderReply(Ok(orderId))) == b2;
    var b3 := Buy(true, l, quantity, AwaitingConfirmation(orderId), [create, ask, confirm]);
    assert Step(b2, Answer(true)) == b3;
    assert Step(b3, ConfirmationReply(Ok(body))).effects == [create, ask, confirm, Alert(PaidText), Navigate(ProfileRoute)];
    assert OrderRequest(l, quantity) == CreateOrder(l.vendorId, [OrderItem(l.id, quantity.count)]);
    assert Amount(l, quantity) == l.discountedPrice as real * quantity.number;
  }

  /** Declining the prompt: no confirmation call, the cancellation alert, no navigation. */
  lemma DeclinedPrompt(l: Listing, quantity: Reading, orderId: string)
    requires ActionsEnabled(l)
    ensures Run(Begin(true, l, quantity), [ClickBuy, OrderReply(Ok(orderId)), Answer(false)]).effects
      == [Send(OrderRequest(l, quantity)), ConfirmPayment(Amount(l, quantity)), Alert(CancelledText)]
  {
    var b0 := Begin(true, l, quantity);
    var b1 := Step(b0, ClickBuy);
    var b2 := Step(b1, OrderReply(Ok(orderId)));
    assert Run(b0, [ClickBuy, OrderReply(Ok(orderId)), Answer(false)]) == Run(b1, [OrderReply(Ok(orderId)), Answer(false)]);
    assert Run(b1, [OrderReply(Ok(orderId)), Answer(false)]) == Run(b2, [Answer(false)]);
    assert b1.phase == AwaitingOrder && b1.effects == [Send(OrderRequest(l, quantity))];
    assert b2.phase == AwaitingAnswer(orderId) && b2.effects == b1.effects + [ConfirmPayment(Amount(l, quantity))];
    var b3 := Step(b2, Answer(false));
    assert b3.effects == b2.effects + [Alert(CancelledText)];
    assert Run(b2, [Answer(false)]) == Run(b3, []) == b3;
  }

  /** A failed creation shows the server's message (or "Order failed"), ends the run
      and neither prompts nor navigates. */
  lemma CreationFails(l: Listing, quantity: Reading, message: Option<string>, es: seq<Event>)
    requires ActionsEnabled(l)
    ensures Run(Begin(true, l, quantity), [ClickBuy, OrderReply(Err(message))] + es).effects
      == [Send(OrderRequest(l, quantity)), Alert(ErrorText(message, OrderFailedText))]
  {
    var b0 := Begin(true, l, quantity);
    var b1 := Step(b0, ClickBuy);
    var b2 := Step(b1, OrderReply(Err(message)));
    assert ([ClickBuy, OrderReply(Err(message))] + es)[1..] == [OrderReply(Err(message))] + es;
    assert ([OrderReply(Err(message))] + es)[1..] == es;
    DoneIsFinal(b2, es);
  }

  /** A failed confirmation shows the server's message (or "Order failed") and does
      not navigate. */
  lemma ConfirmationFails(l: Listing, quantity: Reading, orderId: string, message: Option<string>)
    requires ActionsEnabled(l)
    ensures Run(Begin(true, l, quantity), [ClickBuy, OrderReply(Ok(orderId)), Answer(true), ConfirmationReply(Err(message))]).effects
      == [Send(OrderRequest(l, quantity)), ConfirmPayment(Amount(l, quantity)),
          Send(SimulatePayment(orderId, None)), Alert(ErrorText(message, OrderFailedText))]
  {
    var b0 := Begin(true, l, quantity);
    var b1 := Step(b0, ClickBuy);
    var b2 := Step(b1, OrderReply(Ok(orderId)));
    var b3 := Step(b2, Answer(true));
    assert Run(b0, [ClickBuy, OrderReply(Ok(orderId)), Answer(true), ConfirmationReply(Err(message))])
      == Run(b1, [OrderReply(Ok(orderId)), Answer(true), ConfirmationReply(Err(message))]);
    assert Run(b1, [OrderReply(Ok(orderId)), Answer(true), ConfirmationReply(Err(message))])
      == Run(b2, [Answer(true), ConfirmationReply(Err(message))]);
    assert Run(b2, [Answer(true), ConfirmationReply(Err(message))]) == Run(b3, [ConfirmationReply(Err(message))]);
    assert b1.phase == AwaitingOrder && b1.effects == [Send(OrderRequest(l, quantity))];
    assert b2.phase == AwaitingAnswer(orderId) && b2.effects == b1.effects + [ConfirmPayment(Amount(l, quantity))];
    assert b3.phase == AwaitingConfirmation(orderId) && b3.effects == b2.effects + [Send(SimulatePayment(orderId, None))];
    var b4 := Step(b3, ConfirmationReply(Err(message)));
    assert b4.effects == b3.effects + [Alert(ErrorText(message, OrderFailedText))];
    assert Run(b3, [ConfirmationReply(Err(message))]) == Run(b4, []) == b4;
  }

  lemma {:induction false} DoneIsFinal(b: Buy, es: seq<Event>)
    requires b.phase == Done
    ensures Run(b, es) == b
    decreases |es|
  {
    if es != [] {
      DoneIsFinal(Step(b, es[0]), es[1..]);
    }
  }

  /** The click handler does not re-check the quantity against 1..remainingQuantity:
      whatever the field reads as goes into the order request, and the prompt asks
      for the price times the field's number, whatever the stock. */
  lemma QuantityNotRechecked(l: Listing, q: Reading, orderId: string)
    requires ActionsEnabled(l)
    ensures Run(Begin(true, l, q), [ClickBuy, OrderReply(Ok(orderId))]).effects
      == [Send(CreateOrder(l.vendorId, [OrderItem(l.id, q.count)])), ConfirmPayment(l.discountedPrice as real * q.number)]
  {
    var b1 := Step(Begin(true, l, q), ClickBuy);
    assert b1.phase == AwaitingOrder && b1.effects == [Send(OrderRequest(l, q))];
    var b2 := Step(b1, OrderReply(Ok(orderId)));
    assert b2.effects == b1.effects + [ConfirmPayment(Amount(l, q))];
    assert Run(Begin(true, l, q), [ClickBuy, OrderReply(Ok(orderId))]) == Run(b1, [OrderReply(Ok(orderId))]);
    assert Run(b1, [OrderReply(Ok(orderId))]) == Run(b2, []) == b2;
    assert OrderRequest(l, q) == CreateOrder(l.vendorId, [OrderItem(l.id, q.count)]);
    assert Amount(l, q) == l.discountedPrice as real * q.number;
  }

  /** On the text of an integer, the count the order carries is the number the
      prompt and the button multiply the price by. */
  lemma OrderMatchesPrompt(l: Listing, n: int)
    ensures FieldValue(IntText(n))
    ensures OrderRequest(l, Read(IntText(n))).items[0].quantity == Some(n)
    ensures Amount(l, Read(IntText(n))) == l.discountedPrice as real * n as real
  {
    ReadInt(n);
    CountTimesPrice(l, Read(IntText(n)), n);
  }

  lemma CountTimesPrice(l: Listing, q: Reading, n: int)
    requires q == Reading(Some(n), n as real)
    ensures OrderRequest(l, q).items[0].quantity == Some(n) && Amount(l, q) == l.discountedPrice as real * n as real
  {
  }

  /** On other field values the order and the prompt part ways: "1.5" and "1e2"
      order one item but ask for 1.5 and 100 times the price, ".5" orders a `null`
      quantity for half the price, and the cleared field orders `null` for nothing. */
  lemma OrderDisagreesWithPrompt(l: Listing, half: string, hundred: string, point: string)
    requires half == "1.5" && hundred == "1e2" && point == ".5"
    ensures FieldValue(half) && FieldValue(hundred) && FieldValue(point)
    ensures OrderRequest(l, Read(half)).items[0].quantity == Some(1) && Amount(l, Read(half)) == l.discountedPrice as real * 1.5
    ensures OrderRequest(l, Read(hundred)).items[0].quantity == Some(1) && Amount(l, Read(hundred)) == l.discountedPrice as real * 100.0
    ensures OrderRequest(l, Read(point)).items[0].quantity == None && Amount(l, Read(point)) == l.discountedPrice as real * 0.5
    ensures OrderRequest(l, Read([])).items[0].quantity == None && Amount(l, Read([])) == 0.0
  {
    ReadOthers(half, hundred, point);
  }

  /** A disabled (non-active) listing's Buy button does nothing. */
  lemma InactiveListingInert(loggedIn: bool, l: Listing, quantity: Reading, es: seq<Event>)
    requires !ActionsEnabled(l)
    ensures Run(Begin(loggedIn, l, quantity), es).effects == []
  {
    RunInactive(Begin(loggedIn, l, quantity), es);
  }

  lemma {:induction false} RunInactive(b: Buy, es: seq<Event>)
    requires !ActionsEnabled(b.listing) && b.phase == Start && b.effects == []
    ensures Run(b, es).effects == []
    decreases |es|
  {
    if es != [] {
      RunInactive(Step(b, es[0]), es[1..]);
    }
  }

  /** `handleAddToCart`: nothing while the button is disabled, then the login gate,
      then one cart request with `parseInt` of the field text and an alert telling
      how it went. */
  function AddToCart(loggedIn: bool, l: Listing, quantity: Reading, reply: Reply<()>): (r: seq<Effect>)
    ensures !ActionsEnabled(l) ==> r == []
    ensures ActionsEnabled(l) && !loggedIn ==> r == [Navigate(LoginRoute)]
    ensures ActionsEnabled(l) && loggedIn ==>
      r == [Send(AddCartItem(l.id, quantity.count)), Alert(if reply.Ok? then AddedText else AddFailedText)]
    ensures !(ActionsEnabled(l) && loggedIn) ==> NoRequests(r)
  {
    if !ActionsEnabled(l) then []
    else if !loggedIn then [Navigate(LoginRoute)]
    else [Send(AddCartItem(l.id, quantity.count)), Alert(if reply.Ok? then AddedText else AddFailedText)]
  }

  /** The two buttons agree: both do nothing on a disabled listing, both send a
      logged-out visitor to the login page, and otherwise the cart request and the
      order's single item name the same listing with the same quantity. */
  lemma CartAndOrderAgree(loggedIn: bool, l: Listing, quantity: Reading, reply: Reply<()>)
    ensures AddToCart(loggedIn, l, quantity, reply) == [] <==> Step(Begin(loggedIn, l, quantity), ClickBuy).effects == []
    ensures !loggedIn ==> AddToCart(loggedIn, l, quantity, reply) == Step(Begin(loggedIn, l, quantity), ClickBuy).effects
    ensures ActionsEnabled(l) && loggedIn ==>
      var cart := AddToCart(loggedIn, l, quantity, reply)[0].request;
      var order := Step(Begin(loggedIn, l, quantity), ClickBuy).effects[0].request;
      cart.listingId == order.items[0].listingId && cart.quantity == order.items[0].quantity
  {
  }

  /** The whole page: the field's current reading, every run of `handleBuy` started
      so far, each waiting for its own replies, and the effects of all runs in the
      order they happened, each tagged in `origin` with the index of its run. */
  datatype Page = Page(loggedIn: bool, listing: Listing, quantity: Reading, runs: seq<Buy>,
                       effects: seq<Effect>, origin: seq<nat>)

  datatype PageEvent =
    | Edit(reading: Reading)            // the change handler, with `Read` of the new text
    | ClickBuyButton
    | Deliver(run: nat, event: Event)   // a reply or an answer reaching one run

  function Open(loggedIn: bool, l: Listing): Page {
    Page(loggedIn, l, InitialQuantity, [], [], [])
  }

  /** A click on the enabled button starts a run with the current reading; an event
      for a run steps that run alone and adds what it emitted. */
  function PageStep(p: Page, e: PageEvent): (r: Page)
    ensures r.loggedIn == p.loggedIn && r.listing == p.listing
    ensures p.effects <= r.effects && p.origin <= r.origin
    ensures |p.runs| <= |r.runs|
  {
    match e
    case Edit(q) => p.(quantity := q)
    case ClickBuyButton => if ActionsEnabled(p.listing) then StartRun(p, p.quantity) else p
    case Deliver(i, ev) => if i < |p.runs| then StepRun(p, i, ev) else p
  }

  /** A new run with quantity `q`, after its click. */
  function StartRun(p: Page, q: Reading): (r: Page)
    ensures r.loggedIn == p.loggedIn && r.listing == p.listing && r.quantity == p.quantity
    ensures |r.runs| == |p.runs| + 1 && r.runs[..|p.runs|] == p.runs
    ensures p.effects <= r.effects && p.origin <= r.origin
  {
    var b := Step(Begin(p.loggedIn, p.listing, q), ClickBuy);
    p.(runs := p.runs + [b], effects := p.effects + b.effects,
       origin := p.origin + seq(|b.effects|, _ => |p.runs|))
  }

  /** Run `i` takes event `ev`; the others wait. */
  function StepRun(p: Page, i: nat, ev: Event): (r: Page)
    requires i < |p.runs|
    ensures r.loggedIn == p.loggedIn && r.listing == p.listing && r.quantity == p.quantity
    ensures |r.runs| == |p.runs| && forall k :: 0 <= k < |p.runs| && k != i ==> r.runs[k] == p.runs[k]
    ensures p.effects <= r.effects && p.origin <= r.origin
  {
    var b := Step(p.runs[i], ev);
    var emitted := b.effects[|p.runs[i].effects|..];
    p.(runs := p.runs[i := b], effects := p.effects + emitted, origin := p.origin + seq(|emitted|, _ => i))
  }

  function PageRun(p: Page, es: seq<PageEvent>): Page
    decreases |es|
  {
    if es == [] then p else PageRun(PageStep(p, es[0]), es[1..])
  }

  /** The effects tagged `k`, in the order they happened. */
  function Project(effects: seq<Effect>, origin: seq<nat>, k: nat): (r: seq<Effect>)
    requires |origin| == |effects|
    ensures |r| <= |effects|
    decreases |effects|
  {
    if effects == [] then []
    else
      var n := |effects| - 1;
      Project(effects[..n], origin[..n], k) + (if origin[n] == k then [effects[n]] else [])
  }

  /** The page's log is an interleaving of the runs' logs: every effect is tagged with
      a run, and the effects of each run, taken in order, are exactly that run's log.
      Every run is a run of this page that keeps to the trace of one `handleBuy`. */
  predicate PageTraced(p: Page) {
    && (forall k :: 0 <= k < |p.runs| ==>
          Traced(p.runs[k]) && p.runs[k].loggedIn == p.loggedIn && p.runs[k].listing == p.listing)
    && |p.origin| == |p.effects|
    && (forall n :: 0 <= n < |p.origin| ==> p.origin[n] < |p.runs|)
    && (forall k :: 0 <= k < |p.runs| ==> Project(p.effects, p.origin, k) == p.runs[k].effects)
  }

  /** Projection distributes over appending. */
  lemma {:induction false} ProjectAppend(effects: seq<Effect>, origin: seq<nat>, more: seq<Effect>, tags: seq<nat>, k: nat)
    requires |origin| == |effects| && |tags| == |more|
    ensures Project(effects + more, origin + tags, k) == Project(effects, origin, k) + Project(more, tags, k)
    decreases |more|
  {
    if more != [] {
      var n := |more| - 1;
      assert (effects + more)[..|effects| + n] == effects + more[..n];
      assert (origin + tags)[..|origin| + n] == origin + tags[..n];
      ProjectAppend(effects, origin, more[..n], tags[..n], k);
    } else {
      assert effects + more == effects && origin + tags == origin;
    }
  }

  /** Effects all tagged `j` project to themselves for `j` and to nothing otherwise. */
  lemma {:induction false} ProjectConstant(more: seq<Effect>, j: nat, k: nat)
    ensures Project(more, seq(|more|, _ => j), k) == if j == k then more else []
    decreases |more|
  {
    if more != [] {
      var n := |more| - 1;
      assert seq(|more|, _ => j)[..n] == seq(n, _ => j);
      ProjectConstant(more[..n], j, k);
      assert more[..n] + [more[n]] == more;
    }
  }

  /** Appending a run's new effects, tagged `j`, adds them to run `j`'s projection
      and to no other. */
  lemma AppendTagged(effects: seq<Effect>, origin: seq<nat>, more: seq<Effect>, j: nat, k: nat)
    requires |origin| == |effects|
    ensures Project(effects + more, origin + seq(|more|, _ => j), k)
      == Project(effects, origin, k) + (if j == k then more else [])
  {
    ProjectAppend(effects, origin, more, seq(|more|, _ => j), k);
    ProjectConstant(more, j, k);
  }

  /** No effect tagged `k` projects to nothing. */
  lemma {:induction false} ProjectAbsent(effects: seq<Effect>, origin: seq<nat>, k: nat)
    requires |origin| == |effects| && forall n :: 0 <= n < |origin| ==> origin[n] < k
    ensures Project(effects, origin, k) == []
    decreases |effects|
  {
    if effects != [] {
      var n := |effects| - 1;
      ProjectAbsent(effects[..n], origin[..n], k);
    }
  }

  lemma StartRunTraced(p: Page, q: Reading)
    requires PageTraced(p)
    ensures PageTraced(StartRun(p, q))
  {
    var b := Step(Begin(p.loggedIn, p.listing, q), ClickBuy);
    var j := |p.runs|;
    var tags := seq(|b.effects|, _ => j);
    var r := StartRun(p, q);
    StepTraced(Begin(p.loggedIn, p.listing, q), ClickBuy);
    assert r.runs == p.runs + [b] && r.effects == p.effects + b.effects && r.origin == p.origin + tags;
    forall k | 0 <= k < |r.runs| ensures Project(r.effects, r.origin, k) == r.runs[k].effects {
      AppendTagged(p.effects, p.origin, b.effects, j, k);
      if k == j {
        ProjectAbsent(p.effects, p.origin, j);
      }
    }
  }

  lemma StepRunTraced(p: Page, i: nat, ev: Event)
    requires PageTraced(p) && i < |p.runs|
    ensures PageTraced(StepRun(p, i, ev))
  {
    var b := Step(p.runs[i], ev);
    var emitted := b.effects[|p.runs[i].effects|..];
    var tags := seq(|emitted|, _ => i);
    var r := StepRun(p, i, ev);
    StepTraced(p.runs[i], ev);
    assert b.effects == p.runs[i].effects + emitted;
    assert r.runs == p.runs[i := b] && r.effects == p.effects + emitted && r.origin == p.origin + tags;
    forall k | 0 <= k < |r.runs| ensures Project(r.effects, r.origin, k) == r.runs[k].effects {
      AppendTagged(p.effects, p.origin, emitted, i, k);
    }
  }

  lemma PageStepTraced(p: Page, e: PageEvent)
    requires PageTraced(p)
    ensures PageTraced(PageStep(p, e))
  {
    match e
    case Edit(_) =>
    case ClickBuyButton =>
      if ActionsEnabled(p.listing) {
        StartRunTraced(p, p.quantity);
      }
    case Deliver(i, ev) =>
      if i < |p.runs| {
        StepRunTraced(p, i, ev);
      }
  }

  /** A newly opened page keeps to its trace. */
  lemma OpenTraced(loggedIn: bool, l: Listing)
    ensures PageTraced(Open(loggedIn, l))
  {
  }

  /** However clicks, edits and replies interleave, every run keeps to the trace of
      a single `handleBuy`, and the page's log is exactly the runs' logs interleaved. */
  lemma {:induction false} PageRunTraced(p: Page, es: seq<PageEvent>)
    requires PageTraced(p)
    ensures PageTraced(PageRun(p, es))
    decreases |es|
  {
    if es != [] {
      PageStepTraced(p, es[0]);
      PageRunTraced(PageStep(p, es[0]), es[1..]);
    }
  }

  /** A second click while the first order is in flight sends a second order: the
      page does not guard against double submission. */
  lemma DoubleClickOrdersTwice(p: Page)
    requires ActionsEnabled(p.listing) && p.loggedIn && p.runs == [] && p.effects == []
    ensures var r := PageRun(p, [ClickBuyButton, ClickBuyButton]);
      var order := Send(OrderRequest(p.listing, p.quantity));
      |r.runs| == 2 && r.effects == [order, order]
  {
    var p1 := PageStep(p, ClickBuyButton);
    assert PageRun(p, [ClickBuyButton, ClickBuyButton]) == PageRun(p1, [ClickBuyButton]);
  }

  /** Editing the field after a click does not change what that run asks for: the
      prompt uses the quantity of the click. */
  lemma EditAfterClick(p: Page, text: Reading, orderId: string)
    requires ActionsEnabled(p.listing) && p.loggedIn && p.runs == [] && p.effects == []
    ensures var r := PageRun(p, [ClickBuyButton, Edit(text), Deliver(0, OrderReply(Ok(orderId)))]);
      var q := p.quantity;
      r.quantity == text && r.effects == [Send(OrderRequest(p.listing, q)), ConfirmPayment(Amount(p.listing, q))]
  {
    var q := p.quantity;
    var b := Step(Begin(p.loggedIn, p.listing, q), ClickBuy);
    assert b.phase == AwaitingOrder && b.effects == [Send(OrderRequest(p.listing, q))];
    var p1 := PageStep(p, ClickBuyButton);
    assert p1.runs == [b] && p1.effects == b.effects;
    var p2 := PageStep(p1, Edit(text));
    assert p2.runs == [b] && p2.effects == b.effects && p2.quantity == text;
    var b2 := Step(b, OrderReply(Ok(orderId)));
    assert b2.effects == b.effects + [ConfirmPayment(Amount(p.listing, q))];
    var p3 := PageStep(p2, Deliver(0, OrderReply(Ok(orderId))));
    assert p3.effects == p2.effects + b2.effects[1..];
    assert PageRun(p, [ClickBuyButton, Edit(text), Deliver(0, OrderReply(Ok(orderId)))])
      == PageRun(p1, [Edit(text), Deliver(0, OrderReply(Ok(orderId)))]);
    assert PageRun(p1, [Edit(text), Deliver(0, OrderReply(Ok(orderId)))]) == PageRun(p2, [Deliver(0, OrderReply(Ok(orderId)))]);
  }
}

=== FILE: domain.dfy ===
/** The records the storefront receives from the backend and the requests and
    user-visible effects its pages produce. Identifiers and free text are strings;
    prices and stock counts are whole numbers. */
module Domain {
  import opened Wrappers

  datatype ListingStatus = Active | SoldOut

  datatype Listing = Listing(
    id: string,
    vendorId: string,          // `listing.vendor._id`
    title: string,
    originalPrice: nat,
    discountedPrice: nat,
    remainingQuantity: nat,
    status: ListingStatus,
    image: Option<string>)

  datatype OrderStatus = Reserved | Placed | Collected | Cancelled

  datatype Order = Order(
    id: string,                // `_id`, also the value encoded in the pickup QR code
    status: OrderStatus,
    pickupCode: Option<string>,
    totalAmount: nat)

  /** `quantity` is `parseInt` of the quantity field; `None` is `NaN`, which the JSON
      body carries as `null`. */
  datatype OrderItem = OrderItem(listingId: string, quantity: Option<int>)

  /** A restaurant account as the admin console lists it. */
  datatype Vendor = Vendor(id: string, name: string, image: Option<string>, isApproved: bool)

  /** A customer account as the admin console lists it. */
  datatype Customer = Customer(id: string, name: string, isBlocked: bool)

  /** One part of a `multipart/form-data` body: a text field, the chosen file, or
      `JSON.stringify` of the coordinates. */
  datatype Coordinates = Coordinates(lat: real, lng: real)
  datatype File = File(name: string)
  datatype Part = Text(key: string, value: string) | Upload(key: string, file: File) | CoordinatesJson(key: string, coordinates: Coordinates)

  /** The field names of a multipart body, in order. */
  function Keys(parts: seq<Part>): (ks: seq<string>)
    ensures |ks| == |parts|
    ensures forall i :: 0 <= i < |parts| ==> ks[i] == parts[i].key
  {
    seq(|parts|, i requires 0 <= i < |parts| => parts[i].key)
  }

  /** `formData.get(key)`: the first part under `key`, if there is one. */
  function Lookup(parts: seq<Part>, key: string): (r: Option<Part>)
    ensures r.Some? <==> key in Keys(parts)
    ensures r.Some? ==> r.value in parts && r.value.key == key
    decreases |parts|
  {
    if parts == [] then None
    else if parts[0].key == key then Some(parts[0])
    else Lookup(parts[1..], key)
  }

  predicate DistinctKeys(parts: seq<Part>) {
    forall i, j :: 0 <= i < j < |parts| ==> parts[i].key != parts[j].key
  }

  predicate Distinct(ks: seq<string>) {
    forall i, j :: 0 <= i < j < |ks| ==> ks[i] != ks[j]
  }

  lemma DistinctKeysOf(parts: seq<Part>)
    requires Distinct(Keys(parts))
    ensures DistinctKeys(parts)
  {
    var ks := Keys(parts);
    forall i, j | 0 <= i < j < |parts| ensures parts[i].key != parts[j].key {
      assert ks[i] != ks[j];
    }
  }

  /** Every part of a body with distinct field names is what its name looks up. */
  lemma LookupAll(parts: seq<Part>)
    requires DistinctKeys(parts)
    ensures forall i :: 0 <= i < |parts| ==> Lookup(parts, parts[i].key) == Some(parts[i])
  {
    forall i | 0 <= i < |parts| ensures Lookup(parts, parts[i].key) == Some(parts[i]) {
      LookupFinds(parts, i);
    }
  }

  /** With distinct field names, looking a part's name up finds that part, wherever
      it sits in the body. */
  lemma {:induction false} LookupFinds(parts: seq<Part>, i: nat)
    requires DistinctKeys(parts) && i < |parts|
    ensures Lookup(parts, parts[i].key) == Some(parts[i])
    decreases i
  {
    if i > 0 {
      assert parts[0].key != parts[i].key;
      assert parts[1..][i - 1] == parts[i];
      LookupFinds(parts[1..], i - 1);
    }
  }

  /** Every request the modelled pages send. */
  datatype Request =
    | CreateOrder(vendorId: string, items: seq<OrderItem>)            // POST /api/orders
    | SimulatePayment(orderId: string, paymentId: Option<string>)    // POST /api/orders/{id}/simulate-payment
    | AddCartItem(listingId: string, quantity: Option<int>)          // POST /api/users/cart
    | RemoveCartItem(listingId: string)                              // DELETE /api/users/cart/{id}
    | FetchCart                                                      // GET /api/users/cart
    | UpdateProfile(parts: seq<Part>)                                // PUT /api/users/profile
    | FetchProfile                                                   // GET /api/users/profile
    | FetchMyOrders                                                  // GET /api/orders/myorders
    | DeleteAccount                                                  // DELETE /api/users/profile
    | VerifyCode(pickupCode: string)                                 // POST /api/vendors/verify-code
    | FetchVendorOrders                                              // GET /api/vendors/orders
    | DeleteListing(listingId: string)                               // DELETE /api/listings/{id}
    | FetchVendorProfile                                             // GET /api/vendors/profile
    | FetchOwnListings                                               // GET /api/vendors/listings
    | FetchListings(url: string)                                     // GET on the marketplace URL
    | FetchAdminVendors                                              // GET /api/admin/vendors
    | FetchAdminUsers                                                // GET /api/admin/users
    | ToggleVendor(vendorId: string)                                 // PUT /api/admin/vendors/{id}/toggle
    | ToggleCustomer(userId: string)                                 // PUT /api/admin/users/{id}/toggle
    | DeleteVendor(vendorId: string)                                 // DELETE /api/admin/vendors/{id}
    | FetchVendorListings(vendorId: string)                          // GET /api/admin/vendors/{id}/listings
    | FetchCustomerOrders(userId: string)                            // GET /api/admin/users/{id}/orders

  /** What a user of the page observes: a request going out, an `alert`, a
      `window.confirm` for a payment amount, a navigation, or a decoded code handed to
      the pickup page's `handleScan` (a name that page calls but never defines). */
  datatype Effect =
    | Send(request: Request)
    | Alert(text: string)
    | ConfirmPayment(amount: real)
    | Navigate(route: string)
    | HandleScan(text: string)

  /** The `_id` of each kind of record, for the id-keyed list updates. */
  function ListingId(l: Listing): string { l.id }
  function VendorId(v: Vendor): string { v.id }
  function CustomerId(c: Customer): string { c.id }

  predicate NoRequests(effects: seq<Effect>) {
    forall i :: 0 <= i < |effects| ==> !effects[i].Send?
  }
}

=== FILE: images.dfy ===
/** Where the pages load pictures from: `getImageUrl` (src/pages/Home.jsx, repeated
    verbatim in src/pages/vendor/Dashboard.jsx) for listing photos, and the inline
    expression src/pages/admin/Dashboard.jsx uses for restaurant avatars.

    `apiBase` is the configured API origin (`VITE_API_URL`, which src/axiosConfig.js
    installs as axios' base URL); absent or empty means same-origin paths. */
module Images {
  import opened Wrappers
  import opened Text

  const ListingPlaceholder := "https://" + "images.unsplash.com/photo-1517248135467-4c7edcad34c4?w=800&q=80&blur=2"
  const RestaurantPlaceholder := "placeholder-restaurant.jpg"

  /** An absolute URL, as the pages test it. */
  predicate Absolute(s: string) {
    StartsWith(s, "http")
  }

  /** `getImageUrl(imagePath)`: no path gives the stock photo, an absolute one is used
      as is, and a relative one is appended to the API origin after a `/`. */
  function ImageUrl(apiBase: Option<string>, path: Option<string>): (r: string)
    ensures !Truthy(path) ==> r == ListingPlaceholder
    ensures Truthy(path) && Absolute(path.value) ==> r == path.value
    ensures Truthy(path) && !Absolute(path.value) ==> r == OrElse(apiBase, "") + "/" + path.value
  {
    if !Truthy(path) then ListingPlaceholder
    else if Absolute(path.value) then path.value
    else OrElse(apiBase, "") + "/" + path.value
  }

  lemma AbsolutePrefix(a: string, b: string)
    requires Absolute(a)
    ensures Absolute(a + b)
  {
    assert (a + b)[..4] == a[..4];
  }

  /** With an absolute API origin every resolved URL is absolute, so resolving it again
      gives it back. */
  lemma ImageUrlResolvesOnce(apiBase: Option<string>, path: Option<string>)
    requires Absolute(OrElse(apiBase, ""))
    ensures Absolute(ImageUrl(apiBase, path))
    ensures ImageUrl(apiBase, Some(ImageUrl(apiBase, path))) == ImageUrl(apiBase, path)
  {
    assert ListingPlaceholder[..4] == "http";
    if Truthy(path) && !Absolute(path.value) {
      AbsolutePrefix(OrElse(apiBase, ""), "/" + path.value);
      assert OrElse(apiBase, "") + "/" + path.value == OrElse(apiBase, "") + ("/" + path.value);
    }
  }

  /** A relative path can be read back from its URL: the URL is the origin, a `/`, and
      the path, so two different relative paths never share a URL. */
  lemma ImageUrlKeepsRelativePath(apiBase: Option<string>, p: string, q: string)
    requires p != "" && !Absolute(p) && q != "" && !Absolute(q)
    ensures var base := OrElse(apiBase, "");
      var r := ImageUrl(apiBase, Some(p));
      |r| == |base| + 1 + |p| && r[..|base|] == base && r[|base|] == '/' && r[|base| + 1..] == p
    ensures ImageUrl(apiBase, Some(p)) == ImageUrl(apiBase, Some(q)) ==> p == q
  {
    var base := OrElse(apiBase, "");
    var r, s := ImageUrl(apiBase, Some(p)), ImageUrl(apiBase, Some(q));
    assert r[|base| + 1..] == p;
    assert s[|base| + 1..] == q;
  }

  /** `.replace(/^\//, '')`: drops one leading slash. */
  function StripLeadingSlash(s: string): (r: string)
    ensures |s| > 0 && s[0] == '/' ==> s == "/" + r
    ensures !(|s| > 0 && s[0] == '/') ==> r == s
  {
    if |s| > 0 && s[0] == '/' then s[1..] else s
  }

  /** The admin console's restaurant avatar: an absolute image is used as is; anything
      else, or the placeholder file name when there is no image, is appended to the
      origin after a `/` with one leading slash of its own dropped. */
  function VendorImage(apiBase: Option<string>, image: Option<string>): (r: string)
    ensures !Truthy(image) ==> r == OrElse(apiBase, "") + "/" + RestaurantPlaceholder
    ensures Truthy(image) && Absolute(image.value) ==> r == image.value
    ensures Truthy(image) && !Absolute(image.value) ==> r == OrElse(apiBase, "") + "/" + StripLeadingSlash(image.value)
  {
    var name := OrElse(image, RestaurantPlaceholder);
    assert RestaurantPlaceholder[..4][0] == 'p';
    if Absolute(name) then image.value
    else OrElse(apiBase, "") + "/" + StripLeadingSlash(name)
  }

  /** The two resolutions agree on every image except three: a missing one (different
      placeholders), and a relative one that starts with `/`, where the avatar drops the
      slash and the listing photo doubles it. */
  lemma AvatarAndPhotoAgree(apiBase: Option<string>, p: string)
    ensures p != "" && (Absolute(p) || p[0] != '/') ==> VendorImage(apiBase, Some(p)) == ImageUrl(apiBase, Some(p))
    ensures |p| > 1 && p[0] == '/' && !Absolute(p[1..]) ==>
      ImageUrl(apiBase, Some(p)) == OrElse(apiBase, "") + "/" + p
      && VendorImage(apiBase, Some(p)) == ImageUrl(apiBase, Some(p[1..]))
    ensures VendorImage(apiBase, None) != ImageUrl(apiBase, None)
  {
    if |p| > 1 && p[0] == '/' {
      assert !Absolute(p);
    }
    var v := VendorImage(apiBase, None);
    assert v[|v| - 1] == 'g';
    assert ListingPlaceholder[|ListingPlaceholder| - 1] == '2';
  }
}

=== FILE: lists.dfy ===
/** The two list updates the dashboards apply after a successful request:
    `list.map(x => x._id === id ? updated : x)` and `list.filter(x => x._id !== id)`.
    Both are generic in the record type; `idOf` reads a record's `_id`. */
module Lists {

  /** No two records share an id. */
  predicate UniqueIds<T>(xs: seq<T>, idOf: T -> string) {
    forall i, j :: 0 <= i < j < |xs| ==> idOf(xs[i]) != idOf(xs[j])
  }

  /** No record has the id. */
  predicate Absent<T>(xs: seq<T>, idOf: T -> string, id: string) {
    forall i :: 0 <= i < |xs| ==> idOf(xs[i]) != id
  }

  /** Every record with the id replaced by `y`. */
  function ReplaceById<T>(xs: seq<T>, idOf: T -> string, id: string, y: T): (r: seq<T>)
    ensures |r| == |xs|
    ensures forall i :: 0 <= i < |xs| && idOf(xs[i]) != id ==> r[i] == xs[i]
    ensures forall i :: 0 <= i < |xs| && idOf(xs[i]) == id ==> r[i] == y
    decreases |xs|
  {
    if xs == [] then []
    else [if idOf(xs[0]) == id then y else xs[0]] + ReplaceById(xs[1..], idOf, id, y)
  }

  /** The records without the id, in their order. */
  function RemoveById<T>(xs: seq<T>, idOf: T -> string, id: string): (r: seq<T>)
    ensures |r| <= |xs|
    ensures Absent(r, idOf, id)
    ensures forall x :: x in r ==> x in xs
    ensures forall x :: x in xs && idOf(x) != id ==> x in r
    decreases |xs|
  {
    if xs == [] then []
    else (if idOf(xs[0]) == id then [] else [xs[0]]) + RemoveById(xs[1..], idOf, id)
  }

  lemma {:induction false} RemoveByIdAppend<T>(xs: seq<T>, ys: seq<T>, idOf: T -> string, id: string)
    ensures RemoveById(xs + ys, idOf, id) == RemoveById(xs, idOf, id) + RemoveById(ys, idOf, id)
    decreases |xs|
  {
    if xs != [] {
      assert (xs + ys)[1..] == xs[1..] + ys;
      RemoveByIdAppend(xs[1..], ys, idOf, id);
    } else {
      assert xs + ys == ys;
    }
  }

  /** Removing an id nobody has changes nothing. */
  lemma {:induction false} RemoveAbsent<T>(xs: seq<T>, idOf: T -> string, id: string)
    requires Absent(xs, idOf, id)
    ensures RemoveById(xs, idOf, id) == xs
    decreases |xs|
  {
    if xs != [] {
      assert Absent(xs[1..], idOf, id);
      RemoveAbsent(xs[1..], idOf, id);
      assert [xs[0]] + xs[1..] == xs;
    }
  }

  /** With unique ids, no record before or after position `k` has the id of the
      record at `k`. */
  lemma {:induction false} AbsentAround<T>(xs: seq<T>, idOf: T -> string, k: nat)
    requires UniqueIds(xs, idOf) && k < |xs|
    ensures Absent(xs[..k], idOf, idOf(xs[k])) && Absent(xs[k + 1..], idOf, idOf(xs[k]))
  {
    forall i | 0 <= i < k ensures idOf(xs[..k][i]) != idOf(xs[k]) {
      assert xs[..k][i] == xs[i];
    }
    var post := xs[k + 1..];
    forall i | 0 <= i < |post| ensures idOf(post[i]) != idOf(xs[k]) {
      assert post[i] == xs[k + 1 + i];
    }
  }

  /** Removing the id of a record that nobody around it shares drops that record. */
  lemma {:induction false} RemoveMiddle<T>(pre: seq<T>, x: T, post: seq<T>, idOf: T -> string)
    requires Absent(pre, idOf, idOf(x)) && Absent(post, idOf, idOf(x))
    ensures RemoveById(pre + [x] + post, idOf, idOf(x)) == pre + post
  {
    var id := idOf(x);
    var single := [x];
    assert single[0] == x && single[1..] == [];
    assert RemoveById(single, idOf, id) == [];
    RemoveAbsent(pre, idOf, id);
    RemoveAbsent(post, idOf, id);
    RemoveByIdAppend(pre, single, idOf, id);
    assert RemoveById(pre + single, idOf, id) == pre;
    RemoveByIdAppend(pre + single, post, idOf, id);
  }

  /** With unique ids, removing the id of the record at `k` drops exactly that record
      and keeps the others in order. */
  lemma {:induction false} RemoveExactlyOne<T>(xs: seq<T>, idOf: T -> string, k: nat)
    requires UniqueIds(xs, idOf) && k < |xs|
    ensures RemoveById(xs, idOf, idOf(xs[k])) == xs[..k] + xs[k + 1..]
  {
    AbsentAround(xs, idOf, k);
    RemoveMiddle(xs[..k], xs[k], xs[k + 1..], idOf);
    assert xs[..k] + [xs[k]] + xs[k + 1..] == xs;
  }

  /** With unique ids, replacing the id of the record at `k` changes exactly that record. */
  lemma {:induction false} ReplaceExactlyOne<T>(xs: seq<T>, idOf: T -> string, k: nat, y: T)
    requires UniqueIds(xs, idOf) && k < |xs|
    ensures ReplaceById(xs, idOf, idOf(xs[k]), y) == xs[..k] + [y] + xs[k + 1..]
  {
    var r := ReplaceById(xs, idOf, idOf(xs[k]), y);
    forall i | 0 <= i < |xs| ensures r[i] == (xs[..k] + [y] + xs[k + 1..])[i] {
      if i < k {
        assert idOf(xs[i]) != idOf(xs[k]);
      } else if i > k {
        assert idOf(xs[k]) != idOf(xs[i]);
      }
    }
  }

  /** Both updates keep the ids unique; a replacement that keeps the id keeps the ids
      exactly. */
  lemma UpdatesKeepIdsUnique<T>(xs: seq<T>, idOf: T -> string, id: string, y: T)
    requires UniqueIds(xs, idOf)
    ensures UniqueIds(RemoveById(xs, idOf, id), idOf)
    ensures idOf(y) == id ==> UniqueIds(ReplaceById(xs, idOf, id, y), idOf)
  {
    RemoveKeepsIdsUnique(xs, idOf, id);
    if idOf(y) == id {
      ReplaceKeepsIdsUnique(xs, idOf, id, y);
    }
  }

  /** Replacing by a record with the same id keeps every position's id. */
  lemma ReplaceKeepsIdsUnique<T>(xs: seq<T>, idOf: T -> string, id: string, y: T)
    requires UniqueIds(xs, idOf) && idOf(y) == id
    ensures UniqueIds(ReplaceById(xs, idOf, id, y), idOf)
  {
    var q := ReplaceById(xs, idOf, id, y);
    forall i, j | 0 <= i < j < |q| ensures idOf(q[i]) != idOf(q[j]) {
      assert idOf(q[i]) == idOf(xs[i]) && idOf(q[j]) == idOf(xs[j]);
    }
  }

  /** The tail of a list with unique ids has unique ids, none of them the head's. */
  lemma UniqueTail<T>(xs: seq<T>, idOf: T -> string)
    requires UniqueIds(xs, idOf) && xs != []
    ensures UniqueIds(xs[1..], idOf)
    ensures forall x :: x in xs[1..] ==> idOf(x) != idOf(xs[0])
  {
    forall i, j | 0 <= i < j < |xs[1..]| ensures idOf(xs[1..][i]) != idOf(xs[1..][j]) {
      assert xs[1..][i] == xs[i + 1] && xs[1..][j] == xs[j + 1];
    }
    forall x | x in xs[1..] ensures idOf(x) != idOf(xs[0]) {
      var j :| 0 <= j < |xs[1..]| && xs[1..][j] == x;
      assert xs[j + 1] == x;
    }
  }

  lemma {:induction false} RemoveKeepsIdsUnique<T>(xs: seq<T>, idOf: T -> string, id: string)
    requires UniqueIds(xs, idOf)
    ensures UniqueIds(RemoveById(xs, idOf, id), idOf)
    decreases |xs|
  {
    if xs != [] {
      UniqueTail(xs, idOf);
      RemoveKeepsIdsUnique(xs[1..], idOf, id);
      var rest := RemoveById(xs[1..], idOf, id);
      var r := RemoveById(xs, idOf, id);
      if idOf(xs[0]) != id {
        assert r == [xs[0]] + rest;
        forall i, j | 0 <= i < j < |r| ensures idOf(r[i]) != idOf(r[j]) {
          if i == 0 {
            assert r[j] == rest[j - 1] && r[j] in rest;
          } else {
            assert r[i] == rest[i - 1] && r[j] == rest[j - 1];
          }
        }
      } else {
        assert r == rest;
      }
    }
  }
}

=== FILE: location.dfy ===
/** The location picker (src/components/LocationPicker.jsx): ask the browser for a
    position, look the position up in a reverse geocoder, derive city, district and
    state from the answer, show the result on a map, and hand it to the form on
    confirmation.

    The geolocation API and the geocoder are not modelled: their answers are carried by
    the events. A JavaScript value that may be `undefined` is an `Option<string>`. */
module Location {
  import opened Wrappers
  import opened Domain

  const UnsupportedText := "Geolocation is not supported by your browser"
  const DeniedText := "Unable to retrieve location"
  const DetectedText := "Location Detected"
  const UnknownCity := "Unknown"

  /** The `address` object of a geocoder answer, as far as the picker reads it. */
  datatype AddressFields = AddressFields(
    city: Option<string>, town: Option<string>, village: Option<string>,
    stateDistrict: Option<string>, county: Option<string>, state: Option<string>)

  /** What the geocoder lookup produced: a JSON body (with or without `address`), or a
      failure of the fetch or of the JSON parse. */
  datatype Geocode =
    | Answered(address: Option<AddressFields>, displayName: Option<string>)
    | LookupFailed

  /** The details handed to the form. The picker always fills `coordinates`; it is
      optional because the forms test for it. */
  datatype Details = Details(
    city: Option<string>, district: Option<string>, state: Option<string>,
    formattedAddress: Option<string>, coordinates: Option<Coordinates>)

  /** How a template literal prints a possibly-undefined value. */
  function Shown(v: Option<string>): (r: string)
    ensures v.Some? ==> r == v.value
    ensures v.None? ==> r == "undefined"
  {
    if v.Some? then v.value else "undefined"
  }

  /** `city || town || village`. */
  function CityOf(a: AddressFields): (c: Option<string>)
    ensures Truthy(c) <==> Truthy(a.city) || Truthy(a.town) || Truthy(a.village)
    ensures Truthy(a.city) ==> c == a.city
    ensures !Truthy(a.city) && Truthy(a.town) ==> c == a.town
    ensures !Truthy(a.city) && !Truthy(a.town) ==> c == a.village
  {
    Either(Either(a.city, a.town), a.village)
  }

  /** `state_district || county`. */
  function DistrictOf(a: AddressFields): (d: Option<string>)
    ensures Truthy(d) <==> Truthy(a.stateDistrict) || Truthy(a.county)
    ensures Truthy(a.stateDistrict) ==> d == a.stateDistrict
    ensures !Truthy(a.stateDistrict) ==> d == a.county
  {
    Either(a.stateDistrict, a.county)
  }

  /** The details derived from an answer with an address. */
  function Derive(a: AddressFields, displayName: Option<string>, at: Coordinates): (d: Details)
    ensures d.city == CityOf(a) && d.district == DistrictOf(a) && d.state == a.state
    ensures d.formattedAddress == displayName && d.coordinates == Some(at)
  {
    Details(CityOf(a), DistrictOf(a), a.state, displayName, Some(at))
  }

  /** The button's label after a successful lookup: the city or "Unknown", a comma, and
      the district or else the state, which prints as "undefined" when the answer has
      neither. */
  function Label(d: Details): (s: string)
    ensures Truthy(d.city) && Truthy(d.district) ==> s == d.city.value + ", " + d.district.value
    ensures !Truthy(d.city) && Truthy(d.district) ==> s == UnknownCity + ", " + d.district.value
    ensures !Truthy(d.district) && d.state.Some? ==> s == OrElse(d.city, UnknownCity) + ", " + d.state.value
    ensures !Truthy(d.district) && d.state.None? ==> s == OrElse(d.city, UnknownCity) + ", " + "undefined"
  {
    OrElse(d.city, UnknownCity) + ", " + Shown(Either(d.district, d.state))
  }

  /** The picker. `lookups` are the positions sent to the geocoder and `handedOver`
      the details passed to the form's callback, in order. */
  datatype Picker = Picker(
    location: Option<Coordinates>,
    details: Option<Details>,
    address: Option<string>,
    loading: bool,
    showMap: bool,
    error: string,
    pending: nat,                  // position requests not yet answered
    lookups: seq<Coordinates>,
    handedOver: seq<Details>)

  datatype Event =
    | Detect(supported: bool)              // the button, in a browser with or without geolocation
    | Located(at: Coordinates, geocode: Geocode)
    | Denied                               // the position request failed
    | Confirm(hasCallback: bool)           // "Confirm & Use"
    | CloseMap

  function Init(): Picker {
    Picker(None, None, None, false, false, "", 0, [], [])
  }

  /** The position callback: the marker moves, the lookup is sent, and whatever the
      lookup gives, the loader goes and the map opens. An answer without an address
      changes neither the label nor the details. */
  function Locate(p: Picker, at: Coordinates, g: Geocode): (r: Picker)
    ensures r.location == Some(at) && !r.loading && r.showMap && r.lookups == p.lookups + [at]
    ensures r.error == p.error && r.handedOver == p.handedOver
    ensures g.LookupFailed? ==> r.address == Some(DetectedText) && r.details == Some(Details(None, None, None, None, Some(at)))
    ensures g.Answered? && g.address.Some? ==>
      r.details == Some(Derive(g.address.value, g.displayName, at)) && r.address == Some(Label(r.details.value))
    ensures g.Answered? && g.address.None? ==> r.details == p.details && r.address == p.address
  {
    var q := p.(location := Some(at), lookups := p.lookups + [at], loading := false, showMap := true);
    match g
    case LookupFailed => q.(address := Some(DetectedText), details := Some(Details(None, None, None, None, Some(at))))
    case Answered(address, name) =>
      if address.None? then q
      else
        var d := Derive(address.value, name, at);
        q.(details := Some(d), address := Some(Label(d)))
  }

  function Next(p: Picker, e: Event): Picker {
    match e
    case Detect(supported) =>
      if supported then p.(loading := true, error := "", pending := p.pending + 1)
      else p.(loading := false, error := UnsupportedText)
    case Located(at, g) =>
      if p.pending == 0 then p else Locate(p.(pending := p.pending - 1), at, g)
    case Denied =>
      if p.pending == 0 then p else p.(pending := p.pending - 1, error := DeniedText, loading := false)
    case Confirm(hasCallback) =>
      // The button is on the map, which is shown only with a location.
      if !(p.showMap && p.location.Some?) then p
      else if p.details.Some? && hasCallback then p.(handedOver := p.handedOver + [p.details.value], showMap := false)
      else p.(showMap := false)
    case CloseMap => p.(showMap := false)
  }

  function Run(p: Picker, es: seq<Event>): Picker
    decreases |es|
  {
    if es == [] then p else Run(Next(p, es[0]), es[1..])
  }

  /** Without geolocation nothing is requested and the error shows; a refused position
      shows its error and clears the loader; confirming hands the details over only
      when there are some and always closes the map. */
  lemma DetectOutcomes(p: Picker, hasCallback: bool)
    ensures var r := Next(p, Detect(false));
      r.error == UnsupportedText && !r.loading && r.pending == p.pending && r.lookups == p.lookups
    ensures p.pending > 0 ==> var r := Next(p, Denied);
      r.error == DeniedText && !r.loading && r.lookups == p.lookups && r.location == p.location
    ensures p.showMap && p.location.Some? ==> var r := Next(p, Confirm(hasCallback));
      !r.showMap
      && (r.handedOver == if p.details.Some? && hasCallback then p.handedOver + [p.details.value] else p.handedOver)
  {
  }

  /** What the picker keeps true: the map is open only with a marker, an error is never
      shown with the loader, and every set of details (shown or handed over) carries a
      position the browser reported. */
  predicate Consistent(p: Picker) {
    (p.showMap ==> p.location.Some?)
    && (p.error != "" ==> !p.loading)
    && (p.location.Some? ==> p.location.value in p.lookups)
    && (p.details.Some? ==> p.details.value.coordinates.Some? && p.details.value.coordinates.value in p.lookups)
    && (forall i :: 0 <= i < |p.handedOver| ==>
          p.handedOver[i].coordinates.Some? && p.handedOver[i].coordinates.value in p.lookups)
  }

  lemma NextConsistent(p: Picker, e: Event)
    requires Consistent(p)
    ensures Consistent(Next(p, e))
  {
    var r := Next(p, e);
    match e {
      case Located(at, g) =>
        if p.pending > 0 {
          forall i | 0 <= i < |r.handedOver|
            ensures r.handedOver[i].coordinates.Some? && r.handedOver[i].coordinates.value in r.lookups
          {
            assert r.handedOver[i] == p.handedOver[i];
          }
        }
      case Confirm(cb) =>
        if p.showMap && p.location.Some? && p.details.Some? && cb {
          forall i | 0 <= i < |r.handedOver|
            ensures r.handedOver[i].coordinates.Some? && r.handedOver[i].coordinates.value in r.lookups
          {
            if i < |p.handedOver| {
              assert r.handedOver[i] == p.handedOver[i];
            }
          }
        }
      case _ =>
    }
  }

  lemma {:induction false} RunConsistent(p: Picker, es: seq<Event>)
    requires Consistent(p)
    ensures Consistent(Run(p, es))
    decreases |es|
  {
    if es != [] {
      NextConsistent(p, es[0]);
      RunConsistent(Next(p, es[0]), es[1..]);
    }
  }

  /** The details always carry a reported position, but not necessarily the latest: a
      second detection whose answer has no address moves the marker and keeps the
      first detection's label and details. */
  lemma StaleDetailsAfterEmptyAnswer(a: AddressFields, x: Coordinates, y: Coordinates)
    requires x != y
    ensures var p := Run(Init(), [Detect(true), Located(x, Answered(Some(a), None)), Detect(true), Located(y, Answered(None, None))]);
      p.location == Some(y) && p.details.Some? && p.details.value.coordinates == Some(x)
  {
    var es := [Detect(true), Located(x, Answered(Some(a), None)), Detect(true), Located(y, Answered(None, None))];
    var p1 := Next(Init(), es[0]);
    var p2 := Next(p1, es[1]);
    assert p2.details == Some(Derive(a, None, x));
    var p3 := Next(p2, es[2]);
    var p4 := Next(p3, es[3]);
    assert p4.location == Some(y) && p4.details == p2.details;
    assert es[1..][1..][1..][1..] == [];
    assert Run(Init(), es) == Run(p1, es[1..]) == Run(p2, es[2..]) == Run(p3, es[3..]) == Run(p4, []);
  }

  /** A lookup failure labels the button "Location Detected" and hands over the bare
      coordinates; a successful one labels it from the address. */
  lemma LookupLabels(p: Picker, at: Coordinates, a: AddressFields, name: Option<string>)
    ensures Locate(p, at, LookupFailed).address == Some("Location Detected")
    ensures Locate(p, at, LookupFailed).details.value.city.None?
    ensures Truthy(a.city) && Truthy(a.stateDistrict) ==>
      Locate(p, at, Answered(Some(a), name)).address == Some(a.city.value + ", " + a.stateDistrict.value)
    ensures !Truthy(a.city) && !Truthy(a.town) && !Truthy(a.village) && !Truthy(a.stateDistrict) && !Truthy(a.county) && a.state.None? ==>
      Locate(p, at, Answered(Some(a), name)).address == Some(UnknownCity + ", " + "undefined")
  {
    if !Truthy(a.city) && !Truthy(a.town) && !Truthy(a.village) && !Truthy(a.stateDistrict) && !Truthy(a.county) && a.state.None? {
      var d := Derive(a, name, at);
      assert !Truthy(d.city) && !Truthy(d.district) && d.state.None?;
    }
  }
}

=== FILE: marketplace.dfy ===
/** The marketplace page (src/pages/Home.jsx): the discount badge, the category filter
    and the URL it fetches, how a listing card looks when it is sold out, and the
    food-safety modal that a first visit must agree to. */
module Marketplace {
  import opened Wrappers
  import opened Text
  import opened Domain
  import Images

  /** `Math.round(((original - discounted) / (original || 1)) * 100)` on whole-rupee
      prices, computed exactly: `Math.round` is `floor(x + 1/2)`, and
      `floor(100(o - d)/den + 1/2) = floor((200(o - d) + den) / (2 den))`. */
  function CalculateDiscount(original: nat, discounted: nat): (pct: int)
    ensures var den := if original == 0 then 1 else original;
      2 * den * pct <= 200 * (original - discounted) + den < 2 * den * pct + 2 * den
  {
    var den := if original == 0 then 1 else original;
    DivBounds(200 * (original - discounted) + den, 2 * den);
    (200 * (original - discounted) + den) / (2 * den)
  }

  lemma DivBounds(a: int, b: int)
    requires b > 0
    ensures b * (a / b) <= a < b * (a / b) + b
  {
  }

  /** The badge is the exact percentage `100(o - d)/o` rounded half up: it lies within
      half a point below or at the quotient, and a quotient exactly halfway rounds up. */
  lemma DiscountIsRoundHalfUp(original: nat, discounted: nat)
    requires original > 0
    ensures var exact := (100 * (original - discounted)) as real / original as real;
      var pct := CalculateDiscount(original, discounted) as real;
      pct - 0.5 <= exact < pct + 0.5
  {
    var o := original as real;
    var pct := CalculateDiscount(original, discounted);
    var n := 100 * (original - discounted);
    assert 2 * original * pct <= 2 * n + original < 2 * original * pct + 2 * original;
    assert (2 * original * pct) as real <= (2 * n + original) as real;
    assert (2 * n + original) as real < (2 * original * pct + 2 * original) as real;
    assert 2.0 * o * pct as real <= 2.0 * n as real + o;
    assert 2.0 * n as real + o < 2.0 * o * pct as real + 2.0 * o;
    RealDivBounds(n as real, o, pct as real);
  }

  lemma RealDivBounds(n: real, o: real, p: real)
    requires o > 0.0
    requires 2.0 * o * p <= 2.0 * n + o < 2.0 * o * p + 2.0 * o
    ensures p - 0.5 <= n / o < p + 0.5
  {
    var q := n / o;
    assert n == q * o;
    if q < p - 0.5 {
      RealMulLess(q, p - 0.5, o);
    }
    if q >= p + 0.5 {
      RealMulLess(p + 0.5, q, o);
    }
  }

  lemma RealMulLess(a: real, b: real, o: real)
    requires o > 0.0
    ensures a < b ==> a * o < b * o
    ensures a <= b ==> a * o <= b * o
  {
    assert b * o - a * o == (b - a) * o;
  }

  /** The quotient is pinned down by the bounds it satisfies. */
  lemma DivUnique(a: int, b: int, q: int)
    requires b > 0 && b * q <= a < b * q + b
    ensures a / b == q
  {
    DivBounds(a, b);
    var r := a / b;
    if r < q {
      MulMono(b, r + 1, q);
    } else if r > q {
      MulMono(b, q + 1, r);
    }
  }

  lemma MulMono(b: int, x: int, y: int)
    requires b > 0 && x <= y
    ensures b * x <= b * y
  {
    assert b * y - b * x == b * (y - x);
  }

  /** Full price is no discount, a free item is the whole price off, any discount in
      between stays in 0..100, and with no original price the denominator is 1. */
  lemma DiscountRange(original: nat, discounted: nat)
    ensures CalculateDiscount(original, original) == 0
    ensures original > 0 ==> CalculateDiscount(original, 0) == 100
    ensures discounted <= original ==> 0 <= CalculateDiscount(original, discounted) <= 100
    ensures original == 0 ==> CalculateDiscount(original, discounted) == -100 * discounted
  {
    var den := if original == 0 then 1 else original;
    DivUnique(den, 2 * den, 0);
    if original > 0 {
      DivUnique(200 * original + original, 2 * original, 100);
    }
    if original == 0 {
      DivUnique(200 * (0 - discounted) + 1, 2, -100 * discounted);
    }
    if discounted <= original {
      var a := 200 * (original - discounted) + den;
      var pct := a / (2 * den);
      DivBounds(a, 2 * den);
      if pct < 0 {
        MulMono(2 * den, pct, -1);
      }
      if pct > 100 {
        MulMono(2 * den, 101, pct);
        MulMono(200, original - discounted, den);
      }
    }
  }

  const AllCategory := "All"
  const ListingsUrl := "/api/listings"
  const CategoryPrefix := "/api/listings?category="
  /** The filter buttons. */
  const Categories: seq<string> := ["All", "Meals", "Bakery"]

  /** The URL `fetchListings` requests for the selected category. */
  function CategoryUrl(category: string): (url: string)
    ensures category == AllCategory ==> url == ListingsUrl
    ensures category != AllCategory ==> StartsWith(url, CategoryPrefix) && url[|CategoryPrefix|..] == category
  {
    if category == AllCategory then ListingsUrl else CategoryPrefix + category
  }

  /** Reads the category back from a listings URL. */
  function CategoryOf(url: string): (c: Option<string>)
    ensures c.Some? ==> url == CategoryUrl(c.value) || url == CategoryPrefix + AllCategory
  {
    if url == ListingsUrl then Some(AllCategory)
    else if StartsWith(url, CategoryPrefix) then Some(url[|CategoryPrefix|..])
    else None
  }

  /** Every category can be read back from the URL it fetches, so two different
      categories never fetch the same URL. */
  lemma CategoryUrlRoundTrip(c: string, d: string)
    ensures CategoryOf(CategoryUrl(c)) == Some(c)
    ensures CategoryUrl(c) == CategoryUrl(d) ==> c == d
  {
    if c != AllCategory {
      assert |CategoryUrl(c)| > |ListingsUrl|;
    }
    if d != AllCategory {
      assert |CategoryUrl(d)| > |ListingsUrl|;
    }
  }

  /** What a listing card shows. */
  datatype Card = Card(
    link: Option<string>,          // where the card leads; a sold-out card is a plain block
    image: string,
    discountBadge: Option<int>,
    quantityBadge: Option<nat>,
    soldOutBadge: bool,
    prices: Option<(nat, nat)>)    // original and discounted, in the footer

  function CardView(apiBase: Option<string>, l: Listing): (c: Card)
    ensures c.image == Images.ImageUrl(apiBase, l.image)
    ensures l.status == SoldOut ==> c.link.None? && c.discountBadge.None? && c.quantityBadge.None? && c.prices.None? && c.soldOutBadge
    ensures l.status != SoldOut ==> c.link == Some("/listing/" + l.id) && !c.soldOutBadge
    ensures l.status != SoldOut ==> c.discountBadge == Some(CalculateDiscount(l.originalPrice, l.discountedPrice))
    ensures l.status != SoldOut ==> c.quantityBadge == Some(l.remainingQuantity) && c.prices == Some((l.originalPrice, l.discountedPrice))
  {
    var image := Images.ImageUrl(apiBase, l.image);
    if l.status == SoldOut then Card(None, image, None, None, true, None)
    else Card(Some("/listing/" + l.id), image, Some(CalculateDiscount(l.originalPrice, l.discountedPrice)), Some(l.remainingQuantity), false, Some((l.originalPrice, l.discountedPrice)))
  }

  /** A card is a link exactly when it carries the discount, the quantity and the
      prices, and exactly when it is not marked sold out. */
  lemma CardGating(apiBase: Option<string>, l: Listing)
    ensures var c := CardView(apiBase, l);
      (c.link.Some? <==> !c.soldOutBadge) && (c.link.Some? <==> c.discountBadge.Some?)
      && (c.link.Some? <==> c.quantityBadge.Some?) && (c.link.Some? <==> c.prices.Some?)
      && (c.link.Some? <==> l.status == Active)
  {
  }

  /** The page. `agreedFlag` is the stored `safety_agreed` item. */
  datatype Home = Home(
    listings: seq<Listing>,
    loading: bool,
    category: string,
    showSafety: bool,
    isAgreed: bool,
    agreedFlag: Option<string>,
    pending: nat,                  // listing fetches sent and not yet answered
    effects: seq<Effect>)

  datatype Event =
    | SelectCategory(choice: string)
    | ListingsReply(fetched: Reply<seq<Listing>>)
    | Tick(checked: bool)
    | Agree

  const AgreedValue := "true"

  /** The page as mounted: the modal shows unless the flag is stored, and the listings
      of every category are being fetched. */
  function Mount(agreedFlag: Option<string>): (h: Home)
    ensures h.showSafety <==> !Truthy(agreedFlag)
    ensures h.loading && h.category == AllCategory && h.effects == [Send(FetchListings(ListingsUrl))]
  {
    Home([], true, AllCategory, !Truthy(agreedFlag), false, agreedFlag, 1, [Send(FetchListings(CategoryUrl(AllCategory)))])
  }

  function Next(h: Home, e: Event): Home {
    // While loading, only the loader is rendered.
    match e
    case SelectCategory(c) =>
      // The fetch effect depends on the category, so it re-runs only on a change.
      if h.loading || c !in Categories || c == h.category then h
      else h.(category := c, loading := true, pending := h.pending + 1,
              effects := h.effects + [Send(FetchListings(CategoryUrl(c)))])
    case ListingsReply(reply) =>
      if h.pending == 0 then h
      else (match reply
        case Ok(ls) => h.(listings := ls, loading := false, pending := h.pending - 1)
        case Err(_) => h.(loading := false, pending := h.pending - 1))
    case Tick(b) =>
      if h.loading || !h.showSafety then h else h.(isAgreed := b)
    case Agree =>
      if h.loading || !h.showSafety || !h.isAgreed then h
      else h.(agreedFlag := Some(AgreedValue), showSafety := false)
  }

  function Run(h: Home, es: seq<Event>): Home
    decreases |es|
  {
    if es == [] then h else Run(Next(h, es[0]), es[1..])
  }

  /** The modal is open exactly while no agreement is stored. */
  predicate SafetyConsistent(h: Home) {
    h.showSafety <==> !Truthy(h.agreedFlag)
  }

  /** Agreeing stores the flag and closes the modal only when the box is ticked; the
      modal stays in step with the stored flag from mount on. */
  lemma {:induction false} SafetyModal(flag: Option<string>, h: Home, es: seq<Event>)
    requires SafetyConsistent(h)
    ensures SafetyConsistent(Mount(flag))
    ensures SafetyConsistent(Run(h, es))
    ensures Next(h, Agree).agreedFlag != h.agreedFlag ==> h.isAgreed && Next(h, Agree).agreedFlag == Some("true")
    ensures h.showSafety && !h.loading && !h.isAgreed ==> Next(h, Agree) == h
    decreases |es|
  {
    if es != [] {
      SafetyModal(flag, Next(h, es[0]), es[1..]);
    }
  }

  /** Selecting another filter fetches exactly that category's URL; selecting the
      current one fetches nothing. */
  lemma CategoryFetch(h: Home, c: string)
    requires !h.loading && c in Categories
    ensures c != h.category ==> Next(h, SelectCategory(c)).effects == h.effects + [Send(FetchListings(CategoryUrl(c)))]
    ensures c == h.category ==> Next(h, SelectCategory(c)) == h
    ensures c == "All" ==> CategoryUrl(c) == "/api/listings"
    ensures c != "All" ==> CategoryUrl(c) == "/api/listings?category=" + c
  {
  }
}

=== FILE: number_field.dfy ===
/** The quantity box of the listing page is an `<input type="number">`. The value it
    reports is either `""` or a valid floating-point number in the sense of the HTML
    standard (section 2.3.4.3 of the HTML Living Standard): an optional `-`, digits
    with an optional `.` and fraction (at least one digit in all), and an optional
    exponent `e`/`E`, sign and digits. The page reads that text in two ways:
    `parseInt(quantity)` for the request bodies and `price * quantity` (JavaScript's
    number conversion) for the prompt and the button label.

    A value is taken apart by `Scan`, a greedy left-to-right reading whose pieces
    `Render` puts back together. */
module NumberField {
  import opened Wrappers
  import opened Text

  /** The longest prefix of `s` made of digits. */
  function LeadingDigits(s: string): (r: string)
    ensures |r| <= |s| && AllDigits(r)
    decreases |s|
  {
    if s != [] && IsDigit(s[0]) then [s[0]] + LeadingDigits(s[1..]) else []
  }

  /** It is a prefix, all digits, and the character after it is not a digit. */
  lemma {:induction false} LeadingDigitsPrefix(s: string)
    ensures var r := LeadingDigits(s);
      r == s[..|r|] && AllDigits(r) && (|r| < |s| ==> !IsDigit(s[|r|]))
    decreases |s|
  {
    if s != [] && IsDigit(s[0]) {
      LeadingDigitsPrefix(s[1..]);
      var r := LeadingDigits(s);
      assert r == [s[0]] + LeadingDigits(s[1..]);
      assert s == [s[0]] + s[1..];
    }
  }

  /** Digits followed by text that does not start with a digit: the digits are the
      longest digit prefix. */
  lemma {:induction false} LeadingDigitsOf(ds: string, t: string)
    requires AllDigits(ds)
    requires t == [] || !IsDigit(t[0])
    ensures LeadingDigits(ds + t) == ds
    decreases |ds|
  {
    if ds != [] {
      assert (ds + t)[1..] == ds[1..] + t;
      LeadingDigitsOf(ds[1..], t);
    } else {
      assert ds + t == t;
    }
  }

  datatype Exponent = Exponent(marker: char, sign: Option<char>, digits: string)

  /** The pieces of a string read as a number: sign, whole digits, point and fraction,
      exponent, and whatever is left over. */
  datatype Scanned = Scanned(
    negative: bool, whole: string, point: bool, fraction: string,
    exponent: Option<Exponent>, rest: string)

  function RenderExponent(e: Option<Exponent>): string {
    if e.None? then []
    else [e.value.marker] + (if e.value.sign.Some? then [e.value.sign.value] else []) + e.value.digits
  }

  function SignText(negative: bool): string {
    if negative then ['-'] else []
  }

  function FractionText(point: bool, fraction: string): string {
    if point then ['.'] + fraction else []
  }

  function Render(s: Scanned): string {
    SignText(s.negative) + s.whole + FractionText(s.point, s.fraction) + RenderExponent(s.exponent) + s.rest
  }

  /** An exponent at the start of `d`, if there is one with at least one digit, and
      the text after it. */
  function ScanExponent(d: string): (Option<Exponent>, string) {
    if |d| > 0 && (d[0] == 'e' || d[0] == 'E') then
      var sign := if |d| > 1 && (d[1] == '+' || d[1] == '-') then Some(d[1]) else None;
      var f := if sign.Some? then d[2..] else d[1..];
      var ds := LeadingDigits(f);
      if ds == [] then (None, d) else (Some(Exponent(d[0], sign, ds)), f[|ds|..])
    else (None, d)
  }

  /** An exponent is a marker `e` or `E`, an optional sign, and at least one digit. */
  predicate WellFormedExponent(x: Option<Exponent>) {
    x.Some? ==>
      && (x.value.marker == 'e' || x.value.marker == 'E')
      && (x.value.sign.Some? ==> x.value.sign.value == '+' || x.value.sign.value == '-')
      && x.value.digits != [] && AllDigits(x.value.digits)
  }
  lemma ScanExponentParts(d: string)
    ensures var (x, rest) := ScanExponent(d);
      RenderExponent(x) + rest == d
      && WellFormedExponent(x)
      && (x.Some? ==> rest == [] || !IsDigit(rest[0]))
      && (x.None? ==> rest == d)
  {
    if |d| > 0 && (d[0] == 'e' || d[0] == 'E') {
      var signed := |d| > 1 && (d[1] == '+' || d[1] == '-');
      var f := if signed then d[2..] else d[1..];
      var ds := LeadingDigits(f);
      if ds != [] {
        LeadingDigitsPrefix(f);
        var x := Exponent(d[0], if signed then Some(d[1]) else None, ds);
        assert ScanExponent(d) == (Some(x), f[|ds|..]);
        ExponentRendered(d, signed, f, x);
      }
    }
  }

  lemma ExponentRendered(d: string, signed: bool, f: string, x: Exponent)
    requires |d| > 0 && (signed ==> |d| > 1)
    requires f == if signed then d[2..] else d[1..]
    requires x == Exponent(d[0], if signed then Some(d[1]) else None, LeadingDigits(f))
    requires LeadingDigits(f) == f[..|x.digits|]
    ensures RenderExponent(Some(x)) + f[|x.digits|..] == d
  {
    var head := if signed then [d[0], d[1]] else [d[0]];
    assert d == head + f;
    assert RenderExponent(Some(x)) == head + x.digits;
    Rejoin3(head, x.digits, f[|x.digits|..], f, d);
  }

  lemma Rejoin3(head: string, ds: string, rest: string, f: string, d: string)
    requires |ds| <= |f| && ds == f[..|ds|] && rest == f[|ds|..] && d == head + f
    ensures (head + ds) + rest == d
  {
    assert f == ds + rest;
  }



  /** A leading minus sign. */
  function SplitSign(v: string): (r: (bool, string))
    ensures SignText(r.0) + r.1 == v
  {
    if |v| > 0 && v[0] == '-' then
      assert v == [v[0]] + v[1..];
      (true, v[1..])
    else (false, v)
  }

  /** The leading digits and the text after them. */
  function SplitDigits(a: string): (r: (string, string))
    ensures r.0 + r.1 == a && r.0 == LeadingDigits(a) && AllDigits(r.0)
  {
    var ds := LeadingDigits(a);
    LeadingDigitsPrefix(a);
    assert a == ds + a[|ds|..];
    (ds, a[|ds|..])
  }

  /** A point and the digits after it, if the text starts with a point. */
  function SplitFraction(b: string): (r: (bool, string, string))
    ensures r.0 <==> |b| > 0 && b[0] == '.'
    ensures FractionText(r.0, r.1) + r.2 == b
    ensures r.0 ==> r.1 == LeadingDigits(b[1..])
    ensures AllDigits(r.1)
    ensures !r.0 ==> r.1 == []
  {
    if |b| > 0 && b[0] == '.' then
      var p := SplitDigits(b[1..]);
      FractionRejoin(b, p.0, p.1);
      (true, p.0, p.1)
    else (false, [], b)
  }

  lemma FractionRejoin(b: string, ds: string, d: string)
    requires |b| > 0 && b[0] == '.' && ds + d == b[1..]
    ensures FractionText(true, ds) + d == b
  {
    assert b == [b[0]] + b[1..];
  }

  /** The greedy reading of `v`. */
  function Scan(v: string): Scanned {
    var (negative, a) := SplitSign(v);
    var (whole, b) := SplitDigits(a);
    var (point, fraction, d) := SplitFraction(b);
    var (exponent, rest) := ScanExponent(d);
    Scanned(negative, whole, point, fraction, exponent, rest)
  }

  lemma Rejoin(s0: string, s1: string, s2: string, s3: string, s4: string, d: string, b: string, a: string, v: string)
    requires s3 + s4 == d && s2 + d == b && s1 + b == a && s0 + a == v
    ensures s0 + s1 + s2 + s3 + s4 == v
  {
  }

  lemma Regroup(s0: string, s1: string, s2: string, s3: string, s4: string)
    requires s4 == []
    ensures s0 + s1 + s2 + s3 + s4 == s0 + s1 + (s2 + s3)
    ensures s0 + s1 + s2 + s3 + s4 == s0 + (s1 + (s2 + s3))
  {
  }

  /** Putting the pieces of the reading back together gives the text. */
  lemma ScanParts(v: string)
    ensures Render(Scan(v)) == v
    ensures AllDigits(Scan(v).whole) && AllDigits(Scan(v).fraction)
    ensures !Scan(v).point ==> Scan(v).fraction == []
  {
    var (negative, a) := SplitSign(v);
    var (whole, b) := SplitDigits(a);
    var (point, fraction, d) := SplitFraction(b);
    ScanExponentParts(d);
    var s := Scan(v);
    assert s == Scanned(negative, whole, point, fraction, ScanExponent(d).0, ScanExponent(d).1);
    Rejoin(SignText(negative), whole, FractionText(point, fraction), RenderExponent(s.exponent), s.rest, d, b, a, v);
  }

  /** A valid floating-point number: the reading uses up the whole text, has a digit
      before or after the point, and a point is followed by digits. */
  predicate ValidFloat(v: string) {
    var s := Scan(v);
    s.rest == [] && (s.whole != [] || s.fraction != []) && (s.point ==> s.fraction != [])
  }

  /** The values a number input can report. */
  predicate FieldValue(v: string) {
    v == [] || ValidFloat(v)
  }

  type FieldText = v: string | FieldValue(v) witness []

  /** Pieces that form a valid floating-point number. */
  predicate WellFormed(s: Scanned) {
    AllDigits(s.whole) && AllDigits(s.fraction)
    && (s.whole != [] || s.fraction != []) && (s.point <==> s.fraction != [])
    && s.rest == [] && WellFormedExponent(s.exponent)
  }



  lemma SplitSignOf(negative: bool, a: string)
    requires a == [] || a[0] != '-'
    ensures SplitSign(SignText(negative) + a) == (negative, a)
  {
    if negative {
      assert (['-'] + a)[1..] == a;
    } else {
      assert [] + a == a;
    }
  }

  lemma SplitDigitsOf(ds: string, t: string)
    requires AllDigits(ds) && (t == [] || !IsDigit(t[0]))
    ensures SplitDigits(ds + t) == (ds, t)
  {
    LeadingDigitsOf(ds, t);
    assert (ds + t)[|ds|..] == t;
  }

  lemma SplitFractionOf(point: bool, fraction: string, e: string)
    requires AllDigits(fraction) && (point || fraction == [])
    requires e == [] || (!IsDigit(e[0]) && e[0] != '.')
    ensures SplitFraction(FractionText(point, fraction) + e) == (point, fraction, e)
  {
    if point {
      var b := ['.'] + fraction + e;
      assert b[1..] == fraction + e;
      SplitDigitsOf(fraction, e);
    } else {
      assert [] + e == e;
    }
  }

  lemma ScanExponentOf(x: Option<Exponent>)
    requires WellFormedExponent(x)
    ensures ScanExponent(RenderExponent(x)) == (x, [])
  {
    if x.Some? {
      var d := RenderExponent(x);
      var ds := x.value.digits;
      LeadingDigitsOf(ds, []);
      assert ds + [] == ds;
      assert ds[|ds|..] == [];
      if x.value.sign.Some? {
        assert d == [x.value.marker, x.value.sign.value] + ds;
        assert d[2..] == ds;
      } else {
        assert d == [x.value.marker] + ds;
        assert d[1..] == ds;
        assert IsDigit(ds[0]);
      }
    }
  }

  /** The text after the whole digits of well-formed pieces starts with a point or
      an exponent marker, if it is not empty. */
  lemma TailStart(s: Scanned)
    requires WellFormed(s)
    ensures var e := RenderExponent(s.exponent);
      && (e == [] || e[0] == 'e' || e[0] == 'E')
      && var t := FractionText(s.point, s.fraction) + e;
      t == [] || t[0] == '.' || t[0] == 'e' || t[0] == 'E'
  {
    if s.point {
      assert (FractionText(s.point, s.fraction) + RenderExponent(s.exponent))[0] == '.';
    } else {
      assert FractionText(s.point, s.fraction) + RenderExponent(s.exponent) == RenderExponent(s.exponent);
    }
  }

  /** The text after the sign of well-formed pieces starts with a digit or a point. */
  lemma HeadStart(s: Scanned, t: string)
    requires WellFormed(s)
    requires t == FractionText(s.point, s.fraction) + RenderExponent(s.exponent)
    ensures s.whole + t != [] && (IsDigit((s.whole + t)[0]) || (s.whole + t)[0] == '.')
  {
    if s.whole != [] {
      assert (s.whole + t)[0] == s.whole[0];
    } else {
      assert s.whole + t == t && t[0] == '.';
    }
  }

  /** Reading back the text of well-formed pieces gives the pieces: every valid
      floating-point number has exactly one reading. */
  lemma ScanRender(s: Scanned)
    requires WellFormed(s)
    ensures Scan(Render(s)) == s
    ensures ValidFloat(Render(s))
  {
    var e := RenderExponent(s.exponent);
    var t := FractionText(s.point, s.fraction) + e;
    Regroup(SignText(s.negative), s.whole, FractionText(s.point, s.fraction), e, s.rest);
    TailStart(s);
    HeadStart(s, t);
    SplitSignOf(s.negative, s.whole + t);
    SplitDigitsOf(s.whole, t);
    SplitFractionOf(s.point, s.fraction, e);
    ScanExponentOf(s.exponent);
  }


  function Pow10(n: nat): (p: nat)
    ensures p >= 1
  {
    if n == 0 then 1 else 10 * Pow10(n - 1)
  }

  function Signed(negative: bool, n: nat): int {
    if negative then -(n as int) else n
  }

  /** The number well-formed pieces denote: sign × (whole.fraction) × 10^exponent. */
  function Value(s: Scanned): real
    requires AllDigits(s.whole) && AllDigits(s.fraction) && WellFormedExponent(s.exponent)
  {
    var m := DecimalValue(s.whole) as real + DecimalValue(s.fraction) as real / Pow10(|s.fraction|) as real;
    var scaled :=
      if s.exponent.None? then m
      else
        var p := Pow10(DecimalValue(s.exponent.value.digits)) as real;
        if s.exponent.value.sign == Some('-') then m / p else m * p;
    if s.negative then -scaled else scaled
  }

  /** JavaScript's number conversion of a field value: `""` is 0, and a valid
      floating-point number is the number its pieces denote. */
  function NumberOf(v: FieldText): (x: real)
    ensures v == [] ==> x == 0.0
    ensures v != [] ==> WellFormed(Scan(v)) && x == Value(Scan(v))
  {
    if v == [] then 0.0
    else
      ValidIsWellFormed(v);
      Value(Scan(v))
  }

  /** JavaScript's whitespace as `parseInt` skips it, restricted to the Basic
      Multilingual Plane characters a form field can carry. */
  predicate IsSpace(c: char) {
    c == ' ' || c == '\t' || c == '\n' || c == '\r' || c == '\U{000B}' || c == '\U{000C}'
    || c == '\U{00A0}' || c == '\U{1680}' || ('\U{2000}' <= c <= '\U{200A}') || c == '\U{2028}' || c == '\U{2029}'
    || c == '\U{202F}' || c == '\U{205F}' || c == '\U{3000}' || c == '\U{FEFF}'
  }

  function TrimStart(s: string): (r: string)
    ensures |r| <= |s| && r == s[|s| - |r|..]
    ensures r == [] || !IsSpace(r[0])
    decreases |s|
  {
    if s != [] && IsSpace(s[0]) then TrimStart(s[1..]) else s
  }

  /** `parseInt(s)` with the default radix: leading whitespace, an optional sign,
      then either `0x` or `0X` and the longest run of hexadecimal digits, or the
      longest run of decimal digits; no digits gives `NaN` (here `None`). */
  function ParseInt(s: string): Option<int> {
    var t := TrimStart(s);
    ParseBody(|t| > 0 && t[0] == '-', SignDropped(t))
  }

  /** The digits after the sign, hexadecimal after a `0x` prefix and decimal otherwise. */
  function ParseBody(negative: bool, body: string): Option<int> {
    if HexPrefixed(body) then
      var hs := LeadingHexDigits(body[2..]);
      if hs == [] then None else Some(Signed(negative, HexValue(hs)))
    else
      var ds := LeadingDigits(body);
      if ds == [] then None else Some(Signed(negative, DecimalValue(ds)))
  }

  /** The text starts with `0x` or `0X`, which switches `parseInt` to base 16. */
  predicate HexPrefixed(body: string) {
    |body| >= 2 && body[0] == '0' && (body[1] == 'x' || body[1] == 'X')
  }

  predicate IsHexDigit(c: char) {
    IsDigit(c) || 'a' <= c <= 'f' || 'A' <= c <= 'F'
  }

  predicate AllHexDigits(s: string) {
    forall i :: 0 <= i < |s| ==> IsHexDigit(s[i])
  }

  function HexDigitValue(c: char): (v: nat)
    requires IsHexDigit(c)
    ensures v < 16
  {
    if IsDigit(c) then c as int - '0' as int
    else if 'a' <= c <= 'f' then c as int - 'a' as int + 10
    else c as int - 'A' as int + 10
  }

  /** The longest prefix of `s` made of hexadecimal digits. */
  function LeadingHexDigits(s: string): (r: string)
    ensures |r| <= |s| && AllHexDigits(r)
    decreases |s|
  {
    if s != [] && IsHexDigit(s[0]) then [s[0]] + LeadingHexDigits(s[1..]) else []
  }

  function HexValue(s: string): nat
    requires AllHexDigits(s)
  {
    if s == [] then 0 else HexValue(s[..|s| - 1]) * 16 + HexDigitValue(s[|s| - 1])
  }

  /** Digits followed by text that does not go on with a digit start with `0x` only
      when the digits are a single `0` and the text starts with `x` or `X`. */
  lemma NotHexPrefixed(ds: string, t: string)
    requires AllDigits(ds) && (t == [] || !IsDigit(t[0]))
    requires !(|ds| == 1 && ds[0] == '0' && t != [] && (t[0] == 'x' || t[0] == 'X'))
    ensures !HexPrefixed(ds + t)
  {
    if |ds| >= 2 {
      assert (ds + t)[1] == ds[1];
    } else if |ds| == 1 {
      assert (ds + t)[0] == ds[0];
      if t != [] {
        assert (ds + t)[1] == t[0];
      }
    } else {
      assert ds + t == t;
    }
  }

  /** Hexadecimal digits followed by text that does not go on with one: the digits
      are the longest hexadecimal prefix. */
  lemma {:induction false} LeadingHexDigitsOf(hs: string, t: string)
    requires AllHexDigits(hs)
    requires t == [] || !IsHexDigit(t[0])
    ensures LeadingHexDigits(hs + t) == hs
    decreases |hs|
  {
    if hs != [] {
      assert (hs + t)[1..] == hs[1..] + t;
      LeadingHexDigitsOf(hs[1..], t);
    } else {
      assert hs + t == t;
    }
  }

  /** With a prefix `0x` (or `0X`) after the sign, `parseInt` reads the hexadecimal
      digits that follow, and gives `NaN` when there are none, where a decimal reading
      would have stopped at the `0`. */
  lemma ParseIntHex(negative: bool, x: char, hs: string, t: string)
    requires x == 'x' || x == 'X'
    requires AllHexDigits(hs) && (t == [] || !IsHexDigit(t[0]))
    ensures ParseInt(SignText(negative) + ['0', x] + hs + t)
      == if hs == [] then None else Some(Signed(negative, HexValue(hs)))
  {
    var body := ['0', x] + hs + t;
    assert SignText(negative) + ['0', x] + hs + t == SignText(negative) + body;
    HexBody(negative, x, hs, t);
    SignDroppedOf(negative, body);
    TrimStartNoop(SignText(negative) + body);
  }

  lemma HexBody(negative: bool, x: char, hs: string, t: string)
    requires x == 'x' || x == 'X'
    requires AllHexDigits(hs) && (t == [] || !IsHexDigit(t[0]))
    ensures ParseBody(negative, ['0', x] + hs + t) == if hs == [] then None else Some(Signed(negative, HexValue(hs)))
  {
    var body := ['0', x] + hs + t;
    assert body[0] == '0' && body[1] == x && body[2..] == hs + t;
    LeadingHexDigitsOf(hs, t);
  }

  function SignDropped(t: string): string {
    if |t| > 0 && (t[0] == '-' || t[0] == '+') then t[1..] else t
  }

  /** A sign, digits, and text that does not go on with a digit: `parseInt` gives the
      signed value of the digits, and `NaN` when there are none. */
  lemma {:induction false} ParseIntOf(negative: bool, ds: string, t: string)
    requires AllDigits(ds) && (t == [] || !IsDigit(t[0]))
    requires ds == [] ==> t == [] || (!IsSpace(t[0]) && t[0] != '-' && t[0] != '+')
    requires !(|ds| == 1 && ds[0] == '0' && t != [] && (t[0] == 'x' || t[0] == 'X'))
    ensures ParseInt(SignText(negative) + ds + t)
      == if ds == [] then None else Some(Signed(negative, DecimalValue(ds)))
  {
    var S := SignText(negative);
    var body := ds + t;
    assert S + ds + t == S + body;
    assert body == [] || (body[0] != '-' && body[0] != '+' && !IsSpace(body[0])) by {
      if ds != [] {
        assert body[0] == ds[0] && IsDigit(ds[0]);
      } else {
        assert body == t;
      }
    }
    DecimalBody(negative, ds, t);
    SignDroppedOf(negative, body);
    SignedStart(negative, body);
  }

  /** Text that does not start with a space still does not after a sign. */
  lemma SignedStart(negative: bool, body: string)
    requires body == [] || !IsSpace(body[0])
    ensures TrimStart(SignText(negative) + body) == SignText(negative) + body
  {
    if negative {
      assert (SignText(negative) + body)[0] == '-';
    } else {
      assert SignText(negative) + body == body;
    }
    TrimStartNoop(SignText(negative) + body);
  }

  lemma DecimalBody(negative: bool, ds: string, t: string)
    requires AllDigits(ds) && (t == [] || !IsDigit(t[0]))
    requires !(|ds| == 1 && ds[0] == '0' && t != [] && (t[0] == 'x' || t[0] == 'X'))
    ensures ParseBody(negative, ds + t) == if ds == [] then None else Some(Signed(negative, DecimalValue(ds)))
  {
    LeadingDigitsOf(ds, t);
    NotHexPrefixed(ds, t);
  }

  lemma SignDroppedOf(negative: bool, body: string)
    requires body == [] || (body[0] != '-' && body[0] != '+')
    ensures SignDropped(SignText(negative) + body) == body
  {
    if negative {
      assert (['-'] + body)[1..] == body;
    } else {
      assert [] + body == body;
    }
  }

  lemma TrimStartNoop(v: string)
    requires v == [] || !IsSpace(v[0])
    ensures TrimStart(v) == v
  {
  }


  /** The decimal text of an integer, as a number field shows it. */
  function IntText(n: int): string {
    SignText(n < 0) + Decimal(if n < 0 then -n else n)
  }

  /** `parseInt` reads back the text of any integer, and stops at whatever follows it
      that is not a digit, except an `x` or `X` after the text "0", which makes a hex
      prefix (see `ParseIntHex`). */
  lemma {:induction false} ParseIntText(n: int, t: string)
    requires t == [] || !IsDigit(t[0])
    requires !(n == 0 && t != [] && (t[0] == 'x' || t[0] == 'X'))
    ensures ParseInt(IntText(n) + t) == Some(n)
  {
    var m := if n < 0 then -n else n;
    var ds := Decimal(m);
    DecimalRoundTrip(m);
    if |ds| == 1 && ds[0] == '0' {
      assert ds == ['0'] && DecimalValue(ds) == 0;
    }
    ParseIntOf(n < 0, ds, t);
  }

  /** `parseInt` of well-formed pieces: the signed whole digits, or `NaN` when there
      are none. */
  lemma ParseIntOfRender(s: Scanned)
    requires WellFormed(s)
    ensures ParseInt(Render(s)) == if s.whole == [] then None else Some(Signed(s.negative, DecimalValue(s.whole)))
  {
    var e := RenderExponent(s.exponent);
    Regroup(SignText(s.negative), s.whole, FractionText(s.point, s.fraction), e, s.rest);
    TailStart(s);
    ParseIntOf(s.negative, s.whole, FractionText(s.point, s.fraction) + e);
  }

  /** A valid floating-point number is the text of its well-formed reading. */
  lemma ValidIsWellFormed(v: string)
    requires ValidFloat(v)
    ensures WellFormed(Scan(v)) && Render(Scan(v)) == v
  {
    ScanParts(v);
    ScanExponentParts(SplitFraction(SplitDigits(SplitSign(v).1).1).2);
  }

  /** On a field value, `parseInt` gives the signed digits before any point or
      exponent, and `NaN` when there are none (the cleared field, or `.5`). */
  lemma {:induction false} ParseIntOfField(v: FieldText)
    ensures ParseInt(v) == (if v == [] || Scan(v).whole == [] then None
                            else Some(Signed(Scan(v).negative, DecimalValue(Scan(v).whole))))
  {
    if v != [] {
      ValidIsWellFormed(v);
      ParseIntOfRender(Scan(v));
    } else {
      assert TrimStart(v) == [];
    }
  }


  /** On the text of an integer the two readings agree: the number the prompt
      multiplies by is the count the order carries. */
  lemma {:induction false} IntTextReadings(n: int)
    ensures FieldValue(IntText(n))
    ensures NumberOf(IntText(n)) == n as real
    ensures ParseInt(IntText(n)) == Some(n)
  {
    var s := IntPieces(n);
    Readings(s);
  }

  /** The pieces of the text of an integer. */
  lemma IntPieces(n: int) returns (s: Scanned)
    ensures WellFormed(s) && Render(s) == IntText(n)
    ensures Value(s) == n as real && Signed(s.negative, DecimalValue(s.whole)) == n && s.whole != []
  {
    var m := if n < 0 then -n else n;
    s := Scanned(n < 0, Decimal(m), false, [], None, []);
    DecimalRoundTrip(m);
    assert Render(s) == SignText(n < 0) + Decimal(m) + [] + [] + [];
  }

  /** Both readings of the text of well-formed pieces. */
  lemma Readings(s: Scanned)
    requires WellFormed(s)
    ensures FieldValue(Render(s))
    ensures ParseInt(Render(s)) == if s.whole == [] then None else Some(Signed(s.negative, DecimalValue(s.whole)))
    ensures NumberOf(Render(s)) == Value(s)
  {
    ScanRender(s);
    ParseIntOfRender(s);
  }

  /** The readings part ways on other values the field can hold. A fraction is cut off
      by `parseInt` and kept by the conversion. */
  lemma FractionCutOff(v: string)
    requires v == "1.5"
    ensures FieldValue(v) && ParseInt(v) == Some(1) && NumberOf(v) == 1.5
  {
    var a := Scanned(false, "1", true, "5", None, []);
    Readings(a);
    FractionPieces(a);
  }

  lemma FractionPieces(a: Scanned)
    requires a == Scanned(false, "1", true, "5", None, [])
    ensures WellFormed(a) && Render(a) == "1.5" && Value(a) == 1.5 && DecimalValue(a.whole) == 1
  {
    SingleDigit('1');
    SingleDigit('5');
    assert Render(a) == [] + "1" + ['.'] + "5";
  }

  /** An exponent is cut off by `parseInt` and applied by the conversion. */
  lemma ExponentCutOff(v: string)
    requires v == "1e2"
    ensures FieldValue(v) && ParseInt(v) == Some(1) && NumberOf(v) == 100.0
  {
    var b := Scanned(false, "1", false, [], Some(Exponent('e', None, "2")), []);
    Readings(b);
    ExponentPieces(b);
  }

  lemma ExponentPieces(b: Scanned)
    requires b == Scanned(false, "1", false, [], Some(Exponent('e', None, "2")), [])
    ensures WellFormed(b) && Render(b) == "1e2" && Value(b) == 100.0 && DecimalValue(b.whole) == 1
  {
    SingleDigit('1');
    SingleDigit('2');
    assert DecimalValue([]) == 0;
    assert Pow10(2) == 100;
    assert RenderExponent(b.exponent) == ['e'] + "2";
    assert Render(b) == [] + "1" + [] + (['e'] + "2") + [];
  }

  /** A value with no digit before the point is `NaN` for `parseInt` and a number for
      the conversion, and so is the cleared field. */
  lemma NoWholeDigits(v: string)
    requires v == ".5"
    ensures FieldValue(v) && ParseInt(v) == None && NumberOf(v) == 0.5
  {
    var c := Scanned(false, [], true, "5", None, []);
    Readings(c);
    NoWholePieces(c);
  }

  /** The cleared field is `NaN` for `parseInt` and 0 for the conversion. */
  lemma ClearedField(v: string)
    requires v == []
    ensures FieldValue(v) && ParseInt(v) == None && NumberOf(v) == 0.0
  {
    ParseIntOfField(v);
  }

  lemma NoWholePieces(c: Scanned)
    requires c == Scanned(false, [], true, "5", None, [])
    ensures WellFormed(c) && Render(c) == ".5" && Value(c) == 0.5
  {
    SingleDigit('5');
    assert DecimalValue([]) == 0;
    assert Render(c) == [] + [] + (['.'] + "5") + [] + [];
  }

  lemma SingleDigit(c: char)
    requires IsDigit(c)
    ensures DecimalValue([c]) == (c as int - '0' as int)
  {
  }

  /** The two readings the listing page makes of the field: the count for the
      request bodies and the number for the price product. */
  datatype Reading = Reading(count: Option<int>, number: real)

  function Read(v: FieldText): (r: Reading)
    ensures v == [] ==> r == Reading(None, 0.0)
    ensures r.count.Some? ==> v != [] && Scan(v).whole != []
  {
    ParseIntOfField(v);
    Reading(ParseInt(v), NumberOf(v))
  }

  /** On the text of an integer both readings give that integer. */
  lemma ReadInt(n: int)
    ensures FieldValue(IntText(n)) && Read(IntText(n)) == Reading(Some(n), n as real)
  {
    IntTextReadings(n);
  }

  /** The readings of the other values the examples above take apart. */
  lemma ReadOthers(half: string, hundred: string, point: string)
    requires half == "1.5" && hundred == "1e2" && point == ".5"
    ensures FieldValue(half) && Read(half) == Reading(Some(1), 1.5)
    ensures FieldValue(hundred) && Read(hundred) == Reading(Some(1), 100.0)
    ensures FieldValue(point) && Read(point) == Reading(None, 0.5)
  {
    FractionCutOff(half);
    ExponentCutOff(hundred);
    NoWholeDigits(point);
  }
}

=== FILE: order_display.dfy ===
/** How orders are shown to the customer (src/pages/user/Dashboard.jsx and
    src/pages/user/Profile.jsx) and to the restaurant (src/pages/vendor/Orders.jsx):
    the status badges, which orders offer pickup information, what the pickup modal
    shows, and the short order label. */
module OrderDisplay {
  import opened Wrappers
  import opened Text
  import opened Domain

  datatype Badge = SuccessBadge | WarningBadge | DangerBadge

  /** The customer's badge: placed, collected, anything else. */
  function CustomerBadge(s: OrderStatus): Badge {
    if s == Placed then SuccessBadge else if s == Collected then WarningBadge else DangerBadge
  }

  /** The restaurant's badge: placed, anything else. */
  function VendorBadge(s: OrderStatus): Badge {
    if s == Placed then SuccessBadge else WarningBadge
  }

  /** "Show Pickup QR", "Pickup Info" and "Manual Collect" are rendered only for placed orders. */
  predicate OffersPickup(o: Order) {
    o.status == Placed
  }

  /** Every page agrees: the success badge, on either side, marks exactly the orders
      that offer pickup; the customer sees the warning badge exactly for collected
      orders and the danger badge for reserved and cancelled ones. */
  lemma BadgesMatchPickup(o: Order)
    ensures CustomerBadge(o.status) == SuccessBadge <==> OffersPickup(o)
    ensures VendorBadge(o.status) == SuccessBadge <==> OffersPickup(o)
    ensures CustomerBadge(o.status) == WarningBadge <==> o.status == Collected
    ensures CustomerBadge(o.status) == DangerBadge <==> o.status in {Reserved, Cancelled}
    ensures VendorBadge(o.status) == WarningBadge <==> !OffersPickup(o)
  {
  }

  /** `'#' + _id.slice(-6)`. */
  function OrderLabel(id: string): (r: string)
    ensures |r| == 1 + (if |id| < 6 then |id| else 6)
    ensures r[0] == '#'
    ensures id == id[..|id| - (|r| - 1)] + r[1..]
  {
    "#" + LastN(id, 6)
  }

  /** The label keeps what distinguishes two ids in their last six characters. */
  lemma OrderLabelInjectiveOnSuffix(a: string, b: string)
    requires |a| >= 6 && |b| >= 6
    ensures OrderLabel(a) == OrderLabel(b) <==> a[|a| - 6..] == b[|b| - 6..]
  {
    var la, lb := OrderLabel(a), OrderLabel(b);
    assert la[1..] == a[|a| - 6..];
    assert lb[1..] == b[|b| - 6..];
  }

  /** The contents of a pickup modal: the QR value and the manual code. */
  datatype PickupView = PickupView(qrValue: string, code: string)

  /** The dashboard modal: QR of `_id`, and `pickupCode || '----'`. */
  function DashboardPickup(o: Order): PickupView {
    PickupView(o.id, OrElse(o.pickupCode, "----"))
  }

  /** The profile modal: QR of `_id`, and `pickupCode` as it is (nothing when absent). */
  function ProfilePickup(o: Order): PickupView {
    PickupView(o.id, if o.pickupCode.Some? then o.pickupCode.value else "")
  }

  /** The QR code carries the order id and nothing of the pickup code, on both pages;
      the typed code is the pickup code, with the dashboard's placeholder when it is
      falsy. */
  lemma PickupViewsShowIdAndCode(o: Order, otherCode: Option<string>)
    ensures DashboardPickup(o).qrValue == o.id && ProfilePickup(o).qrValue == o.id
    ensures DashboardPickup(o.(pickupCode := otherCode)).qrValue == DashboardPickup(o).qrValue
    ensures Truthy(o.pickupCode) ==> DashboardPickup(o).code == o.pickupCode.value == ProfilePickup(o).code
    ensures !Truthy(o.pickupCode) ==> DashboardPickup(o).code == "----" && ProfilePickup(o).code == ""
  {
  }

  /** The order whose pickup modal a click opens: only a placed order has the button. */
  function SelectForPickup(o: Order): (r: Option<Order>)
    ensures r.Some? <==> OffersPickup(o)
    ensures r.Some? ==> r.value == o
  {
    if o.status == Placed then Some(o) else None
  }
}

=== FILE: payment.dfy ===
/** The simulated payment modal (src/components/FakeRazorpay.jsx) as a step machine.

    The component keeps `step`, the three card fields and the two `setTimeout`
    callbacks it schedules; its only outputs are calls into the parent's
    `onPaymentSuccess` and `onClose` props. `onPaymentFailure` is accepted but has no
    caller, so it appears here only as a callback kind that no transition produces.
    Each timer firing is an explicit event carrying the value `Date.now()` would
    return at that moment. */
module Payment {
  import opened Text
  import CardFormat

  datatype Step = Methods | Card | Processing | Success

  /** The two scheduled callbacks: the 3000 ms "bank confirmation" and the 1500 ms redirect. */
  datatype Timer = BankConfirmation | Redirect

  /** Calls the component makes into its parent. */
  datatype Callback = PaymentSucceeded(paymentId: string) | PaymentFailed | CloseRequested

  datatype Modal = Modal(
    isOpen: bool,
    step: Step,
    cardNumber: string,
    expiry: string,
    cvv: string,
    timers: seq<Timer>,   // scheduled and not yet fired, earliest first
    calls: seq<Callback>)

  datatype Event =
    | SetOpen(open: bool)            // the parent changes the `isOpen` prop
    | ChooseCard
    | ChooseNetbanking               // rendered disabled, no handler
    | ChooseUpi                      // rendered disabled, no handler
    | Back
    | EditCardNumber(raw: string)
    | EditExpiry(raw: string)
    | EditCvv(raw: string)
    | SubmitCard
    | Close
    | TimerFires(now: nat)           // the earliest pending timer runs; `now` is `Date.now()`

  const PaymentIdPrefix := "fake_payment_id_"
  const ExpiryMaxLength := 5
  const CvvMaxLength := 3

  /** A freshly mounted modal: `useState('methods')` and empty fields. */
  function Mount(isOpen: bool): Modal {
    Modal(isOpen, Methods, "", "", "", [], [])
  }

  /** The token handed to `onPaymentSuccess`: `'fake_payment_id_' + Date.now()`. */
  function PaymentId(now: nat): (id: string)
    ensures StartsWith(id, PaymentIdPrefix)
    ensures AllDigits(id[|PaymentIdPrefix|..]) && |id| > |PaymentIdPrefix|
    ensures DecimalValue(id[|PaymentIdPrefix|..]) == now
  {
    DecimalRoundTrip(now);
    var id := PaymentIdPrefix + Decimal(now);
    assert id[|PaymentIdPrefix|..] == Decimal(now);
    id
  }

  /** The three `required` inputs are filled, so the browser lets the form submit. */
  predicate RequiredFilled(m: Modal) {
    m.cardNumber != "" && m.expiry != "" && m.cvv != ""
  }

  /** One event. Clicks and typing need the modal rendered (`if (!isOpen) return null`)
      and the step that renders the control; timers fire regardless. */
  function Next(m: Modal, e: Event): Modal {
    match e
    case SetOpen(open) => m.(isOpen := open)
    case ChooseCard =>
      if m.isOpen && m.step == Methods then m.(step := Card) else m
    case ChooseNetbanking => m
    case ChooseUpi => m
    case Back =>
      if m.isOpen && m.step == Card then m.(step := Methods) else m
    case EditCardNumber(raw) =>
      if m.isOpen && m.step == Card then m.(cardNumber := CardFormat.Format(Capped(raw, CardFormat.CardNumberMaxLength))) else m
    case EditExpiry(raw) =>
      if m.isOpen && m.step == Card then m.(expiry := Capped(raw, ExpiryMaxLength)) else m
    case EditCvv(raw) =>
      if m.isOpen && m.step == Card then m.(cvv := Capped(raw, CvvMaxLength)) else m
    case SubmitCard =>
      if m.isOpen && m.step == Card && RequiredFilled(m)
      then m.(step := Processing, timers := m.timers + [BankConfirmation])
      else m
    case Close =>
      if m.isOpen then m.(calls := m.calls + [CloseRequested]) else m
    case TimerFires(now) =>
      if m.timers == [] then m
      else match m.timers[0]
        case BankConfirmation => m.(step := Success, timers := m.timers[1..] + [Redirect])
        case Redirect => m.(timers := m.timers[1..], calls := m.calls + [PaymentSucceeded(PaymentId(now))])
  }

  function Run(m: Modal, es: seq<Event>): Modal
    decreases |es|
  {
    if es == [] then m else Run(Next(m, es[0]), es[1..])
  }

  /** The moves the step can make: Card item, Back, submit and the first timer. */
  predicate StepMove(from: Step, to: Step) {
    from == to
    || (from == Methods && to == Card)
    || (from == Card && to == Methods)
    || (from == Card && to == Processing)
    || (from == Processing && to == Success)
  }

  function SuccessCount(calls: seq<Callback>): nat
    decreases |calls|
  {
    if calls == [] then 0
    else (if calls[|calls| - 1].PaymentSucceeded? then 1 else 0) + SuccessCount(calls[..|calls| - 1])
  }

  /** How the step, the pending timers and the success calls go together: one
      submission schedules one chain of two timers, which ends in one success call. */
  predicate Consistent(m: Modal) {
    && (forall i :: 0 <= i < |m.calls| ==> !m.calls[i].PaymentFailed?)
    && match m.step
       case Methods => m.timers == [] && SuccessCount(m.calls) == 0
       case Card => m.timers == [] && SuccessCount(m.calls) == 0
       case Processing => m.timers == [BankConfirmation] && SuccessCount(m.calls) == 0
       case Success =>
         (m.timers == [Redirect] && SuccessCount(m.calls) == 0)
         || (m.timers == [] && SuccessCount(m.calls) == 1)
  }

  lemma MountConsistent(isOpen: bool)
    ensures Mount(isOpen).step == Methods
    ensures Consistent(Mount(isOpen))
  {
  }

  lemma SuccessCountAppend(calls: seq<Callback>, c: Callback)
    ensures SuccessCount(calls + [c]) == SuccessCount(calls) + (if c.PaymentSucceeded? then 1 else 0)
  {
    assert (calls + [c])[..|calls|] == calls;
  }

  /** Every event keeps the bookkeeping consistent and moves the step only along the
      allowed transitions. */
  lemma NextConsistent(m: Modal, e: Event)
    requires Consistent(m)
    ensures Consistent(Next(m, e))
    ensures StepMove(m.step, Next(m, e).step)
  {
    var r := Next(m, e);
    match e
    case Close =>
      if m.isOpen { SuccessCountAppend(m.calls, CloseRequested); }
    case TimerFires(now) =>
      if m.timers != [] && m.timers[0] == Redirect {
        SuccessCountAppend(m.calls, PaymentSucceeded(PaymentId(now)));
      }
    case _ =>
  }

  lemma {:induction false} RunConsistent(m: Modal, es: seq<Event>)
    requires Consistent(m)
    ensures Consistent(Run(m, es))
    ensures m.step == Success ==> Run(m, es).step == Success
    decreases |es|
  {
    if es != [] {
      NextConsistent(m, es[0]);
      RunConsistent(Next(m, es[0]), es[1..]);
    }
  }

  /** Over any sequence of events from mounting, `onPaymentSuccess` is called at most
      once and `onPaymentFailure` never. */
  lemma AtMostOneSuccess(isOpen: bool, es: seq<Event>)
    ensures SuccessCount(Run(Mount(isOpen), es).calls) <= 1
    ensures forall i :: 0 <= i < |Run(Mount(isOpen), es).calls| ==> !Run(Mount(isOpen), es).calls[i].PaymentFailed?
  {
    RunConsistent(Mount(isOpen), es);
  }

  /** A submission on a filled card form leads, after the two timers, to exactly one
      success call carrying the prefix and the second timer's timestamp. */
  lemma SubmitThenTimers(m: Modal, t1: nat, t2: nat)
    requires Consistent(m) && m.isOpen && m.step == Card && RequiredFilled(m)
    ensures Next(m, SubmitCard).step == Processing
    ensures Run(m, [SubmitCard, TimerFires(t1)]).step == Success
    ensures Run(m, [SubmitCard, TimerFires(t1), TimerFires(t2)]).calls == m.calls + [PaymentSucceeded(PaymentIdPrefix + Decimal(t2))]
    ensures Run(m, [SubmitCard, TimerFires(t1), TimerFires(t2)]).timers == []
  {
    var s1 := Next(m, SubmitCard);
    var s2 := Next(s1, TimerFires(t1));
    assert Run(m, [SubmitCard, TimerFires(t1)]) == Run(s1, [TimerFires(t1)]);
    assert Run(s1, [TimerFires(t1)]) == Run(s2, []);
    assert Run(m, [SubmitCard, TimerFires(t1), TimerFires(t2)]) == Run(s1, [TimerFires(t1), TimerFires(t2)]);
    assert Run(s1, [TimerFires(t1), TimerFires(t2)]) == Run(s2, [TimerFires(t2)]);
    assert s2.timers == [Redirect];
    assert Run(s2, [TimerFires(t2)]) == Run(Next(s2, TimerFires(t2)), []);
  }

  /** Closing, or the parent hiding the modal, changes neither the step nor the pending
      timers: a payment in progress still completes. */
  lemma CloseKeepsProgress(m: Modal, open: bool)
    ensures Next(m, Close).step == m.step && Next(m, Close).timers == m.timers
    ensures Next(m, SetOpen(open)).step == m.step && Next(m, SetOpen(open)).timers == m.timers
    ensures m.isOpen ==> Next(m, Close).calls == m.calls + [CloseRequested]
  {
  }

  /** While the modal is not rendered, no click or keystroke has any effect. */
  lemma HiddenIgnoresInput(m: Modal, e: Event)
    requires !m.isOpen && !e.SetOpen? && !e.TimerFires?
    ensures Next(m, e) == m
  {
  }

  /** The disabled Netbanking and UPI items do nothing in any state. */
  lemma DisabledMethodsInert(m: Modal)
    ensures Next(m, ChooseNetbanking) == m && Next(m, ChooseUpi) == m
  {
  }
}

=== FILE: pickup_terminal.dfy ===
/** The restaurant's pickup-verification page (src/pages/vendor/Orders.jsx).

    Manual channel: a digit-only field of at most four characters, a length-4 gate in
    front of the verify request, and the success/failure banner. Scan channel: a
    toggle that starts and stops the camera scanner, and a decode callback that stops
    the scanner before handing the text on. The page hands decoded text (and the
    "Manual Collect" order id) to `handleScan`, which it never defines; the model
    records that hand-off and goes no further. */
module PickupTerminal {
  import opened Wrappers
  import opened Text
  import opened Domain
  import OrderDisplay

  const CodeLength := 4
  const InvalidCodeText := "Please enter a valid 4-digit code"
  const VerificationFailedText := "Verification Failed"

  datatype ScanResult = ScanResult(success: bool, message: string)

  datatype Terminal = Terminal(
    orders: seq<Order>,
    scanResult: Option<ScanResult>,
    scanning: bool,
    manualCode: string,
    verifying: nat,     // verify requests sent and not yet answered
    fetching: nat,      // order-list requests sent and not yet answered
    effects: seq<Effect>)

  datatype Event =
    | TypeCode(raw: string)
    | ClickVerify
    | VerifyReply(verified: Reply<string>)      // the `message` of a successful verification
    | OrdersReply(fetched: Reply<seq<Order>>)
    | ToggleScanner
    | Decode(text: string)                     // the scanner's success callback
    | CollectClick(index: nat)                 // "Manual Collect" on the card at `index`

  /** The page as mounted: no orders yet, one order fetch in flight. */
  function Mount(): (t: Terminal)
    ensures CodeSanitized(t)
  {
    Terminal([], None, false, "", 0, 1, [Send(FetchVendorOrders)])
  }

  /** What the manual-code field can hold. */
  predicate CodeSanitized(t: Terminal) {
    AllDigits(t.manualCode) && |t.manualCode| <= CodeLength
  }

  /** The field's `onChange`: `maxLength` 4, then `replace(/\D/g, '')`. */
  function SanitizeCode(raw: string): (r: string)
    ensures AllDigits(r) && |r| <= CodeLength
    ensures |raw| <= CodeLength ==> r == Digits(raw)
  {
    Digits(Capped(raw, CodeLength))
  }

  function Next(t: Terminal, e: Event): Terminal {
    match e
    case TypeCode(raw) => t.(manualCode := SanitizeCode(raw))
    case ClickVerify =>
      if |t.manualCode| != CodeLength then t.(effects := t.effects + [Alert(InvalidCodeText)])
      else t.(verifying := t.verifying + 1, effects := t.effects + [Send(VerifyCode(t.manualCode))])
    case VerifyReply(reply) =>
      if t.verifying == 0 then t
      else (match reply
        case Ok(message) =>
          t.(verifying := t.verifying - 1, scanResult := Some(ScanResult(true, message)), manualCode := "",
             fetching := t.fetching + 1, effects := t.effects + [Send(FetchVendorOrders)])
        case Err(m) =>
          t.(verifying := t.verifying - 1, scanResult := Some(ScanResult(false, ErrorText(m, VerificationFailedText)))))
    case OrdersReply(reply) =>
      if t.fetching == 0 then t
      else (match reply
        case Ok(os) => t.(fetching := t.fetching - 1, orders := os)
        case Err(_) => t.(fetching := t.fetching - 1))
    case ToggleScanner => t.(scanning := !t.scanning, scanResult := None)
    case Decode(text) =>
      // `scanner.clear()` and `setScanning(false)` run before the text is handed on;
      // a scanner exists exactly while `scanning` is true.
      if t.scanning then t.(scanning := false, effects := t.effects + [HandleScan(text)]) else t
    case CollectClick(i) =>
      if i < |t.orders| && OrderDisplay.OffersPickup(t.orders[i])
      then t.(effects := t.effects + [HandleScan(t.orders[i].id)])
      else t
  }

  function Run(t: Terminal, es: seq<Event>): Terminal
    decreases |es|
  {
    if es == [] then t else Run(Next(t, es[0]), es[1..])
  }

  /** The field holds only digits and at most four of them, whatever is typed. */
  lemma {:induction false} RunKeepsCodeSanitized(t: Terminal, es: seq<Event>)
    requires CodeSanitized(t)
    ensures CodeSanitized(Run(t, es))
    decreases |es|
  {
    if es != [] {
      RunKeepsCodeSanitized(Next(t, es[0]), es[1..]);
    }
  }

  /** The verify button sends `{pickupCode: manualCode}` exactly when the code has four
      characters, and otherwise only alerts. */
  lemma VerifyGate(t: Terminal)
    ensures |t.manualCode| == CodeLength ==> Next(t, ClickVerify).effects == t.effects + [Send(VerifyCode(t.manualCode))]
    ensures |t.manualCode| != CodeLength ==> Next(t, ClickVerify).effects == t.effects + [Alert(InvalidCodeText)]
    ensures |t.manualCode| != CodeLength ==> Next(t, ClickVerify).verifying == t.verifying
  {
  }

  /** A successful verification shows the server's message as a success, clears the
      field and refetches the orders. */
  lemma VerifySucceeded(t: Terminal, message: string)
    requires t.verifying > 0
    ensures Next(t, VerifyReply(Ok(message))).scanResult == Some(ScanResult(true, message))
    ensures Next(t, VerifyReply(Ok(message))).manualCode == ""
    ensures Next(t, VerifyReply(Ok(message))).effects == t.effects + [Send(FetchVendorOrders)]
  {
  }

  /** A failed verification shows the server's message (or "Verification Failed"),
      keeps the typed code and does not refetch. */
  lemma VerifyFailed(t: Terminal, message: Option<string>)
    requires t.verifying > 0
    ensures Next(t, VerifyReply(Err(message))).scanResult == Some(ScanResult(false, ErrorText(message, VerificationFailedText)))
    ensures Next(t, VerifyReply(Err(message))).manualCode == t.manualCode
    ensures Next(t, VerifyReply(Err(message))).effects == t.effects
    ensures Next(t, VerifyReply(Err(message))).orders == t.orders
  {
  }

  /** The toggle flips `scanning` and clears the banner. */
  lemma ToggleFlips(t: Terminal)
    ensures Next(t, ToggleScanner).scanning == !t.scanning
    ensures Next(t, ToggleScanner).scanResult == None
    ensures Next(t, ToggleScanner).effects == t.effects
  {
  }

  function HandOffs(effects: seq<Effect>): nat
    decreases |effects|
  {
    if effects == [] then 0
    else (if effects[|effects| - 1].HandleScan? then 1 else 0) + HandOffs(effects[..|effects| - 1])
  }

  lemma HandOffsAppend(effects: seq<Effect>, e: Effect)
    ensures HandOffs(effects + [e]) == HandOffs(effects) + (if e.HandleScan? then 1 else 0)
  {
    assert (effects + [e])[..|effects|] == effects;
  }

  /** A stretch of events in which the operator neither toggles the scanner nor
      presses a "Manual Collect" button. */
  predicate NoScanControls(es: seq<Event>) {
    forall i :: 0 <= i < |es| ==> !es[i].ToggleScanner? && !es[i].CollectClick?
  }

  /** One scan session hands on at most one decoded text: after the first decode the
      scanner is gone until the toggle starts a new one. */
  lemma {:induction false} OneDecodePerSession(t: Terminal, es: seq<Event>)
    requires NoScanControls(es)
    ensures HandOffs(Run(t, es).effects) <= HandOffs(t.effects) + (if t.scanning then 1 else 0)
    ensures !t.scanning ==> !Run(t, es).scanning
    decreases |es|
  {
    if es != [] {
      var t1 := Next(t, es[0]);
      match es[0] {
        case Decode(text) =>
          if t.scanning { HandOffsAppend(t.effects, HandleScan(text)); }
        case ClickVerify =>
          if |t.manualCode| != CodeLength {
            HandOffsAppend(t.effects, Alert(InvalidCodeText));
          } else {
            HandOffsAppend(t.effects, Send(VerifyCode(t.manualCode)));
          }
        case VerifyReply(reply) =>
          if t.verifying > 0 && reply.Ok? { HandOffsAppend(t.effects, Send(FetchVendorOrders)); }
        case _ =>
      }
      assert NoScanControls(es[1..]);
      OneDecodePerSession(t1, es[1..]);
    }
  }

  /** "Manual Collect" exists only on placed orders, the ones with the success badge. */
  lemma CollectOnlyPlaced(t: Terminal, i: nat)
    ensures Next(t, CollectClick(i)) != t ==>
      i < |t.orders| && t.orders[i].status == Placed
      && OrderDisplay.VendorBadge(t.orders[i].status) == OrderDisplay.SuccessBadge
      && Next(t, CollectClick(i)).effects == t.effects + [HandleScan(t.orders[i].id)]
  {
  }
}

=== FILE: profile.dfy ===
/** The customer's profile page (src/pages/user/Profile.jsx): the avatar letter, the
    profile-update request and how its reply is merged into the stored session, the
    cart's remove-and-refetch cycle, the loader that only a successful order fetch
    clears, the placed-only pickup modal, and account deletion. */
module Profile {
  import opened Wrappers
  import opened Text
  import opened Domain
  import opened Auth
  import OrderDisplay

  const UpdatedText := "Profile updated successfully!"
  const UpdateFailedText := "Update failed"
  const RemoveFailedText := "Failed to remove item"
  const DeletionFailedText := "Account deletion failed"
  const LoginRoute := "/login"

  /** `getFirstLetter(formData.name)`: the avatar shown when there is no picture. */
  function FirstLetter(name: Option<string>): (r: string)
    ensures |r| == 1
    ensures !Truthy(name) ==> r == "?"
    ensures Truthy(name) ==> r[0] == UpperAscii(name.value[0])
  {
    if Truthy(name) then [UpperAscii(name.value[0])] else "?"
  }

  /** The letter depends on the first character only, ignores ASCII case, is never a
      lower-case ASCII letter, and shown again as a name it gives itself back. */
  lemma FirstLetterProperties(name: Option<string>, a: string, b: string)
    requires |a| > 0 && |b| > 0
    ensures a[0] == b[0] ==> FirstLetter(Some(a)) == FirstLetter(Some(b))
    ensures 'a' <= a[0] <= 'z' && b[0] as int == a[0] as int - 32 ==> FirstLetter(Some(a)) == FirstLetter(Some(b))
    ensures !('a' <= FirstLetter(name)[0] <= 'z')
    ensures FirstLetter(Some(FirstLetter(name))) == FirstLetter(name)
  {
  }

  /** The edit form. */
  datatype ProfileForm = ProfileForm(name: string, email: string, phone: string, password: string)

  /** The body of `PUT /api/users/profile`. */
  function UpdateParts(f: ProfileForm, image: Option<File>): (parts: seq<Part>)
    ensures Keys(parts) == ["name", "email", "phone"]
                           + (if f.password != "" then ["password"] else [])
                           + (if image.Some? then ["image"] else [])
    ensures parts[0] == Text("name", f.name) && parts[1] == Text("email", f.email) && parts[2] == Text("phone", f.phone)
    ensures forall i :: 0 <= i < |parts| && parts[i].key == "password" ==> parts[i] == Text("password", f.password)
    ensures forall i :: 0 <= i < |parts| && parts[i].key == "image" ==> image.Some? && parts[i] == Upload("image", image.value)
  {
    [Text("name", f.name), Text("email", f.email), Text("phone", f.phone)]
    + (if f.password != "" then [Text("password", f.password)] else [])
    + (if image.Some? then [Upload("image", image.value)] else [])
  }

  /** The profile body names each field once. */
  lemma UpdateKeysDistinct(f: ProfileForm, image: Option<File>)
    ensures DistinctKeys(UpdateParts(f, image))
  {
    var ks := Keys(UpdateParts(f, image));
    var all := ["name", "email", "phone", "password", "image"];
    assert Distinct(all);
    assert ks == all || ks == all[..4] || ks == all[..3] + ["image"] || ks == all[..3];
    assert Distinct(ks) by {
      forall i, j | 0 <= i < j < |ks| ensures ks[i] != ks[j] {
        assert ks[i] == all[i] && (ks[j] == all[j] || (j == 3 && ks[j] == all[4]));
      }
    }
    DistinctKeysOf(UpdateParts(f, image));
  }

  /** Looking up a field name in the profile body finds that field; the password and
      the image are found exactly when they were sent. */
  lemma UpdateReadBack(f: ProfileForm, image: Option<File>)
    ensures Lookup(UpdateParts(f, image), "name") == Some(Text("name", f.name))
    ensures Lookup(UpdateParts(f, image), "email") == Some(Text("email", f.email))
    ensures Lookup(UpdateParts(f, image), "phone") == Some(Text("phone", f.phone))
    ensures Lookup(UpdateParts(f, image), "password") == if f.password != "" then Some(Text("password", f.password)) else None
    ensures Lookup(UpdateParts(f, image), "image") == if image.Some? then Some(Upload("image", image.value)) else None
  {
    var parts := UpdateParts(f, image);
    UpdateKeysDistinct(f, image);
    LookupFinds(parts, 0);
    LookupFinds(parts, 1);
    LookupFinds(parts, 2);
    PasswordFound(f, image);
    ImageFound(f, image);
  }

  lemma PasswordFound(f: ProfileForm, image: Option<File>)
    requires DistinctKeys(UpdateParts(f, image))
    ensures Lookup(UpdateParts(f, image), "password") == if f.password != "" then Some(Text("password", f.password)) else None
  {
    var parts := UpdateParts(f, image);
    if f.password != "" {
      assert parts[3] == Text("password", f.password);
      LookupFinds(parts, 3);
    } else {
      OptionalKeysAreNotFields();
      assert Keys(parts) == ["name", "email", "phone"] + (if image.Some? then ["image"] else []);
    }
  }

  lemma ImageFound(f: ProfileForm, image: Option<File>)
    requires DistinctKeys(UpdateParts(f, image))
    ensures Lookup(UpdateParts(f, image), "image") == if image.Some? then Some(Upload("image", image.value)) else None
  {
    var parts := UpdateParts(f, image);
    if image.Some? {
      assert parts[|parts| - 1] == Upload("image", image.value);
      LookupFinds(parts, |parts| - 1);
    } else {
      OptionalKeysAreNotFields();
      assert Keys(parts) == ["name", "email", "phone"] + (if f.password != "" then ["password"] else []);
    }
  }

  lemma OptionalKeysAreNotFields()
    ensures "password" !in ["name", "email", "phone"] + ["image"]
    ensures "image" !in ["name", "email", "phone"] + ["password"]
    ensures "password" !in ["name", "email", "phone"] && "image" !in ["name", "email", "phone"]
  {
  }

  /** `{ ...userInfo, ...updatedUser }`; spreading a null record adds no keys. */
  function Merge(stored: Option<UserRecord>, updated: UserRecord): (r: UserRecord)
    ensures r.Keys == (if stored.Some? then stored.value.Keys else {}) + updated.Keys
    ensures forall k :: k in updated ==> r[k] == updated[k]
    ensures forall k :: k in r && k !in updated ==> stored.Some? && k in stored.value && r[k] == stored.value[k]
  {
    (if stored.Some? then stored.value else map[]) + updated
  }

  /** Merging the same reply again changes nothing, and an empty reply keeps the
      stored record (and so its token). */
  lemma MergeIdempotent(stored: Option<UserRecord>, updated: UserRecord)
    ensures Merge(Some(Merge(stored, updated)), updated) == Merge(stored, updated)
    ensures stored.Some? ==> Merge(stored, map[]) == stored.value
  {
  }

  /** What submitting the edit form leaves behind. */
  datatype Update = Update(session: Session, editMode: bool, effects: seq<Effect>, reloaded: bool)

  /** `handleUpdateProfile`. With nothing stored, reading the token throws before the
      request is built, and the handler's catch shows the fallback text. */
  function SubmitUpdate(s: Session, editMode: bool, f: ProfileForm, image: Option<File>, reply: Reply<UserRecord>): (u: Update)
    ensures u.session.user == s.user
    ensures s.stored.None? ==> u == Update(s, editMode, [Alert(UpdateFailedText)], false)
    ensures s.stored.Some? ==> |u.effects| == 2 && u.effects[0] == Send(UpdateProfile(UpdateParts(f, image)))
    ensures s.stored.Some? && reply.Ok? ==>
      u.session.stored == Some(Merge(s.stored, reply.data)) && !u.editMode && u.reloaded && u.effects[1] == Alert(UpdatedText)
    ensures s.stored.Some? && reply.Err? ==>
      u.session == s && u.editMode == editMode && !u.reloaded && u.effects[1] == Alert(ErrorText(reply.message, UpdateFailedText))
  {
    if s.stored.None? then Update(s, editMode, [Alert(UpdateFailedText)], false)
    else
      var sent := [Send(UpdateProfile(UpdateParts(f, image)))];
      match reply
      case Ok(updated) => Update(s.(stored := Some(Merge(s.stored, updated))), false, sent + [Alert(UpdatedText)], true)
      case Err(m) => Update(s, editMode, sent + [Alert(ErrorText(m, UpdateFailedText))], false)
  }

  /** The update writes only the stored copy; the page reload that follows restores
      the session from it, so afterwards the user is the merged record, every key the
      reply lacked (the token among them) is kept, and memory and storage agree again. */
  lemma UpdateThenReload(s: Session, editMode: bool, f: ProfileForm, image: Option<File>, updated: UserRecord)
    requires s.stored.Some?
    ensures var u := SubmitUpdate(s, editMode, f, image, Ok(updated));
      var after := Restore(u.session.stored);
      u.reloaded && Synced(after) && after.user == Some(Merge(s.stored, updated))
      && (forall k :: k in s.stored.value && k !in updated ==> k in after.user.value && after.user.value[k] == s.stored.value[k])
  {
  }

  /** One line of the cart, as `GET /api/users/cart` returns it. */
  datatype CartEntry = CartEntry(listingId: string, title: string, quantity: int, price: nat)

  datatype Page = Page(
    loading: bool,
    orders: seq<Order>,
    cart: seq<CartEntry>,
    selected: Option<Order>,    // the order whose pickup modal is open
    ordersPending: nat,         // order fetches sent and not yet answered
    cartPending: nat,           // cart fetches sent and not yet answered
    removing: nat,              // remove requests sent and not yet answered
    effects: seq<Effect>)

  datatype Event =
    | OrdersFetched(fetchedOrders: Reply<seq<Order>>)
    | CartFetched(fetchedCart: Reply<seq<CartEntry>>)
    | RemoveClick(line: nat)        // the bin on the cart line at this index
    | RemoveReply(removed: Reply<()>)
    | PickupClick(row: nat)         // "Pickup Info" on the order row at this index
    | CloseModal

  /** The page as mounted. With a user and a stored session it fetches the profile,
      the orders and the cart; with a user but nothing stored each fetch throws on the
      token read and is only logged. */
  function Mount(s: Session): (p: Page)
    ensures p.loading && p.orders == [] && p.cart == [] && p.selected.None?
    ensures s.user.Some? && s.stored.Some? ==> p.effects == [Send(FetchProfile), Send(FetchMyOrders), Send(FetchCart)]
    ensures !(s.user.Some? && s.stored.Some?) ==> p.effects == [] && p.ordersPending == 0
  {
    if s.user.Some? && s.stored.Some?
    then Page(true, [], [], None, 1, 1, 0, [Send(FetchProfile), Send(FetchMyOrders), Send(FetchCart)])
    else Page(true, [], [], None, 0, 0, 0, [])
  }

  function Next(p: Page, e: Event): Page {
    match e
    case OrdersFetched(reply) =>
      if p.ordersPending == 0 then p
      else (match reply
        case Ok(os) => p.(ordersPending := p.ordersPending - 1, orders := os, loading := false)
        case Err(_) => p.(ordersPending := p.ordersPending - 1))
    case CartFetched(reply) =>
      if p.cartPending == 0 then p
      else (match reply
        case Ok(c) => p.(cartPending := p.cartPending - 1, cart := c)
        case Err(_) => p.(cartPending := p.cartPending - 1))
    case RemoveClick(i) =>
      // While loading only the loader is rendered.
      if p.loading || i >= |p.cart| then p
      else p.(removing := p.removing + 1, effects := p.effects + [Send(RemoveCartItem(p.cart[i].listingId))])
    case RemoveReply(reply) =>
      if p.removing == 0 then p
      else (match reply
        case Ok(_) => p.(removing := p.removing - 1, cartPending := p.cartPending + 1, effects := p.effects + [Send(FetchCart)])
        case Err(_) => p.(removing := p.removing - 1, effects := p.effects + [Alert(RemoveFailedText)]))
    case PickupClick(i) =>
      if !p.loading && i < |p.orders| && OrderDisplay.OffersPickup(p.orders[i]) then p.(selected := Some(p.orders[i])) else p
    case CloseModal => p.(selected := None)
  }

  function Run(p: Page, es: seq<Event>): Page
    decreases |es|
  {
    if es == [] then p else Run(Next(p, es[0]), es[1..])
  }

  /** A successful order fetch among the events. */
  predicate SomeOrdersArrived(es: seq<Event>) {
    exists i :: 0 <= i < |es| && es[i].OrdersFetched? && es[i].fetchedOrders.Ok?
  }

  /** A successful cart fetch among the events. */
  predicate SomeCartArrived(es: seq<Event>) {
    exists i :: 0 <= i < |es| && es[i].CartFetched? && es[i].fetchedCart.Ok?
  }

  /** The loader goes away only through a successful order fetch: a failed one leaves
      it, and once gone it does not come back. */
  lemma {:induction false} LoaderClearedOnlyByOrders(p: Page, es: seq<Event>)
    ensures p.loading && !Run(p, es).loading ==> SomeOrdersArrived(es)
    ensures !p.loading ==> !Run(p, es).loading
    decreases |es|
  {
    if es != [] {
      LoaderClearedOnlyByOrders(Next(p, es[0]), es[1..]);
      if p.loading && !Run(p, es).loading {
        if Next(p, es[0]).loading {
          var j :| 0 <= j < |es[1..]| && es[1..][j].OrdersFetched? && es[1..][j].fetchedOrders.Ok?;
          assert es[j + 1] == es[1..][j];
        } else {
          assert es[0].OrdersFetched? && es[0].fetchedOrders.Ok?;
        }
      }
    }
  }

  /** The cart on screen changes only through a successful cart fetch; removing a line
      never edits it locally. */
  lemma {:induction false} CartChangesOnlyByFetch(p: Page, es: seq<Event>)
    ensures Run(p, es).cart != p.cart ==> SomeCartArrived(es)
    decreases |es|
  {
    if es != [] {
      var p1 := Next(p, es[0]);
      CartChangesOnlyByFetch(p1, es[1..]);
      if Run(p, es).cart != p.cart {
        if p1.cart != p.cart {
          assert es[0].CartFetched? && es[0].fetchedCart.Ok?;
        } else {
          var j :| 0 <= j < |es[1..]| && es[1..][j].CartFetched? && es[1..][j].fetchedCart.Ok?;
          assert es[j + 1] == es[1..][j];
        }
      }
    }
  }

  /** A removal that succeeds asks for the cart again; one that fails alerts; neither
      touches the cart shown. */
  lemma RemoveOutcomes(p: Page, reply: Reply<()>)
    requires p.removing > 0
    ensures Next(p, RemoveReply(reply)).cart == p.cart
    ensures reply.Ok? ==> Next(p, RemoveReply(reply)).effects == p.effects + [Send(FetchCart)]
    ensures reply.Err? ==> Next(p, RemoveReply(reply)).effects == p.effects + [Alert("Failed to remove item")]
  {
  }

  /** While the loader shows nothing can be clicked. */
  lemma LoaderBlocksInput(p: Page, i: nat)
    requires p.loading
    ensures Next(p, RemoveClick(i)) == p && Next(p, PickupClick(i)) == p
  {
  }

  /** The pickup modal opens only for a placed order, and then shows its id as the QR
      value and its pickup code as the manual code. */
  lemma PickupModalOnlyPlaced(p: Page, i: nat)
    ensures var q := Next(p, PickupClick(i));
      q.selected != p.selected ==>
        i < |p.orders| && p.orders[i].status == Placed && q.selected == Some(p.orders[i])
        && OrderDisplay.ProfilePickup(q.selected.value).qrValue == p.orders[i].id
  {
  }

  /** "Delete Account": nothing without confirmation; success logs out and goes to the
      login page; failure (or nothing stored to take a token from) only alerts. */
  function DeleteAccountFlow(s: Session, confirmed: bool, reply: Reply<()>): (r: (Session, seq<Effect>))
    ensures !confirmed ==> r == (s, [])
    ensures r.0 != s ==> confirmed && s.stored.Some? && reply.Ok? && r.0 == Logout(s)
    ensures Navigate(LoginRoute) in r.1 <==> confirmed && s.stored.Some? && reply.Ok?
    ensures confirmed && !(s.stored.Some? && reply.Ok?) ==> |r.1| > 0 && r.1[|r.1| - 1] == Alert(DeletionFailedText)
  {
    if !confirmed then (s, [])
    else if s.stored.None? then (s, [Alert(DeletionFailedText)])
    else match reply
      case Ok(_) => (Logout(s), [Send(DeleteAccount), Navigate(LoginRoute)])
      case Err(_) => (s, [Send(DeleteAccount), Alert(DeletionFailedText)])
  }
}

=== FILE: registration.dfy ===
/** The two sign-up forms (src/pages/RegisterVendor.jsx, src/pages/RegisterUser.jsx):
    how each takes in the location picker's details, the multipart body each submits,
    and where each goes afterwards.

    The restaurant form keeps what was there when the picker has nothing better; the
    customer form overwrites its place, district and state with the picker's values or
    with empty strings. */
module Registration {
  import opened Wrappers
  import opened Domain
  import opened Auth
  import Location

  /** The restaurant form, fields in the order the form state declares them. */
  datatype VendorForm = VendorForm(
    name: string, ownerName: string, email: string, password: string, phone: string,
    address: string, description: string, licenseNumber: string,
    place: string, district: string, state: string)

  datatype VendorPage = VendorPage(form: VendorForm, coordinates: Option<Coordinates>, image: Option<File>)

  /** `handleLocationSelect`: each address field takes the picker's value when it is
      truthy and keeps its own otherwise; the coordinates change only when given. */
  function VendorSelect(p: VendorPage, loc: Location.Details): (r: VendorPage)
    ensures r.image == p.image
    ensures r.form.name == p.form.name && r.form.ownerName == p.form.ownerName && r.form.email == p.form.email
    ensures r.form.password == p.form.password && r.form.phone == p.form.phone
    ensures r.form.licenseNumber == p.form.licenseNumber && r.form.description == p.form.description
    ensures r.form.place == (if Truthy(loc.city) then loc.city.value else p.form.place)
    ensures r.form.district == (if Truthy(loc.district) then loc.district.value else p.form.district)
    ensures r.form.state == (if Truthy(loc.state) then loc.state.value else p.form.state)
    ensures r.form.address == (if Truthy(loc.formattedAddress) then loc.formattedAddress.value else p.form.address)
    ensures r.coordinates == (if loc.coordinates.Some? then loc.coordinates else p.coordinates)
  {
    var f := p.form;
    VendorPage(
      f.(place := OrElse(loc.city, f.place), district := OrElse(loc.district, f.district),
         state := OrElse(loc.state, f.state), address := OrElse(loc.formattedAddress, f.address)),
      if loc.coordinates.Some? then loc.coordinates else p.coordinates,
      p.image)
  }

  /** Every field of the form, as text parts in declaration order. */
  function VendorFields(f: VendorForm): seq<Part> {
    [Text("name", f.name), Text("ownerName", f.ownerName), Text("email", f.email), Text("password", f.password),
     Text("phone", f.phone), Text("address", f.address), Text("description", f.description),
     Text("licenseNumber", f.licenseNumber), Text("place", f.place), Text("district", f.district), Text("state", f.state)]
  }

  const VendorKeys: seq<string> :=
    ["name", "ownerName", "email", "password", "phone", "address", "description", "licenseNumber", "place", "district", "state"]

  /** The restaurant's multipart body: the eleven fields, then the image if one was
      chosen, then the coordinates as JSON if there are some. */
  function VendorParts(p: VendorPage): (parts: seq<Part>)
    ensures |parts| == 11 + (if p.image.Some? then 1 else 0) + (if p.coordinates.Some? then 1 else 0)
    ensures parts[..11] == VendorFields(p.form)
    ensures Keys(parts) == VendorKeys + (if p.image.Some? then ["image"] else []) + (if p.coordinates.Some? then ["coordinates"] else [])
    ensures p.image.Some? ==> parts[11] == Upload("image", p.image.value)
    ensures p.coordinates.Some? ==> parts[|parts| - 1] == CoordinatesJson("coordinates", p.coordinates.value)
  {
    var withImage := VendorFields(p.form) + (if p.image.Some? then [Upload("image", p.image.value)] else []);
    var parts := withImage + (if p.coordinates.Some? then [CoordinatesJson("coordinates", p.coordinates.value)] else []);
    assert parts[..11] == VendorFields(p.form);
    assert Keys(parts) == Keys(VendorFields(p.form)) + Keys(parts[11..]);
    parts
  }

  /** The restaurant's body names each field once. */
  lemma VendorKeysDistinct(p: VendorPage)
    ensures DistinctKeys(VendorParts(p))
  {
    var ks := Keys(VendorParts(p));
    var all := VendorKeys + ["image", "coordinates"];
    assert Distinct(all);
    assert ks == all || ks == VendorKeys + ["image"] || ks == VendorKeys + ["coordinates"] || ks == VendorKeys;
    assert Distinct(ks) by {
      forall i, j | 0 <= i < j < |ks| ensures ks[i] != ks[j] {
        assert ks[i] == all[i] && (ks[j] == all[j] || (j == 11 && ks[j] == all[12]));
      }
    }
    DistinctKeysOf(VendorParts(p));
  }

  /** Looking up any field name in the restaurant's body finds that field, wherever
      the optional image shifts the coordinates to. */
  lemma VendorReadBack(p: VendorPage)
    ensures forall i :: 0 <= i < 11 ==> Lookup(VendorParts(p), VendorKeys[i]) == Some(VendorFields(p.form)[i])
    ensures Lookup(VendorParts(p), "image") == if p.image.Some? then Some(Upload("image", p.image.value)) else None
    ensures Lookup(VendorParts(p), "coordinates")
      == if p.coordinates.Some? then Some(CoordinatesJson("coordinates", p.coordinates.value)) else None
  {
    VendorKeysDistinct(p);
    LookupAll(VendorParts(p));
    VendorFieldsFound(p);
    VendorImageFound(p);
    VendorCoordinatesFound(p);
  }

  lemma VendorFieldsFound(p: VendorPage)
    requires forall i :: 0 <= i < |VendorParts(p)| ==> Lookup(VendorParts(p), VendorParts(p)[i].key) == Some(VendorParts(p)[i])
    ensures forall i :: 0 <= i < 11 ==> Lookup(VendorParts(p), VendorKeys[i]) == Some(VendorFields(p.form)[i])
  {
    var parts := VendorParts(p);
    forall i | 0 <= i < 11 ensures Lookup(parts, VendorKeys[i]) == Some(VendorFields(p.form)[i]) {
      assert parts[..11][i] == VendorFields(p.form)[i];
      assert Keys(parts)[i] == VendorKeys[i];
    }
  }

  lemma VendorImageFound(p: VendorPage)
    requires DistinctKeys(VendorParts(p))
    ensures Lookup(VendorParts(p), "image") == if p.image.Some? then Some(Upload("image", p.image.value)) else None
  {
    var parts := VendorParts(p);
    ExtraKeysAreNotFields();
    if p.image.Some? {
      LookupFinds(parts, 11);
    } else {
      assert "image" !in Keys(parts) by {
        assert Keys(parts) == VendorKeys + (if p.coordinates.Some? then ["coordinates"] else []);
      }
    }
  }

  lemma VendorCoordinatesFound(p: VendorPage)
    requires DistinctKeys(VendorParts(p))
    ensures Lookup(VendorParts(p), "coordinates")
      == if p.coordinates.Some? then Some(CoordinatesJson("coordinates", p.coordinates.value)) else None
  {
    var parts := VendorParts(p);
    ExtraKeysAreNotFields();
    if p.coordinates.Some? {
      LookupFinds(parts, |parts| - 1);
    } else {
      assert "coordinates" !in Keys(parts) by {
        assert Keys(parts) == VendorKeys + (if p.image.Some? then ["image"] else []);
      }
    }
  }

  lemma ExtraKeysAreNotFields()
    ensures "image" !in VendorKeys && "coordinates" !in VendorKeys && "image" != "coordinates"
  {
  }

  /** A page after its submission: the session, where it navigated, and the error
      banner. Each submit function takes the banner `shown` from an earlier attempt; a
      success leaves it as it was, since the page never clears it. */
  datatype Submitted = Submitted(session: Session, navigatedTo: Option<string>, error: string)

  const VendorDashboardRoute := "/vendor-dashboard"
  const MarketplaceRoute := "/"

  /** `handleSubmit` of the restaurant form, given the server's answer to the body. */
  function SubmitVendor(s: Session, shown: string, reply: Reply<UserRecord>): (r: Submitted)
    ensures r.session == Auth.RegisterVendor(s, reply).0
    ensures reply.Ok? ==> r.navigatedTo == Some(VendorDashboardRoute) && r.session == Session(Some(reply.data), Some(reply.data))
    ensures reply.Ok? ==> r.error == shown
    ensures reply.Err? ==> r.navigatedTo == None && r.session == s && r.error == ErrorText(reply.message, RegistrationFailedText)
  {
    var (session, outcome) := Auth.RegisterVendor(s, reply);
    match outcome
    case Returned(_) => Submitted(session, Some(VendorDashboardRoute), shown)
    case Threw(e) => Submitted(session, None, e)
  }

  /** The customer form. */
  datatype UserPage = UserPage(
    name: string, email: string, password: string, phone: string,
    place: string, district: string, state: string,
    coordinates: Option<Coordinates>, image: Option<File>)

  /** The customer form's picker callback: place, district and state become the
      picker's values or `''`, and the coordinates become whatever was handed over. */
  function UserSelect(p: UserPage, loc: Location.Details): (r: UserPage)
    ensures r.name == p.name && r.email == p.email && r.password == p.password && r.phone == p.phone && r.image == p.image
    ensures r.place == (if Truthy(loc.city) then loc.city.value else "")
    ensures r.district == (if Truthy(loc.district) then loc.district.value else "")
    ensures r.state == (if Truthy(loc.state) then loc.state.value else "")
    ensures r.coordinates == loc.coordinates
  {
    p.(place := OrElse(loc.city, ""), district := OrElse(loc.district, ""), state := OrElse(loc.state, ""),
       coordinates := loc.coordinates)
  }

  /** The customer's multipart body: the seven text fields, the coordinates if set, the
      image if chosen. */
  function UserParts(p: UserPage): (parts: seq<Part>)
    ensures Keys(parts) == UserKeys + (if p.coordinates.Some? then ["coordinates"] else []) + (if p.image.Some? then ["image"] else [])
    ensures parts[..7] == UserFields(p)
    ensures p.coordinates.Some? ==> parts[7] == CoordinatesJson("coordinates", p.coordinates.value)
    ensures p.image.Some? ==> parts[|parts| - 1] == Upload("image", p.image.value)
  {
    var fields := UserFields(p);
    var withCoords := fields + (if p.coordinates.Some? then [CoordinatesJson("coordinates", p.coordinates.value)] else []);
    var parts := withCoords + (if p.image.Some? then [Upload("image", p.image.value)] else []);
    assert parts[..7] == fields;
    assert Keys(parts) == Keys(fields) + Keys(parts[7..]);
    parts
  }

  const UserKeys: seq<string> := ["name", "email", "password", "phone", "place", "district", "state"]

  /** The customer's seven text fields, in the order they are appended. */
  function UserFields(p: UserPage): seq<Part> {
    [Text("name", p.name), Text("email", p.email), Text("password", p.password), Text("phone", p.phone),
     Text("place", p.place), Text("district", p.district), Text("state", p.state)]
  }

  /** The customer's body names each field once. */
  lemma UserKeysDistinct(p: UserPage)
    ensures DistinctKeys(UserParts(p))
  {
    var ks := Keys(UserParts(p));
    var all := UserKeys + ["coordinates", "image"];
    assert Distinct(all);
    assert ks == all || ks == UserKeys + ["coordinates"] || ks == UserKeys + ["image"] || ks == UserKeys;
    assert Distinct(ks) by {
      forall i, j | 0 <= i < j < |ks| ensures ks[i] != ks[j] {
        assert ks[i] == all[i] && (ks[j] == all[j] || (j == 7 && ks[j] == all[8]));
      }
    }
    DistinctKeysOf(UserParts(p));
  }

  /** Looking up any field name in the customer's body finds that field, wherever the
      optional coordinates shift the image to. */
  lemma UserReadBack(p: UserPage)
    ensures forall i :: 0 <= i < 7 ==> Lookup(UserParts(p), UserKeys[i]) == Some(UserFields(p)[i])
    ensures Lookup(UserParts(p), "coordinates")
      == if p.coordinates.Some? then Some(CoordinatesJson("coordinates", p.coordinates.value)) else None
    ensures Lookup(UserParts(p), "image") == if p.image.Some? then Some(Upload("image", p.image.value)) else None
  {
    UserKeysDistinct(p);
    LookupAll(UserParts(p));
    UserFieldsFound(p);
    UserCoordinatesFound(p);
    UserImageFound(p);
  }

  lemma UserFieldsFound(p: UserPage)
    requires forall i :: 0 <= i < |UserParts(p)| ==> Lookup(UserParts(p), UserParts(p)[i].key) == Some(UserParts(p)[i])
    ensures forall i :: 0 <= i < 7 ==> Lookup(UserParts(p), UserKeys[i]) == Some(UserFields(p)[i])
  {
    var parts := UserParts(p);
    forall i | 0 <= i < 7 ensures Lookup(parts, UserKeys[i]) == Some(UserFields(p)[i]) {
      assert parts[..7][i] == UserFields(p)[i];
      assert Keys(parts)[i] == UserKeys[i];
    }
  }

  lemma UserCoordinatesFound(p: UserPage)
    requires DistinctKeys(UserParts(p))
    ensures Lookup(UserParts(p), "coordinates")
      == if p.coordinates.Some? then Some(CoordinatesJson("coordinates", p.coordinates.value)) else None
  {
    var parts := UserParts(p);
    UserExtraKeysAreNotFields();
    if p.coordinates.Some? {
      LookupFinds(parts, 7);
    } else {
      assert "coordinates" !in Keys(parts) by {
        assert Keys(parts) == UserKeys + (if p.image.Some? then ["image"] else []);
      }
    }
  }

  lemma UserImageFound(p: UserPage)
    requires DistinctKeys(UserParts(p))
    ensures Lookup(UserParts(p), "image") == if p.image.Some? then Some(Upload("image", p.image.value)) else None
  {
    var parts := UserParts(p);
    UserExtraKeysAreNotFields();
    if p.image.Some? {
      LookupFinds(parts, |parts| - 1);
    } else {
      assert "image" !in Keys(parts) by {
        assert Keys(parts) == UserKeys + (if p.coordinates.Some? then ["coordinates"] else []);
      }
    }
  }

  lemma UserExtraKeysAreNotFields()
    ensures "image" !in UserKeys && "coordinates" !in UserKeys && "image" != "coordinates"
  {
  }

  /** `handleSubmit` of the customer form. */
  function SubmitUser(s: Session, shown: string, reply: Reply<UserRecord>): (r: Submitted)
    ensures r.session == Auth.RegisterUser(s, reply).0
    ensures reply.Ok? ==> r.navigatedTo == Some(MarketplaceRoute) && r.session == Session(Some(reply.data), Some(reply.data))
    ensures reply.Ok? ==> r.error == shown
    ensures reply.Err? ==> r.navigatedTo == None && r.session == s && r.error == ErrorText(reply.message, RegistrationFailedText)
  {
    var (session, outcome) := Auth.RegisterUser(s, reply);
    match outcome
    case Returned(_) => Submitted(session, Some(MarketplaceRoute), shown)
    case Threw(e) => Submitted(session, None, e)
  }

  /** The two merge policies side by side: the restaurant form's merge never loses a
      typed value and applying the same details twice changes nothing more; the
      customer form's erases a typed place when the picker has no city, and drops
      earlier coordinates when none are handed over. */
  lemma MergePolicies(v: VendorPage, u: UserPage, loc: Location.Details)
    ensures VendorSelect(VendorSelect(v, loc), loc) == VendorSelect(v, loc)
    ensures UserSelect(UserSelect(u, loc), loc) == UserSelect(u, loc)
    ensures v.form.place != "" ==> VendorSelect(v, loc).form.place != ""
    ensures !Truthy(loc.city) ==> VendorSelect(v, loc).form.place == v.form.place && UserSelect(u, loc).place == ""
    ensures loc.coordinates.None? ==> VendorSelect(v, loc).coordinates == v.coordinates && UserSelect(u, loc).coordinates.None?
  {
  }

  /** With a full set of details both forms end up with the same place, district, state
      and coordinates; the picker's lookup-failure details (coordinates only) leave the
      restaurant's address fields alone and blank the customer's. */
  lemma PoliciesAgreeOnFullDetails(v: VendorPage, u: UserPage, loc: Location.Details)
    ensures Truthy(loc.city) && Truthy(loc.district) && Truthy(loc.state) && loc.coordinates.Some? ==>
      var vf, uf := VendorSelect(v, loc), UserSelect(u, loc);
      vf.form.place == uf.place && vf.form.district == uf.district && vf.form.state == uf.state && vf.coordinates == uf.coordinates
    ensures loc.city.None? && loc.district.None? && loc.state.None? && loc.formattedAddress.None? && loc.coordinates.Some? ==>
      VendorSelect(v, loc).form == v.form && UserSelect(u, loc).place == "" && UserSelect(u, loc).state == ""
  {
  }
}

=== FILE: support_bot.dfy ===
/** The help widget (src/components/AiSupportBot.jsx): three canned questions, a
    first-match substring classifier that picks the reply, and a chat log that gets the
    question at once and the reply when the 1.5-second timer fires.

    The widget's classifier looks for "food safety", which its own safety button ("Is
    the food safe?") does not contain; `Classify` is that code as written, and
    `ClassifyIntended` looks for "food safe". The chat takes the classifier as a
    parameter: its invariant holds for any classifier, the widget runs it with
    `Classify`, and with `ClassifyIntended` the safety button gets its answer. */
module SupportBot {
  import opened Text

  datatype Intent = HowItWorks | Refund | Safety | Fallback

  const HowKey := "How does this work"
  const RefundKey := "refund"
  const SafetyKey := "food safe"
  const SafetyKeyAsWritten := SafetyKey + "y"     // "food safety"

  // The three buttons' texts: "How does this work?", "Can I get a refund?" and
  // "Is the food safe?".
  const HowQuestion := HowKey + "?"
  const RefundQuestion := "Can I get a " + RefundKey + "?"
  const SafetyQuestion := "Is the " + SafetyKey + "?"

  const GreetingText := "Hi! I'm the Surplus Support Bot. How can I help you today?"
  const HowText := "It's simple! Restaurants list their surplus food at a discount. You book it here and pick it up during the specified time slot. This reduces waste and saves you money!"
  const RefundText := "If a restaurant cancels your order, you get a full refund instantly. However, if you miss your pickup time, we cannot offer a refund as the food is perishable."
  const SafetyText := "Safety is our priority. All partners are verified. We recommend consuming the food within 4 hours of pickup and checking it before consumption."
  const FallbackText := "I'm still learning! Please contact our support team at help@surplusmarket.com for more complex queries."

  /** The classifier as written: case-sensitive `includes`, first match wins. */
  function Classify(q: string): (i: Intent)
    ensures i == HowItWorks <==> Contains(q, HowKey)
    ensures i == Refund <==> !Contains(q, HowKey) && Contains(q, RefundKey)
    ensures i == Safety <==> !Contains(q, HowKey) && !Contains(q, RefundKey) && Contains(q, SafetyKeyAsWritten)
  {
    if Contains(q, HowKey) then HowItWorks
    else if Contains(q, RefundKey) then Refund
    else if Contains(q, SafetyKeyAsWritten) then Safety
    else Fallback
  }

  /** The classifier with the safety test the button's wording needs. */
  function ClassifyIntended(q: string): (i: Intent)
    ensures i == HowItWorks <==> Contains(q, HowKey)
    ensures i == Refund <==> !Contains(q, HowKey) && Contains(q, RefundKey)
    ensures i == Safety <==> !Contains(q, HowKey) && !Contains(q, RefundKey) && Contains(q, SafetyKey)
  {
    if Contains(q, HowKey) then HowItWorks
    else if Contains(q, RefundKey) then Refund
    else if Contains(q, SafetyKey) then Safety
    else Fallback
  }

  function ReplyText(i: Intent): string {
    match i
    case HowItWorks => HowText
    case Refund => RefundText
    case Safety => SafetyText
    case Fallback => FallbackText
  }

  /** Every character of a contained text occurs in the container. */
  lemma ContainedChars(s: string, t: string, c: char)
    requires Contains(s, t) && c in t
    ensures c in s
  {
    ContainsIffOccurs(s, t);
    var i :| OccursAt(s, t, i);
    var j :| 0 <= j < |t| && t[j] == c;
    assert s[i..i + |t|][j] == s[i + j];
  }

  /** `s` followed by more text contains `s`. */
  lemma ContainsPrefix(s: string, rest: string)
    ensures Contains(s + rest, s)
  {
    assert (s + rest)[..|s|] == s;
  }

  /** A text that occurs in the middle of another. */
  lemma ContainsMiddle(pre: string, t: string, post: string)
    ensures Contains(pre + t + post, t)
  {
    ContainsIffOccurs(pre + t + post, t);
    assert (pre + t + post)[|pre|..|pre| + |t|] == t;
    assert OccursAt(pre + t + post, t, |pre|);
  }

  /** "food safety" contains "food safe", so whatever reaches the safety answer as
      written still does. */
  lemma SafetyKeyWeaker(q: string)
    requires Contains(q, SafetyKeyAsWritten)
    ensures Contains(q, SafetyKey)
  {
    ContainsIffOccurs(q, SafetyKeyAsWritten);
    var i :| OccursAt(q, SafetyKeyAsWritten, i);
    assert q[i..i + |SafetyKey|] == q[i..i + |SafetyKeyAsWritten|][..|SafetyKey|];
    assert OccursAt(q, SafetyKey, i);
    ContainsIffOccurs(q, SafetyKey);
  }

  /** A text with a character the container lacks is not contained in it. */
  lemma MissingChar(s: string, t: string, c: char)
    requires c in t && c !in s
    ensures !Contains(s, t)
  {
    if Contains(s, t) {
      ContainedChars(s, t, c);
    }
  }

  lemma HowButton()
    ensures Contains(HowQuestion, HowKey)
  {
    ContainsPrefix(HowKey, "?");
  }

  lemma RefundButton()
    ensures !Contains(RefundQuestion, HowKey) && Contains(RefundQuestion, RefundKey)
  {
    ContainsMiddle("Can I get a ", RefundKey, "?");
    assert HowKey[0] == 'H';
    assert 'H' !in RefundQuestion;
    MissingChar(RefundQuestion, HowKey, 'H');
  }

  lemma SafetyButton()
    ensures !Contains(SafetyQuestion, HowKey) && !Contains(SafetyQuestion, RefundKey)
    ensures !Contains(SafetyQuestion, SafetyKeyAsWritten) && Contains(SafetyQuestion, SafetyKey)
  {
    ContainsMiddle("Is the ", SafetyKey, "?");
    assert HowKey[0] == 'H' && 'H' !in SafetyQuestion;
    MissingChar(SafetyQuestion, HowKey, 'H');
    assert RefundKey[0] == 'r' && 'r' !in SafetyQuestion;
    MissingChar(SafetyQuestion, RefundKey, 'r');
    assert SafetyKeyAsWritten[|SafetyKey|] == 'y' && 'y' !in SafetyQuestion;
    MissingChar(SafetyQuestion, SafetyKeyAsWritten, 'y');
  }

  /** As written, the how-it-works and refund buttons get their answers but the safety
      button gets the fallback: it has no 'y', and "food safety" does. */
  lemma ButtonsAsWritten()
    ensures Classify(HowQuestion) == HowItWorks
    ensures Classify(RefundQuestion) == Refund
    ensures Classify(SafetyQuestion) == Fallback
  {
    HowButton();
    RefundButton();
    SafetyButton();
  }

  /** With the corrected test each button gets its own answer, and the correction only
      turns fallbacks into safety answers. */
  lemma ButtonsIntended(q: string)
    ensures ClassifyIntended(HowQuestion) == HowItWorks
    ensures ClassifyIntended(RefundQuestion) == Refund
    ensures ClassifyIntended(SafetyQuestion) == Safety
    ensures Classify(q) != Fallback ==> ClassifyIntended(q) == Classify(q)
    ensures Classify(q) != ClassifyIntended(q) ==> Classify(q) == Fallback && ClassifyIntended(q) == Safety
  {
    HowButton();
    RefundButton();
    SafetyButton();
    if Classify(q) == Safety {
      SafetyKeyWeaker(q);
    }
  }

  datatype Sender = BotSender | UserSender

  datatype Message = Message(id: int, text: string, sender: Sender)

  /** The chat: its log, the typing indicator, and the questions whose timers have not
      fired yet (all timers wait the same 1.5 s, so they fire in the order asked). */
  datatype Chat = Chat(messages: seq<Message>, isTyping: bool, queued: seq<string>)

  datatype Event =
    | Ask(button: nat, now: int)     // one of the three buttons, at `Date.now()`
    | TimerFires(at: int)

  const Buttons: seq<string> := [HowQuestion, RefundQuestion, SafetyQuestion]

  function Start(): (c: Chat)
    ensures |c.messages| == 1 && c.messages[0].sender == BotSender && c.messages[0].text == GreetingText
    ensures !c.isTyping && c.queued == []
  {
    Chat([Message(1, GreetingText, BotSender)], false, [])
  }

  /** One event, with `classify` choosing each reply. */
  function Next(classify: string -> Intent, c: Chat, e: Event): Chat {
    match e
    case Ask(b, now) =>
      if b >= |Buttons| then c
      else c.(messages := c.messages + [Message(now, Buttons[b], UserSender)], isTyping := true, queued := c.queued + [Buttons[b]])
    case TimerFires(now) =>
      if c.queued == [] then c
      else c.(messages := c.messages + [Message(now + 1, ReplyText(classify(c.queued[0])), BotSender)],
              isTyping := false, queued := c.queued[1..])
  }

  function Run(classify: string -> Intent, c: Chat, es: seq<Event>): Chat
    decreases |es|
  {
    if es == [] then c else Run(classify, Next(classify, c, es[0]), es[1..])
  }

  /** The texts of one side's messages, in order. */
  function Texts(ms: seq<Message>, who: Sender): seq<string>
    decreases |ms|
  {
    if ms == [] then []
    else Texts(ms[..|ms| - 1], who) + (if ms[|ms| - 1].sender == who then [ms[|ms| - 1].text] else [])
  }

  lemma TextsAppend(ms: seq<Message>, m: Message, who: Sender)
    ensures Texts(ms + [m], who) == Texts(ms, who) + (if m.sender == who then [m.text] else [])
  {
    assert (ms + [m])[..|ms|] == ms;
  }

  /** The log is the greeting, then the questions, with the k-th reply answering the
      k-th question; the questions not yet answered are exactly the queue; the typing
      indicator shows only while some reply is pending. */
  predicate Conversation(classify: string -> Intent, c: Chat) {
    var us := Texts(c.messages, UserSender);
    var bs := Texts(c.messages, BotSender);
    |bs| >= 1 && bs[0] == GreetingText
    && |us| == |bs| - 1 + |c.queued|
    && (forall k :: 0 <= k < |bs| - 1 ==> bs[k + 1] == ReplyText(classify(us[k])))
    && c.queued == us[|bs| - 1..]
    && (c.isTyping ==> c.queued != [])
  }

  lemma StartConversation(classify: string -> Intent)
    ensures Conversation(classify, Start())
  {
    var ms := Start().messages;
    assert ms[..0] == [];
    assert Texts(ms, BotSender) == [GreetingText];
    assert Texts(ms, UserSender) == [];
  }

  /** Each step appends exactly one message and keeps every earlier one. */
  lemma NextAppendsOne(classify: string -> Intent, c: Chat, e: Event)
    ensures var d := Next(classify, c, e);
      d == c || (|d.messages| == |c.messages| + 1 && d.messages[..|c.messages|] == c.messages)
    ensures e.Ask? && e.button < 3 ==>
      Next(classify, c, e).messages[|c.messages|].sender == UserSender && Next(classify, c, e).isTyping
    ensures e.TimerFires? && c.queued != [] ==>
      Next(classify, c, e).messages[|c.messages|].sender == BotSender && !Next(classify, c, e).isTyping
  {
  }

  lemma AskConversation(classify: string -> Intent, c: Chat, b: nat, now: int)
    requires Conversation(classify, c)
    ensures Conversation(classify, Next(classify, c, Ask(b, now)))
  {
    if b < |Buttons| {
      var us, bs := Texts(c.messages, UserSender), Texts(c.messages, BotSender);
      var m := Message(now, Buttons[b], UserSender);
      TextsAppend(c.messages, m, UserSender);
      TextsAppend(c.messages, m, BotSender);
      var us2 := us + [Buttons[b]];
      assert us2[|bs| - 1..] == us[|bs| - 1..] + [Buttons[b]];
      forall k | 0 <= k < |bs| - 1 ensures us2[k] == us[k] { }
    }
  }

  lemma TimerConversation(classify: string -> Intent, c: Chat, now: int)
    requires Conversation(classify, c)
    ensures Conversation(classify, Next(classify, c, TimerFires(now)))
  {
    if c.queued != [] {
      var us, bs := Texts(c.messages, UserSender), Texts(c.messages, BotSender);
      var m := Message(now + 1, ReplyText(classify(c.queued[0])), BotSender);
      TextsAppend(c.messages, m, UserSender);
      TextsAppend(c.messages, m, BotSender);
      assert c.queued[0] == us[|bs| - 1];
      assert us[|bs|..] == c.queued[1..];
      RepliesExtend(classify, us, bs, m.text);
    }
  }

  /** Appending the reply to the first pending question keeps every reply matched
      to its question. */
  lemma RepliesExtend(classify: string -> Intent, us: seq<string>, bs: seq<string>, reply: string)
    requires 1 <= |bs| && |bs| - 1 < |us|
    requires forall k :: 0 <= k < |bs| - 1 ==> bs[k + 1] == ReplyText(classify(us[k]))
    requires reply == ReplyText(classify(us[|bs| - 1]))
    ensures forall k :: 0 <= k < |bs| ==> (bs + [reply])[k + 1] == ReplyText(classify(us[k]))
  {
    forall k | 0 <= k < |bs| ensures (bs + [reply])[k + 1] == ReplyText(classify(us[k])) {
      if k < |bs| - 1 {
        assert (bs + [reply])[k + 1] == bs[k + 1];
      }
    }
  }

  /** Whatever is clicked and whenever the timers fire, the log stays a well-formed
      conversation: every question gets the reply the classifier picks for its own
      text, in order. This holds for the widget's `Classify` and for any other. */
  lemma {:induction false} RunConversation(classify: string -> Intent, c: Chat, es: seq<Event>)
    requires Conversation(classify, c)
    ensures Conversation(classify, Run(classify, c, es))
    decreases |es|
  {
    if es != [] {
      match es[0] {
        case Ask(b, now) => AskConversation(classify, c, b, now);
        case TimerFires(now) => TimerConversation(classify, c, now);
      }
      RunConversation(classify, Next(classify, c, es[0]), es[1..]);
    }
  }

  /** The widget's chat from its greeting: every reply is `Classify`'s answer to the
      question it follows. */
  lemma WidgetConversation(es: seq<Event>)
    ensures Conversation(Classify, Run(Classify, Start(), es))
  {
    StartConversation(Classify);
    RunConversation(Classify, Start(), es);
  }

  /** Clicking the safety button: the widget answers with the fallback text, and the
      corrected classifier would answer with the safety text. */
  lemma SafetyButtonInChat()
    ensures Run(Classify, Start(), [Ask(2, 10), TimerFires(20)]).messages
      == [Message(1, GreetingText, BotSender), Message(10, SafetyQuestion, UserSender), Message(21, FallbackText, BotSender)]
    ensures Run(ClassifyIntended, Start(), [Ask(2, 10), TimerFires(20)]).messages
      == [Message(1, GreetingText, BotSender), Message(10, SafetyQuestion, UserSender), Message(21, SafetyText, BotSender)]
  {
    ButtonsAsWritten();
    ButtonsIntended([]);
    var es := [Ask(2, 10), TimerFires(20)];
    assert es[1..][1..] == [];
  }

  /** The indicator is a single flag: with two questions asked, the first reply turns
      it off although the second is still pending. */
  lemma TypingFlagIsShared()
    ensures var c := Run(Classify, Start(), [Ask(0, 10), Ask(1, 20), TimerFires(30)]);
      !c.isTyping && |c.queued| == 1
  {
    var es := [Ask(0, 10), Ask(1, 20), TimerFires(30)];
    assert es[1..][1..][1..] == [];
  }
}

=== FILE: text.dfy ===
/** String helpers standing in for the JavaScript string built-ins the frontend uses:
    `replace(/\D/g, '')`, `startsWith`, `includes`, `slice(-n)`, `toUpperCase` and
    number-to-string conversion. Strings are sequences of characters. */
module Text {

  /** JavaScript's `\d`: an ASCII decimal digit. */
  predicate IsDigit(c: char) {
    '0' <= c <= '9'
  }

  predicate AllDigits(s: string) {
    forall i :: 0 <= i < |s| ==> IsDigit(s[i])
  }

  /** `s.replace(/\D/g, '')`: the digits of `s`, in order. */
  function Digits(s: string): (r: string)
    ensures AllDigits(r)
    ensures |r| <= |s|
  {
    if s == [] then []
    else (if IsDigit(s[0]) then [s[0]] else []) + Digits(s[1..])
  }

  lemma {:induction false} DigitsAppend(a: string, b: string)
    ensures Digits(a + b) == Digits(a) + Digits(b)
  {
    if a == [] {
      assert a + b == b;
    } else {
      assert (a + b)[1..] == a[1..] + b;
      DigitsAppend(a[1..], b);
    }
  }

  /** Removing the non-digits of a digit string changes nothing. */
  lemma {:induction false} DigitsOfDigits(s: string)
    requires AllDigits(s)
    ensures Digits(s) == s
  {
    if s != [] {
      DigitsOfDigits(s[1..]);
    }
  }

  /** `s.startsWith(p)`. */
  predicate StartsWith(s: string, p: string) {
    |p| <= |s| && s[..|p|] == p
  }

  /** `s.includes(t)`, written as a scan over the start positions of `s`. */
  predicate Contains(s: string, t: string)
    decreases |s|
  {
    StartsWith(s, t) || (|s| > 0 && Contains(s[1..], t))
  }

  /** `t` occurs in `s` starting at offset `i`. */
  predicate OccursAt(s: string, t: string, i: int) {
    0 <= i <= |s| - |t| && s[i..i + |t|] == t
  }

  /** The scan agrees with the textbook definition: `t` occurs at some offset of `s`. */
  lemma {:induction false} ContainsIffOccurs(s: string, t: string)
    ensures Contains(s, t) <==> exists i :: OccursAt(s, t, i)
    decreases |s|
  {
    if StartsWith(s, t) {
      assert OccursAt(s, t, 0);
    } else if |s| > 0 {
      ContainsIffOccurs(s[1..], t);
      if Contains(s[1..], t) {
        var i :| OccursAt(s[1..], t, i);
        assert s[i + 1..i + 1 + |t|] == s[1..][i..i + |t|];
        assert OccursAt(s, t, i + 1);
      }
      forall i | OccursAt(s, t, i)
        ensures Contains(s[1..], t)
      {
        assert i != 0;
        assert s[1..][i - 1..i - 1 + |t|] == s[i..i + |t|];
        assert OccursAt(s[1..], t, i - 1);
      }
    } else {
      forall i | OccursAt(s, t, i)
        ensures false
      {
      }
    }
  }

  /** `s.slice(-n)`: the last `n` characters, or all of `s` when it is shorter. */
  function LastN(s: string, n: nat): (r: string)
    ensures |r| == if |s| < n then |s| else n
    ensures s == s[..|s| - |r|] + r
  {
    if |s| < n then s else s[|s| - n..]
  }

  /** The value an input element whose `maxLength` is `n` hands to its `onChange` handler. */
  function Capped(raw: string, n: nat): (r: string)
    ensures |r| == (if |raw| <= n then |raw| else n)
    ensures r == raw[..|r|]
  {
    if |raw| <= n then raw else raw[..n]
  }

  /** `toUpperCase` on one character, restricted to the ASCII letters. */
  function UpperAscii(c: char): (u: char)
    ensures 'a' <= c <= 'z' ==> 'A' <= u <= 'Z' && u as int - c as int == 'A' as int - 'a' as int
    ensures !('a' <= c <= 'z') ==> u == c
  {
    if 'a' <= c <= 'z' then (c as int - 'a' as int + 'A' as int) as char else c
  }

  function DigitChar(d: nat): (c: char)
    requires d < 10
    ensures IsDigit(c)
  {
    ('0' as int + d) as char
  }

  function DigitValue(c: char): (d: nat)
    requires IsDigit(c)
    ensures d < 10 && DigitChar(d) == c
  {
    c as int - '0' as int
  }

  /** The decimal text of a non-negative integer, as JavaScript's `'' + n` writes an integral number. */
  function Decimal(n: nat): (r: string)
    ensures |r| > 0 && AllDigits(r)
    ensures |r| > 1 ==> r[0] != '0'
  {
    if n < 10 then [DigitChar(n)] else Decimal(n / 10) + [DigitChar(n % 10)]
  }

  /** The value a decimal digit string denotes. */
  function DecimalValue(s: string): nat
    requires AllDigits(s)
  {
    if s == [] then 0 else DecimalValue(s[..|s| - 1]) * 10 + DigitValue(s[|s| - 1])
  }

  /** Reading back the decimal text gives the number: the text determines the number. */
  lemma {:induction false} DecimalRoundTrip(n: nat)
    ensures DecimalValue(Decimal(n)) == n
  {
    if n >= 10 {
      DecimalRoundTrip(n / 10);
      var r := Decimal(n);
      assert r[..|r| - 1] == Decimal(n / 10);
    }
  }

  /** Distinct numbers have distinct decimal texts. */
  lemma DecimalInjective(m: nat, n: nat)
    requires Decimal(m) == Decimal(n)
    ensures m == n
  {
    DecimalRoundTrip(m);
    DecimalRoundTrip(n);
  }
}

=== FILE: vendor_dashboard.dfy ===
/** The restaurant owner's dashboard (src/pages/vendor/Dashboard.jsx): the load that
    fetches the restaurant profile and then its listings, the pending-approval view,
    and deleting a listing after confirmation. */
module VendorDashboard {
  import opened Wrappers
  import opened Domain
  import opened Auth
  import Lists
  import Images

  const DeleteFailedText := "Failed to delete"
  const DefaultGreeting := "Restaurant Owner"

  /** `GET /api/vendors/profile`, as far as the page reads it. */
  datatype Info = Info(name: string, email: string, isApproved: bool)

  /** A delete request in flight: the listing id, and the list the click's handler
      captured when it ran. */
  datatype PendingDelete = PendingDelete(id: string, snapshot: seq<Listing>)

  datatype Dash = Dash(
    listings: seq<Listing>,
    info: Option<Info>,
    loading: bool,
    deletes: seq<PendingDelete>,
    effects: seq<Effect>)

  /** The mount-time load: nothing happens without a stored session (the loader stays);
      otherwise the profile is fetched, then the listings, and any failure ends the
      chain with the loader cleared. */
  function Load(stored: Option<UserRecord>, profile: Reply<Info>, own: Reply<seq<Listing>>): (d: Dash)
    ensures d.deletes == []
    ensures stored.None? <==> d.loading
    ensures stored.None? ==> d.effects == [] && d.info.None? && d.listings == []
    ensures stored.Some? ==> |d.effects| > 0 && d.effects[0] == Send(FetchVendorProfile)
    ensures stored.Some? ==> (Send(FetchOwnListings) in d.effects <==> profile.Ok?)
    ensures d.info.Some? <==> stored.Some? && profile.Ok?
    ensures d.listings != [] ==> stored.Some? && profile.Ok? && own.Ok? && d.listings == own.data
  {
    if stored.None? then Dash([], None, true, [], [])
    else match profile
      case Err(_) => Dash([], None, false, [], [Send(FetchVendorProfile)])
      case Ok(info) =>
        var sent := [Send(FetchVendorProfile), Send(FetchOwnListings)];
        match own
        case Err(_) => Dash([], Some(info), false, [], sent)
        case Ok(ls) => Dash(ls, Some(info), false, [], sent)
  }

  /** One card of the management grid. */
  datatype ManageCard = ManageCard(id: string, image: string, editLink: string)

  datatype Screen =
    | Loader
    | PendingApproval(restaurant: string, email: string)
    | Manage(greeting: string, cards: seq<ManageCard>)

  function CardOf(apiBase: Option<string>, l: Listing): ManageCard {
    ManageCard(l.id, Images.ImageUrl(apiBase, l.image), "/vendor/edit-listing/" + l.id)
  }

  /** What the page renders. */
  function ViewOf(apiBase: Option<string>, d: Dash): (s: Screen)
    ensures d.loading <==> s.Loader?
    ensures s.PendingApproval? <==> !d.loading && d.info.Some? && !d.info.value.isApproved
    ensures s.Manage? ==> |s.cards| == |d.listings|
    ensures s.Manage? ==> forall i :: 0 <= i < |d.listings| ==>
      s.cards[i].id == d.listings[i].id && s.cards[i].image == Images.ImageUrl(apiBase, d.listings[i].image)
  {
    if d.loading then Loader
    else if d.info.Some? && !d.info.value.isApproved then PendingApproval(d.info.value.name, d.info.value.email)
    else
      var greeting := if d.info.Some? && d.info.value.name != "" then d.info.value.name else DefaultGreeting;
      Manage(greeting, seq(|d.listings|, i requires 0 <= i < |d.listings| => CardOf(apiBase, d.listings[i])))
  }

  /** An unapproved restaurant sees the pending view whatever its listings are; with no
      stored session the loader never goes away; a failed profile fetch shows the
      management grid under the default greeting. */
  lemma ApprovalGate(apiBase: Option<string>, d: Dash, xs: seq<Listing>, profile: Reply<Info>, own: Reply<seq<Listing>>)
    ensures !d.loading && d.info.Some? && !d.info.value.isApproved ==>
      ViewOf(apiBase, d.(listings := xs)) == ViewOf(apiBase, d) == PendingApproval(d.info.value.name, d.info.value.email)
    ensures ViewOf(apiBase, Load(None, profile, own)) == Loader
    ensures profile.Err? ==> forall u :: ViewOf(apiBase, Load(Some(u), profile, own)) == Manage(DefaultGreeting, [])
  {
  }

  datatype Event =
    | DeleteClick(index: nat, confirmed: bool)   // "Delete" on the card at `index`, and the answer to the prompt
    | DeleteReply(k: nat, deleted: Reply<()>)    // the reply to the k-th request in flight

  /** Where the page can be clicked: the management grid. */
  predicate Interactive(d: Dash) {
    !d.loading && !(d.info.Some? && !d.info.value.isApproved)
  }

  /** The deletion a successful reply applies, as written: the list the handler
      captured, without the id. */
  function ApplyDeleteAsWritten(d: Dash, k: nat): (r: Dash)
    requires k < |d.deletes|
    ensures r.listings == Lists.RemoveById(d.deletes[k].snapshot, ListingId, d.deletes[k].id)
  {
    d.(listings := Lists.RemoveById(d.deletes[k].snapshot, ListingId, d.deletes[k].id),
       deletes := d.deletes[..k] + d.deletes[k + 1..])
  }

  /** The deletion as evidently intended (and as the admin console does it): the
      current list, without the id. */
  function ApplyDelete(d: Dash, k: nat): (r: Dash)
    requires k < |d.deletes|
    ensures r.listings == Lists.RemoveById(d.listings, ListingId, d.deletes[k].id)
    ensures |r.deletes| == |d.deletes| - 1
  {
    d.(listings := Lists.RemoveById(d.listings, ListingId, d.deletes[k].id),
       deletes := d.deletes[..k] + d.deletes[k + 1..])
  }

  function Click(d: Dash, i: nat, confirmed: bool): Dash {
    if !Interactive(d) || i >= |d.listings| || !confirmed then d
    else d.(deletes := d.deletes + [PendingDelete(d.listings[i].id, d.listings)],
            effects := d.effects + [Send(DeleteListing(d.listings[i].id))])
  }

  function Failed(d: Dash, k: nat): Dash
    requires k < |d.deletes|
  {
    d.(deletes := d.deletes[..k] + d.deletes[k + 1..], effects := d.effects + [Alert(DeleteFailedText)])
  }

  /** The page with the corrected deletion. */
  function Next(d: Dash, e: Event): Dash {
    match e
    case DeleteClick(i, confirmed) => Click(d, i, confirmed)
    case DeleteReply(k, reply) =>
      if k >= |d.deletes| then d
      else if reply.Ok? then ApplyDelete(d, k) else Failed(d, k)
  }

  /** The page as written. */
  function NextAsWritten(d: Dash, e: Event): Dash {
    match e
    case DeleteClick(i, confirmed) => Click(d, i, confirmed)
    case DeleteReply(k, reply) =>
      if k >= |d.deletes| then d
      else if reply.Ok? then ApplyDeleteAsWritten(d, k) else Failed(d, k)
  }

  function Run(d: Dash, es: seq<Event>): Dash
    decreases |es|
  {
    if es == [] then d else Run(Next(d, es[0]), es[1..])
  }

  function RunAsWritten(d: Dash, es: seq<Event>): Dash
    decreases |es|
  {
    if es == [] then d else RunAsWritten(NextAsWritten(d, es[0]), es[1..])
  }

  /** A delete is sent only after the prompt is accepted; a single delete that
      succeeds removes exactly that listing and keeps the rest in order (both versions
      agree when nothing else is in flight); a failure alerts and keeps the list. */
  lemma DeleteOutcomes(d: Dash, i: nat, reply: Reply<()>)
    requires Interactive(d) && d.deletes == [] && i < |d.listings| && Lists.UniqueIds(d.listings, ListingId)
    ensures Click(d, i, false) == d
    ensures var c := Click(d, i, true);
      c.effects == d.effects + [Send(DeleteListing(d.listings[i].id))]
      && (reply.Ok? ==> Next(c, DeleteReply(0, reply)).listings == d.listings[..i] + d.listings[i + 1..]
                        && NextAsWritten(c, DeleteReply(0, reply)).listings == Next(c, DeleteReply(0, reply)).listings)
      && (reply.Err? ==> Next(c, DeleteReply(0, reply)).listings == d.listings
                         && Next(c, DeleteReply(0, reply)).effects == c.effects + [Alert("Failed to delete")])
  {
    assert ListingId(d.listings[i]) == d.listings[i].id;
    Lists.RemoveExactlyOne(d.listings, ListingId, i);
  }

  /** Once a delete has succeeded its listing stays gone, whatever else is clicked or
      answered later. */
  lemma {:induction false} DeletedStaysGone(d: Dash, es: seq<Event>, id: string)
    requires Lists.Absent(d.listings, ListingId, id)
    ensures Lists.Absent(Run(d, es).listings, ListingId, id)
    decreases |es|
  {
    if es != [] {
      var d1 := Next(d, es[0]);
      assert Lists.Absent(d1.listings, ListingId, id) by {
        forall j | 0 <= j < |d1.listings| ensures ListingId(d1.listings[j]) != id {
          assert d1.listings[j] in d.listings;
        }
      }
      DeletedStaysGone(d1, es[1..], id);
    }
  }

  /** As written, two deletes clicked before either is answered undo each other: the
      second reply restores the list its click captured, bringing back the listing the
      first reply removed. */
  lemma OverlappingDeletesResurrect(a: Listing, b: Listing)
    requires a.id != b.id
    ensures var d := Dash([a, b], Some(Info("R", "r@x", true)), false, [], []);
      var es := [DeleteClick(0, true), DeleteClick(1, true), DeleteReply(0, Ok(())), DeleteReply(0, Ok(()))];
      RunAsWritten(d, es).listings == [a] && Run(d, es).listings == []
  {
    var d := Dash([a, b], Some(Info("R", "r@x", true)), false, [], []);
    var d1 := Click(d, 0, true);
    var d2 := Click(d1, 1, true);
    assert d2.deletes == [PendingDelete(a.id, [a, b]), PendingDelete(b.id, [a, b])];
    var w3 := ApplyDeleteAsWritten(d2, 0);
    var c3 := ApplyDelete(d2, 0);
    assert Lists.RemoveById([a, b], ListingId, a.id) == [b] by {
      assert [a, b][1..] == [b] && [b][1..] == [];
    }
    assert w3.listings == [b] && c3.listings == [b];
    assert Lists.RemoveById([a, b], ListingId, b.id) == [a] by {
      assert [a, b][1..] == [b] && [b][1..] == [];
    }
    assert Lists.RemoveById([b], ListingId, b.id) == [] by {
      assert [b][1..] == [];
    }
    var es := [DeleteClick(0, true), DeleteClick(1, true), DeleteReply(0, Ok(())), DeleteReply(0, Ok(()))];
    assert es[1..][1..][1..][1..] == [];
  }
}

=== FILE: wrappers.dfy ===
/** Failure-carrying datatypes shared by every component of the storefront model.

    A network call is never performed here: each request the frontend makes is
    answered by a `Reply` value supplied by the caller of the model, carrying either
    the 2xx payload or the optional `message` field of the error body. */
module Wrappers {

  datatype Option<+T> = None | Some(value: T)

  /** What the backend answered to one request: the payload of a 2xx response, or a
      failure (non-2xx, network error) with the `message` field of the error body if
      there was one. */
  datatype Reply<+T> = Ok(data: T) | Err(message: Option<string>)

  /** JavaScript truthiness of an optional string: `undefined`, `null` and `''` are falsy. */
  predicate Truthy(s: Option<string>) {
    s.Some? && s.value != ""
  }

  /** `a || b` where `b` is a string literal. */
  function OrElse(a: Option<string>, b: string): (r: string)
    ensures Truthy(a) ==> r == a.value
    ensures !Truthy(a) ==> r == b
  {
    if Truthy(a) then a.value else b
  }

  /** `a || b` where both operands may be absent: the first truthy operand, else `b` as it is. */
  function Either(a: Option<string>, b: Option<string>): (r: Option<string>)
    ensures Truthy(a) ==> r == a
    ensures !Truthy(a) ==> r == b
  {
    if Truthy(a) then a else b
  }

  /** The text an error handler shows: `error.response?.data?.message || fallback`. */
  function ErrorText(message: Option<string>, fallback: string): (r: string)
    ensures Truthy(message) ==> r == message.value
    ensures !Truthy(message) ==> r == fallback
  {
    OrElse(message, fallback)
  }
}
